=== FILE: README.md ===
# Image tool core, modelled in Dafny

This project models the logic underneath a browser image tool that exists in two builds:

- the `public` build, a plain-script page;
- the `src` build, the same page split into modules, with saved works, autosave, a settings panel and a magnifier.

The tool lets a user do the following:

- upload a picture;
- re-encode it as JPEG, PNG or WebP with a quality or compression level;
- fit it into a maximum width and height;
- crop it with a draggable, resizable box;
- download it at one or several size factors (`@2x`, `@3x`);
- zoom into and pan the preview;
- in the `src` build, save the page as a named "work" in browser storage (at most ten works) and restore it later.

Everything the browser does is a parameter here:

- decoding an image (its decoded size, or failure);
- drawing on a canvas and `toBlob` (success or failure, and whether WebP is supported);
- `localStorage` (a sequence of works, and whether the write succeeded);
- `FileReader` and `fetch` (a function from a blob URL to its data URL);
- the clock (the work id and time stamps).

The model keeps the following:

- the branches, guards, constants and messages of the code;
- pixel geometry as exact `real` arithmetic;
- `Math.round` as the floor of `x + 0.5`;
- canvas sizes as the WebIDL `unsigned long` conversion (truncate toward zero, then modulo 2^32), with the canvas's default side (300 wide, 150 high) for a result above 2^31 - 1, as the HTML canvas element's `width` and `height` setters do;
- the `null` blob `toBlob` hands over for a canvas with a zero side;
- `parseInt` and `trim` with the ECMAScript white space and line terminators, decimal digits, and `NaN` as a separate value.

## Modules

| file | module | what it holds |
|---|---|---|
| common.dfy | `Common` | `Option`/`Result`, the `parseInt` result type `JsInt`, clamps, `Math.round`, canvas size conversion |
| strings.dfy | `Strings` | `split`, `pop`, `replace`, ASCII `toLowerCase`, and `trim` over the ECMAScript white space |
| numbers.dfy | `Numbers` | `parseInt` and decimal rendering, with the round trip between them |
| geometry.dfy | `Geometry` | sizes, rectangles, "inside the image" |
| crop_rules.dfy | `CropRules` | the clamps and the eight-handle resize rule both crop managers share |
| crop_public.dfy | `PublicCropManager` | the public crop manager: full-image start, resize computed from the start geometry |
| crop_src.dfy | `SrcCropManager` | the src crop manager: centred 80% start, resize added to the current box |
| sizing.dfy | `Sizing` | fit-to-bounds ratio, `calculateImageSize`, the PNG shrink rule, crop mapping |
| encoding.dfy | `Encoding` | format to MIME type and quality in both builds and in `imageUtils`, `assessImageQuality`, the multi-size batch |
| page_controls.dfy | `PageControls` | the controls both app builds read, and `parseInt(field) \|\| null` |
| settings.dfy | `Settings` | the quality inputs' clamp and finalize rules, `getCurrentSettings`, `applySettings` |
| work_store.dfy | `WorkManager` | the bounded list of saved works, autosave by name, thumbnail size |
| file_names.dfy | `FileNames` | `generateFileName`, `getSelectedSizes` |
| zoom.dfy | `Zoom` | the src magnifier and the public app's zoom and pan |
| image_info.dfy | `ImageInfo` | the src information panel: format from a data URL, byte estimate, compression ratio, save preview |
| base64.dfy | `Base64` | base64 as in section 4 of RFC 4648, and the forgiving decode `atob` performs |
| uploader.dfy | `Uploader` | the file uploader of both builds, and restoring a file from a `data:` URL (RFC 2397) |
| app_public.dfy | `PublicApp` | the public app's guards, options, crop steps, download name and reset |
| app_src.dfy | `SrcApp` | the src app's options, button table, crop input, downloads, works and autosave |

## Model

| member | source | states |
|---|---|---|
| Common.ClampI | frontend/src/js/modules/settingsManager.js:88-89 | the result lies within the range, equals the value when it already does, and is the nearer end otherwise |
| Common.Round | frontend/src/utils/imageUtils.js:27 | the rounded value is the integer within half a unit of the input, halves going up |
| Common.CanvasDim | frontend/public/js/modules/imageProcessor.js:100-101 | a canvas side is always in [0, 2^31 - 1]: the floor of a size in [0, 2^31), 0 for a size strictly between -1 and 0, and the element's default side for a size in [-2^31, -1] or [2^31, 2^32) |
| Strings.Before | frontend/src/js/modules/fileUploader.js:75 | the text before the first separator, or all of it when there is none; it never contains the separator |
| Strings.SecondField | frontend/src/js/modules/fileUploader.js:74 | the second field exists exactly when the separator occurs, and is the text between its first and second occurrence |
| Strings.SplitAtFirst | frontend/src/js/modules/fileUploader.js:74-75 | splitting `a` + separator + `b`, with `a` free of it, gives back `a` and `b` |
| Strings.LastField | frontend/public/js/modules/uiManager.js:178 | the text after the last separator, a suffix free of it, or all of the text when there is none |
| Strings.ToLower | frontend/src/utils/imageUtils.js:41 | each character is lowered on its own, only `A` to `Z` changing |
| Strings.Trim | frontend/src/js/app.js:601 | the result is exactly the text between the leading blanks and the trailing blanks, where a blank is any ECMAScript white space or line terminator (including U+00A0, U+3000 and U+FEFF); it neither starts nor ends with a blank, and is empty exactly when the text is all blanks |
| Strings.ReplaceFirst | frontend/public/js/modules/uiManager.js:179 | only the first occurrence of the pattern is replaced, and a text without one comes back unchanged |
| CropRules.ClampToImage | frontend/public/js/modules/cropManager.js:107-120 | the typed-in crop box is at least 1×1 with a non-negative origin; for a request at least 1×1 on an image at least 1×1 it ends inside the image; a request already inside comes back unchanged |
| CropRules.DragTo | frontend/public/js/modules/cropManager.js:153-163 | a drag keeps the box size, follows pointer minus anchor when that fits, never leaves the image when the box fits it, and pins the origin at 0 when the box is larger than the image |
| CropRules.ApplyHandle | frontend/public/js/modules/cropManager.js:164-205 | for each of the eight handles, exactly which of x, y, width and height it recomputes from the base geometry (sizes floored at 50, origins at 0) and that every other field keeps its current value |
| CropRules.ClampFarEdges | frontend/public/js/modules/cropManager.js:206-212 | the post-resize clamp never moves the origin and makes the box end at or before the right and bottom edges |
| CropRules.Resize | frontend/src/js/modules/cropManager.js:111-160 | one resize step never overflows the right or bottom edge and keeps a non-negative origin non-negative |
| CropRules.ResizeSouthEast | frontend/public/js/modules/cropManager.js:170-173 | dragging the south-east handle gives base size plus delta, floored at 50, with the origin fixed, whenever the result fits |
| CropRules.ResizeZeroDelta | frontend/public/js/modules/cropManager.js:164-212 | a zero pointer delta on a box inside the image and at least 50 on each side leaves the box unchanged, for every handle |
| CropRules.ResizeCanCollapse | frontend/public/js/modules/cropManager.js:174-178 | the edge clamp can drive the width below zero: the south-west handle dragged 500px right on a 200×200 image gives width −300 |
| PublicCropManager.Create | frontend/public/js/modules/cropManager.js:3-22 | the initial box is 0,0,100,100, with no interaction and crop mode off |
| PublicCropManager.UpdateOverlay | frontend/public/js/modules/cropManager.js:84-92 | the overlay style is written exactly when the box has positive width and height, and is otherwise left as it was |
| PublicCropManager.MeasureImage | frontend/public/js/modules/cropManager.js:27-46 | the layout size is used unless a side is 0, then the bounding size, then the natural size |
| PublicCropManager.InitCrop | frontend/public/js/modules/cropManager.js:48-65 | a zero measured side postpones initialisation; otherwise the box becomes the whole measured image, the overlay becomes active and nothing else changes |
| PublicCropManager.SetCropFromInput | frontend/public/js/modules/cropManager.js:107-120 | the clamped box replaces the current one, lies inside the image for sensible requests and is written to the overlay; interaction state is kept |
| PublicCropManager.StartCropDrag | frontend/public/js/modules/cropManager.js:123-130 | a press on a handle changes nothing; otherwise a drag starts with anchor equal to pointer minus box origin, and nothing else changes: mode, overlay, box and every other field are kept |
| PublicCropManager.StartCropResize | frontend/public/js/modules/cropManager.js:133-144 | a resize records the handle, the box geometry and the pointer position it starts from; mode, overlay, box and every other field are kept |
| PublicCropManager.MoveData | frontend/public/js/modules/cropManager.js:147-213 | a move with no interaction changes nothing; a drag moves the box by `DragTo`; a resize recomputes it from the start geometry and the delta from the start pointer; no other field changes |
| PublicCropManager.HandleCropMouseMove | frontend/public/js/modules/cropManager.js:147-216 | without an interaction the state is unchanged; a drag keeps the box size; after a resize the box never overflows the right or bottom edge; the overlay is redrawn with the new box |
| PublicCropManager.StopCropInteraction | frontend/public/js/modules/cropManager.js:219-223 | both flags and the handle are cleared and every other field is kept |
| PublicCropManager.ToggleCropMode | frontend/public/js/modules/cropManager.js:226-229 | the mode flips and the returned flag is the new mode |
| PublicCropManager.CancelCrop | frontend/public/js/modules/cropManager.js:237-241 | crop mode ends, the overlay is deactivated with its other fields kept, any interaction stops, and the box is kept |
| PublicCropManager.GetCropData | frontend/public/js/modules/cropManager.js:232-234 | the copy reports the current box |
| PublicCropManager.UpdateCropInfo | frontend/public/js/modules/cropManager.js:95-104 | the box is reported exactly when a receiver is supplied |
| PublicCropManager.SetCropFromInputIdempotent | frontend/public/js/modules/cropManager.js:107-120 | typing back the values the fields already show changes nothing |
| PublicCropManager.DragRoundTrip | frontend/public/js/modules/cropManager.js:123-163 | starting a drag and moving to the very pointer position it started from leaves an inside box where it was |
| PublicCropManager.ResizePathIndependent | frontend/public/js/modules/cropManager.js:164-212 | during a resize the crop data after a move depends only on the resize's start and the current pointer, not on intermediate moves |
| PublicCropManager.ResizeWithoutMovement | frontend/public/js/modules/cropManager.js:133-212 | starting a resize and moving to the same pointer position leaves an inside box of at least 50×50 unchanged |
| PublicCropManager.CollapsedBoxNotDrawn | frontend/public/js/modules/cropManager.js:84-92 | a resize that collapses the box to a negative width leaves the overlay showing the previous box |
| PublicCropManager.StopIdempotent | frontend/public/js/modules/cropManager.js:219-223 | stopping an interaction twice equals stopping it once |
| PublicCropManager.ToggleTwice | frontend/public/js/modules/cropManager.js:226-229 | toggling crop mode twice restores the state |
| SrcCropManager.Create | frontend/src/js/modules/cropManager.js:3-16 | the initial box is 0,0,100,100, with no interaction and crop mode off |
| SrcCropManager.InitCrop | frontend/src/js/modules/cropManager.js:19-35 | the box is 80% of the displayed size, centred (equal margins on both sides), inside the image, and the overlay shows it and is active |
| SrcCropManager.SetCropFromInput | frontend/src/js/modules/cropManager.js:58-71 | the shared clamp; the result lies inside the image for sensible requests and the overlay always shows it |
| SrcCropManager.StartCropDrag | frontend/src/js/modules/cropManager.js:74-81 | a press on a handle changes nothing; otherwise the anchor is pointer minus box origin, and mode, overlay, box and every other field are kept |
| SrcCropManager.StartCropResize | frontend/src/js/modules/cropManager.js:84-91 | a resize records the handle and the raw pointer position; mode, overlay, box and every other field are kept |
| SrcCropManager.HandleCropMouseMove | frontend/src/js/modules/cropManager.js:94-163 | without an interaction nothing changes; a drag moves the box as in the public build; a resize applies the handle transform to the current box with the delta from the start pointer; the overlay is always redrawn |
| SrcCropManager.StopCropInteraction | frontend/src/js/modules/cropManager.js:166-170 | both flags and the handle are cleared, the shared start fields are kept |
| SrcCropManager.ToggleCropMode | frontend/src/js/modules/cropManager.js:173-176 | the mode flips and the returned flag is the new mode |
| SrcCropManager.CancelCrop | frontend/src/js/modules/cropManager.js:184-188 | crop mode ends, the overlay is deactivated with its other fields kept, any interaction stops, and the box is kept |
| SrcCropManager.ResizeAccumulates | frontend/src/js/modules/cropManager.js:111-150 | holding the east handle `dx` right of the resize start, every further move event widens the box by `dx` again: `n` events give `n·dx` |
| SrcCropManager.EastStep | frontend/src/js/modules/cropManager.js:148-157 | one east-edge move that still fits widens the current box by the full delta from the resize start |
| SrcCropManager.ResizeDriftExample | frontend/src/js/modules/cropManager.js:111-150 | a 100-wide box resized east to pointer 10 on a 1000×1000 image is 110 wide after one move and 120 after a second move to the same point |
| SrcCropManager.DragStaysInside | frontend/src/js/modules/cropManager.js:100-110 | a drag keeps the box inside an image at least as large as the box |
| SrcCropManager.ToggleTwice | frontend/src/js/modules/cropManager.js:173-176 | toggling crop mode twice restores the state |
| Sizing.BoundOr | frontend/public/js/modules/imageProcessor.js:93-94 | `bound \|\| side` is the bound exactly when it is present and not 0, and the image's own side otherwise |
| Sizing.FitRatio | frontend/public/js/modules/imageProcessor.js:93-96 | the scale factor is the smaller of the two bound quotients, scales each side within its bound and meets one bound exactly; with at most one bound it is at most 1, with none exactly 1 |
| Sizing.FitSize | frontend/src/js/modules/imageProcessor.js:24-31 | the drawn size keeps the aspect ratio, is the source size without bounds, stays within every given bound, meets one of two bounds exactly, and never enlarges the image when only one bound is given |
| Sizing.FitSizeIdempotent | frontend/public/js/modules/imageProcessor.js:92-98 | fitting an already fitted image into the same two bounds leaves it unchanged |
| Sizing.FitSizeTwoBoundsEnlarge | frontend/public/js/modules/imageProcessor.js:93-98 | two bounds can enlarge: 100×100 into 200×400 becomes 200×200 |
| Sizing.FitSizeSingleBoundKeeps | frontend/public/js/modules/imageProcessor.js:93-98 | a single bound larger than the image leaves it unchanged: 100×50 with a width of 200 stays 100×50 |
| Sizing.CanvasSize | frontend/public/js/modules/imageProcessor.js:100-101 | each side of the canvas is in [0, 2^31 - 1]; a side in [0, 2^31) is its floor, a side in [-2^31, -1] gives the default 300 or 150, and (below 2^32) a side is 0 exactly when it lies strictly between -1 and 1 |
| Sizing.PngSurface | frontend/public/js/modules/imageProcessor.js:17-71 | at level 3 or below the surface is untouched; above, each side is exactly `max(floor(side × f), 100)` with f = 0.9 for levels 4–6 and 0.7 for higher levels or `NaN`, so no side is below 100, a side of at least 100 never grows, and a side below 100 becomes 100 |
| Sizing.PngSurfaceMonotone | frontend/public/js/modules/imageProcessor.js:17-71 | at every level, a canvas at least as large on each side never gives a smaller PNG surface |
| Sizing.PngSurfaceExamples | frontend/public/js/modules/imageProcessor.js:22-69 | 1000×1000 at level 8 or `NaN` is 700×700; 1000×50 at level 5 is 900×100 |
| Sizing.MapCrop | frontend/public/js/modules/imageProcessor.js:164-172 | the mapped region's origin and sides are the crop's origin and sides scaled by natural/displayed size on each axis, and the whole displayed image maps to the whole source image |
| Sizing.MapCropInside | frontend/public/js/modules/imageProcessor.js:164-172 | a crop inside the displayed image maps to a region inside the source image |
| Sizing.MapCropRoundTrip | frontend/src/js/modules/imageProcessor.js:64-72 | mapping a crop to the source and back with the inverse scales gives the original crop |
| Sizing.CropSurface | frontend/public/js/modules/imageProcessor.js:174-176 | the cropped canvas is the floor of the mapped crop size whenever that size is in [0, 2^31); a mapped side in [-2^31, -1] gives the canvas's default side |
| Sizing.CalculateImageSize | frontend/src/utils/imageUtils.js:10-28 | two bounds fit as `processImage` does; a single bound sets that side and scales the other by the bound over the source side; no bound keeps the size; each side is rounded by `Math.round` |
| Sizing.CalculateImageSizeExamples | frontend/src/utils/imageUtils.js:13-27 | 400×200 into (100, 200) is 100×50; 100×50 with only a width of 200 is enlarged to 200×100 |
| Sizing.CalculateImageSizeSingleBound | frontend/src/utils/imageUtils.js:17-27 | for every image and every whole non-zero bound, the bounded side is exactly the bound and the other side lies within half a pixel of the proportional size, for a width bound and for a height bound |
| Sizing.CalculateImageSizeWithinBounds | frontend/src/utils/imageUtils.js:13-27 | for every image and positive bounds, the rounded size is within the rounded bounds and meets one of them |
| Sizing.CompressImageSurface | frontend/src/utils/imageUtils.js:75-95 | a bound that is not supplied at all defaults to 1920×1080, and the canvas gets the rounded `calculateImageSize` result whenever that fits a canvas |
| Sizing.CompressImageWithinDefaults | frontend/src/utils/imageUtils.js:75-95 | for every image, compressing without bounds gives at most 1920×1080 and reaches 1920 wide or 1080 high |
| Sizing.CompressImageDefaults | frontend/src/utils/imageUtils.js:75-92 | a 4000×3000 image under the defaults is encoded at 1440×1080 |
| Encoding.ResolvePublicOptions | frontend/public/js/modules/imageProcessor.js:75-83 | options that are not supplied default to `jpeg`, 0.8, level 6, 0.8 and no bounds; supplied ones are kept |
| Encoding.PublicEncoding | frontend/public/js/modules/imageProcessor.js:106-135 | `png` takes the PNG path with the compression level; `webp` is encoded with the WebP quality, as WebP only when the browser supports it and otherwise as JPEG; every other format is JPEG with the JPEG quality |
| Encoding.ToBlob | frontend/public/js/modules/imageProcessor.js:138-140 | `toBlob` always calls back; the blob is `null` exactly when the canvas has a zero side, and otherwise has the canvas's surface, type and quality |
| Encoding.PublicEncode | frontend/public/js/modules/imageProcessor.js:106-140 | outside the shrinking PNG path a canvas with a zero side gives the `null` blob; on that path it never settles; every produced image has pixels, is PNG exactly for the `png` format (with the PNG shrink's surface and no quality), otherwise keeps the canvas and carries a quality, and is WebP only when supported |
| Encoding.PublicProcessImage | frontend/public/js/modules/imageProcessor.js:74-146 | outside the shrinking PNG path an image is produced exactly when the fitted, truncated canvas has pixels on both sides, and the `null` blob otherwise; a produced non-PNG image has that canvas's size; every produced image has pixels and is PNG exactly for the `png` format |
| Encoding.PublicProcessKeepsSize | frontend/public/js/modules/imageProcessor.js:92-101 | without bounds a whole-pixel image is produced at its own size in every non-PNG format |
| Encoding.PublicCropImage | frontend/public/js/modules/imageProcessor.js:149-225 | outside the shrinking PNG path a crop is produced exactly when the mapped, truncated crop has pixels on both sides; a produced non-PNG crop has that size; every produced image has pixels and is PNG exactly for the `png` format |
| Encoding.PublicCropWhole | frontend/public/js/modules/imageProcessor.js:164-176 | cropping the whole displayed image produces a whole-pixel source at its own size |
| Encoding.ResolveSrcOptions | frontend/src/js/modules/imageProcessor.js:10-15 | a missing format is `jpeg` and a missing quality 0.8; supplied values and the bounds are kept |
| Encoding.SrcMime | frontend/src/js/modules/imageProcessor.js:39-41 | the type the src build requests, with no support check: `png` and `webp` request their own MIME types and everything else requests JPEG (what the browser then encodes is `Encoding.BrowserMime`) |
| Encoding.BrowserMime | frontend/src/js/modules/imageProcessor.js:38-46 | the encoded type is WebP exactly for a WebP request the browser supports, PNG for a PNG request or an unsupported WebP request, and JPEG exactly for a JPEG request |
| Encoding.SrcProcessImage | frontend/src/js/modules/imageProcessor.js:9-52 | an image is produced exactly when the fitted, truncated canvas has pixels on both sides, at that size, with the single quality, and with the type the browser encodes for the format switch's request |
| Encoding.SrcCropImage | frontend/src/js/modules/imageProcessor.js:55-99 | a crop is produced exactly when the mapped, truncated crop has pixels on both sides, at that size, with the single quality, and with the type the browser encodes for the format switch's request |
| Encoding.BuildsDifferOnWebpFallback | frontend/src/js/modules/imageProcessor.js:38-46 | when the browser cannot encode WebP, both builds produce an image for the same inputs, the public build giving JPEG and the src build PNG, at the same size |
| Encoding.BuildsAgreeOnSize | frontend/src/js/modules/imageProcessor.js:9-52 | for every image and equal bounds, the src build produces an image exactly when the public build does on a non-PNG format, and at the same size |
| Encoding.ConvertMime | frontend/src/utils/imageUtils.js:39-53 | after lower-casing, `png` and `webp` choose their own MIME types and everything else, `jpg` included, is JPEG |
| Encoding.ToLowerIdempotent | frontend/src/utils/imageUtils.js:41 | lower-casing twice is lower-casing once |
| Encoding.ConvertMimeIgnoresCase | frontend/src/utils/imageUtils.js:41-53 | a format and its lower-cased form choose the same MIME type |
| Encoding.ConvertMimeExamples | frontend/src/utils/imageUtils.js:41-53 | `PNG`, `WEBP` and `JPG` are recognised as PNG, WebP and JPEG |
| Encoding.ConvertImageFormat | frontend/src/utils/imageUtils.js:37-67 | it resolves exactly when the encoder produces a blob, with that blob, and otherwise rejects with the conversion error |
| Encoding.UtilsCropSurface | frontend/src/utils/imageUtils.js:159-173 | the new canvas has exactly the requested size, floored, while that is in [0, 2^31); a requested side in [-2^31, -1] gives the canvas's default side |
| Encoding.AssessImageQuality | frontend/src/utils/imageUtils.js:228-251 | resolution is width·height; low-resolution advice appears exactly under 640·480 pixels and high-resolution advice exactly over 4000·3000, never both; size advice appears exactly over 5 MiB and always last |
| Encoding.ScaledBound | frontend/public/js/modules/imageProcessor.js:244-248 | a given bound is multiplied by the factor, a missing or zero one stays missing |
| Encoding.EntryFor | frontend/public/js/modules/imageProcessor.js:250-263 | a factor's entry records the blob and the requested scaled bounds when rendering succeeds, and the error message otherwise |
| Encoding.ProcessMultipleSizes | frontend/public/js/modules/imageProcessor.js:239-267 | one entry per factor, in order; each is rendered with its own scaled bounds, and a failure is recorded without stopping the remaining factors |
| FileNames.Extension | frontend/public/js/modules/uiManager.js:178 | the extension is the dot-free tail of the name after its last dot, or the whole name when it has no dot |
| FileNames.Stem | frontend/public/js/modules/uiManager.js:179 | a name in which `.` + extension does not occur is its own stem |
| FileNames.GenerateFileName | frontend/public/js/modules/uiManager.js:177-186 | factor 1 keeps the name; any other factor puts `@<factor>x.` between stem and extension |
| FileNames.ExtensionOfJoin | frontend/public/js/modules/uiManager.js:178 | the extension of `stem.ext` is `ext` for a dot-free `ext` |
| FileNames.GenerateFileNameOfJoin | frontend/public/js/modules/uiManager.js:177-186 | for dot-free stem and extension, `stem.ext` at factor n ≠ 1 becomes `stem@nx.ext`: the name splits back into its two halves |
| FileNames.GenerateFileNamePlain | frontend/public/js/modules/uiManager.js:177-186 | `photo.png` becomes `photo@2x.png` at factor 2 and stays `photo.png` at factor 1 |
| FileNames.GenerateFileNameDoubledExtension | frontend/public/js/modules/uiManager.js:179 | only the first `.png` is removed: `x.png.png` at factor 3 is `x.png@3x.png` |
| FileNames.GenerateFileNameNoDot | frontend/public/js/modules/uiManager.js:178-185 | a dot-free name is its own extension, so it is repeated after the factor: `README` at factor 2 is `README@2x.README` |
| FileNames.GetSelectedSizes | frontend/public/js/modules/uiManager.js:160-174 | a factor is selected exactly when its checkbox exists and is checked, and the factors come out strictly ascending, each between 1 and 3 |
| Numbers.DigitPrefix | frontend/src/js/modules/settingsManager.js:73 | the digit run `parseInt` reads is the longest prefix made of decimal digits |
| Numbers.NatToString | frontend/src/js/modules/settingsManager.js:56-58 | the decimal rendering of a natural number is a non-empty run of digits whose value is that number |
| Numbers.IntToString | frontend/src/js/modules/settingsManager.js:90-92 | the rendering of an integer is non-empty and starts with a non-space character |
| Numbers.ParseIntOfIntToString | frontend/src/js/modules/settingsManager.js:86-90 | `parseInt` reads back exactly the integer that was rendered, also when text not starting with a digit follows |
| Numbers.ParseIntOfIntToStringAlone | frontend/src/js/modules/settingsManager.js:86-90 | rendering an integer and parsing it gives the integer back |
| Numbers.ParseIntOfLeadingDigits | frontend/src/js/app.js:408-411 | a text that starts with a run of digits is read as that run's value |
| Numbers.ParseIntEmpty | frontend/src/js/modules/settingsManager.js:86-87 | `parseInt` of the empty text is `NaN` |
| PageControls.ParseBound | frontend/public/js/app.js:517-518 | a size field gives a bound exactly when it parses to a non-zero integer, and the bound is that integer |
| PageControls.ParseBoundOfInt | frontend/public/js/app.js:517-518 | a typed non-zero integer becomes exactly that bound |
| PageControls.NoBoundTexts | frontend/public/js/app.js:517-518 | an empty field and a typed `0` both mean no bound |
| Settings.InitialLastValid | frontend/src/js/modules/settingsManager.js:35-38 | the initial last valid JPEG quality is in [1, 100]: 80 for an unreadable slider, the slider's value when it is already in range |
| Settings.JpegSliderInput | frontend/src/js/modules/settingsManager.js:50-62 | the JPEG slider handler commits; the quality is in [1, 100], is the slider's value when in range and 1 when unreadable, and is copied to slider, input and label |
| Settings.TypeQuality | frontend/src/js/modules/settingsManager.js:67-82 | empty text only shows `-`; a value is committed exactly when the text parses to an integer in range, and is then copied to the slider and label; anything else leaves the control unchanged |
| Settings.JpegTextInput | frontend/src/js/modules/settingsManager.js:67-82 | typing in the JPEG input commits exactly when the typed value is in [1, 100], and only then updates the last valid quality |
| Settings.JpegFinalize | frontend/src/js/modules/settingsManager.js:85-98 | leaving the JPEG input commits a quality in [1, 100]: the typed value clamped, or the last valid quality clamped when the text is unreadable, written to input, slider, label and last valid quality |
| Settings.JpegFinalizeIdempotent | frontend/src/js/modules/settingsManager.js:85-98 | a second finalize changes nothing |
| Settings.JpegTypeThenFinalize | frontend/src/js/modules/settingsManager.js:67-98 | typing a quality in range and leaving the field keeps exactly that quality |
| Settings.SliderOr | frontend/src/js/modules/settingsManager.js:129 | the slider's level when it parses to a non-zero integer, the fallback number otherwise |
| Settings.FinalizeFromSlider | frontend/src/js/modules/settingsManager.js:127-137 | the committed value is in range: the typed value clamped, or the slider's value (or the default) clamped when the text is unreadable, and input, slider and label all show it |
| Settings.FinalizeFromSliderIdempotent | frontend/src/js/modules/settingsManager.js:168-178 | finalizing an already finalized control changes nothing |
| Settings.PngSliderInput | frontend/src/js/modules/settingsManager.js:101-108 | moving the PNG slider commits and copies its text to the number input and the label, and changes nothing else |
| Settings.PngTextInput | frontend/src/js/modules/settingsManager.js:110-125 | typing in the PNG input commits exactly when the value is a level in [0, 9] and changes only the PNG control |
| Settings.PngFinalize | frontend/src/js/modules/settingsManager.js:127-139 | leaving the PNG input commits a level in [0, 9], written to input, slider and label; nothing else changes |
| Settings.PngFinalizeZeroSlider | frontend/src/js/modules/settingsManager.js:129 | with unreadable text and the slider at 0, the level becomes 6, not 0, because 0 is falsy |
| Settings.WebpSliderInput | frontend/src/js/modules/settingsManager.js:142-149 | moving the WebP slider commits and copies its text to the number input and, with `%`, to the label |
| Settings.WebpTextInput | frontend/src/js/modules/settingsManager.js:151-166 | typing in the WebP input commits exactly when the value is in [1, 100] and changes only the WebP control |
| Settings.WebpFinalize | frontend/src/js/modules/settingsManager.js:168-180 | leaving the WebP input commits a quality in [1, 100] taken from the text, the slider or 80; nothing else changes |
| Settings.TextOrNum | frontend/src/js/modules/settingsManager.js:284-286 | a non-empty slider text is saved as text, an empty one as the number fallback |
| Settings.GetCurrentSettings | frontend/src/js/modules/settingsManager.js:279-296 | empty fields fall back to `original`, 80, 6 and 80, so format and qualities are always truthy, and the 1x size is always saved as checked |
| Settings.SetChecked | frontend/src/js/modules/settingsManager.js:331-333 | a checkbox is set to the stored value's truthiness unless the value is missing |
| Settings.SetText | frontend/src/js/modules/settingsManager.js:336-341 | a text field takes the stored value's text unless the value is missing |
| Settings.ApplySettings | frontend/src/js/modules/settingsManager.js:299-355 | format and the three qualities are applied only when truthy, the JPEG quality also resetting the last valid quality to its integer or 80; transparency and bounds are applied when present; each of the three size checkboxes takes its saved value when the group is present, and all three are kept when it is absent |
| Settings.SnapshotRestoreSnapshot | frontend/src/js/modules/settingsManager.js:279-355 | restoring a snapshot and taking one again gives the same snapshot, when the sliders hold text |
| Settings.SnapshotOfEmptySlider | frontend/src/js/modules/settingsManager.js:284 | an empty JPEG slider is saved as the number 80 and comes back as the text `80` |
| Settings.SnapshotAlwaysChecksOneX | frontend/src/js/modules/settingsManager.js:291 | an unchecked 1x size is still saved as checked |
| Settings.ApplyDefaults | frontend/src/js/modules/workManager.js:224-242 | applying the default settings selects `original`, sets the sliders to 80, 6 and 80, clears transparency and bounds, checks only 1x and makes 80 the last valid quality |
| WorkManager.GetWorkList | frontend/src/js/modules/workManager.js:100-108 | a stored list is read back as written; absent or unreadable storage reads as an empty list |
| WorkManager.Append | frontend/src/js/modules/workManager.js:115-122 | the oldest work is dropped only when the list already holds ten; the new work is last; a list of at most ten stays at most ten |
| WorkManager.Write | frontend/src/js/modules/workManager.js:125-131 | a successful write stores the list and reports `true`; a failed one leaves the storage as it was and reports `false` |
| WorkManager.SaveWork | frontend/src/js/modules/workManager.js:111-132 | a successful save appends the work, first evicting the oldest when ten are stored; a failed one changes nothing and reports `false` |
| WorkManager.FindById | frontend/src/js/modules/workManager.js:138 | the work found is a stored work with the id and no earlier work has it; nothing is found exactly when no work has the id |
| WorkManager.LoadWork | frontend/src/js/modules/workManager.js:135-144 | a loaded work is stored and has the id; `null` exactly when no stored work has it |
| WorkManager.FindNameIndex | frontend/src/js/modules/workManager.js:166 | the index found holds the name and no earlier entry does; -1 exactly when no entry has the name |
| WorkManager.LoadAutoSave | frontend/src/js/modules/workManager.js:188-197 | the autosave loaded is the first work named `자동저장`, and `null` exactly when there is none |
| WorkManager.Without | frontend/src/js/modules/workManager.js:150 | the filtered list holds no work with the id, keeps every other work, and is the whole list when no work matches |
| WorkManager.DeleteWork | frontend/src/js/modules/workManager.js:147-157 | after a successful delete no stored work has the id and every other work is still stored; a failed write changes nothing |
| WorkManager.WithoutAppend | frontend/src/js/modules/workManager.js:150 | `filter` works piece by piece: filtering two lists joined is filtering each and joining them in the same order |
| WorkManager.DeleteWorkKeepsOrder | frontend/src/js/modules/workManager.js:147-157 | a successful delete keeps the surviving works in their stored order: two kept works stay in the same order, and the works around them are filtered in place |
| WorkManager.AutoSave | frontend/src/js/modules/workManager.js:160-185 | the data, named `자동저장`, replaces the first existing autosave in place (same length, other entries untouched) or is appended with eviction when there is none; a failed write changes nothing |
| WorkManager.ClearAllWorks | frontend/src/js/modules/workManager.js:200-208 | a successful clear leaves an empty list; a failed one changes nothing |
| WorkManager.SavesKeepBound | frontend/src/js/modules/workManager.js:4 | saves and autosaves never make a list of at most ten works longer than ten |
| WorkManager.Newest | frontend/src/js/modules/workManager.js:116-122 | the newest part of a list is its last min(length, 10) entries |
| WorkManager.SaveAllKeepsNewest | frontend/src/js/modules/workManager.js:111-132 | after any sequence of saves the stored list is the last ten of everything saved: eviction is first-in, first-out |
| WorkManager.AppendKeepsNewest | frontend/src/js/modules/workManager.js:115-122 | one save keeps the stored list equal to the newest ten of everything saved so far |
| WorkManager.NewestDropFirst | frontend/src/js/modules/workManager.js:118 | dropping the first entry of a list longer than ten does not change its newest ten |
| WorkManager.EleventhSaveEvictsFirst | frontend/src/js/modules/workManager.js:116-122 | eleven saves from empty storage keep the last ten; the first work is gone |
| WorkManager.LoadAfterSave | frontend/src/js/modules/workManager.js:111-144 | a work saved with a fresh id can be loaded back |
| WorkManager.FindLast | frontend/src/js/modules/workManager.js:138 | when only the last entry has the id, `find` returns the last entry |
| WorkManager.LoadAfterDelete | frontend/src/js/modules/workManager.js:135-157 | after a successful delete nothing with that id can be loaded |
| WorkManager.LoadAfterAutoSave | frontend/src/js/modules/workManager.js:160-197 | after a successful autosave, loading the autosave gives the data just saved, named `자동저장` |
| WorkManager.FirstNameIndexAt | frontend/src/js/modules/workManager.js:166 | an entry with the name and none before it is the index `findIndex` reports |
| WorkManager.ConvertImageToBase64 | frontend/src/js/modules/workManager.js:38-47 | data URLs and other non-blob sources are returned unchanged; only a blob URL is read, with `null` on failure |
| WorkManager.CreateWorkData | frontend/src/js/modules/workManager.js:50-96 | a work is made exactly when the original is present and its thumbnail loads, and it then stores that original and that thumbnail; an empty or missing name becomes `작업물_` plus the local time; the id and both time stamps come from the clock; processed image and settings are kept |
| WorkManager.ThumbnailSize | frontend/src/js/modules/workManager.js:76-86 | the longer side becomes 150, the other keeps the proportion, a square takes the height branch, and both sides stay positive |
| WorkManager.ScaledBelow | frontend/src/js/modules/workManager.js:80-82 | scaling the shorter side by the factor that brings the longer one to 150 keeps it below 150 |
| WorkManager.ThumbnailExamples | frontend/src/js/modules/workManager.js:76-86 | a square image gives 150×150; a 30×10 image is enlarged to 150×50 |
| Zoom.CreateMagnifier | frontend/src/js/modules/magnifierManager.js:3-9 | the magnifier starts on a valid level (100) and not dragging |
| Zoom.ZoomIn | frontend/src/js/modules/magnifierManager.js:31-34 | zooming in keeps a valid level valid, never lowers it, and changes nothing else |
| Zoom.ZoomOut | frontend/src/js/modules/magnifierManager.js:37-40 | zooming out keeps a valid level valid, never raises it, and changes nothing else |
| Zoom.ResetZoom | frontend/src/js/modules/magnifierManager.js:43-47 | reset gives level 100 and offset (0, 0) and keeps the drag state |
| Zoom.ZoomButtons | frontend/src/js/modules/magnifierManager.js:69-83 | zoom-in is disabled exactly at 300% or above and zoom-out exactly at 25% or below |
| Zoom.StartDrag | frontend/src/js/modules/magnifierManager.js:103-113 | at 100% or below a press changes nothing; otherwise a drag starts with anchor equal to pointer minus offset |
| Zoom.Drag | frontend/src/js/modules/magnifierManager.js:116-125 | without a drag nothing changes; otherwise the offset becomes pointer minus anchor and nothing else changes |
| Zoom.EndDrag | frontend/src/js/modules/magnifierManager.js:128-130 | releasing clears the drag flag and nothing else |
| Zoom.ZoomInButtonMatches | frontend/src/js/modules/magnifierManager.js:31-82 | on a valid level the zoom-in button is disabled exactly when zooming in would change nothing |
| Zoom.ZoomOutButtonMatches | frontend/src/js/modules/magnifierManager.js:37-82 | on a valid level the zoom-out button is disabled exactly when zooming out would change nothing |
| Zoom.ZoomInOutInverse | frontend/src/js/modules/magnifierManager.js:31-40 | below the maximum, zoom-out undoes zoom-in; above the minimum, zoom-in undoes zoom-out |
| Zoom.MagnifierDragRoundTrip | frontend/src/js/modules/magnifierManager.js:103-125 | pressing and moving to the same spot leaves the offset where it was |
| Zoom.RunKeepsValidLevel | frontend/src/js/modules/magnifierManager.js:31-47 | from a valid level, every sequence of button clicks and pointer events keeps the level on the 25-step grid between 25 and 300 |
| Zoom.FreshMagnifierStaysValid | frontend/src/js/modules/magnifierManager.js:3-47 | every level reachable from a new magnifier is valid |
| Zoom.CreateViewer | frontend/public/js/app.js:109-123 | the preview starts at scale 1, within the range 0.5 to 3 |
| Zoom.ViewerZoomIn | frontend/public/js/app.js:141-146 | at scale 3 nothing changes; below, the scale grows by exactly 0.25 and nothing else changes |
| Zoom.ViewerZoomOut | frontend/public/js/app.js:149-154 | at scale 0.5 nothing changes; above, the scale shrinks by exactly 0.25 and nothing else changes |
| Zoom.ViewerReset | frontend/public/js/app.js:157-177 | reset gives scale 1 and translate (0, 0) and keeps the drag state |
| Zoom.ViewerButtons | frontend/public/js/app.js:207-212 | zoom-in is disabled exactly at scale 3 or above, zoom-out exactly at 0.5 or below |
| Zoom.PointerOf | frontend/public/js/app.js:253-254 | the intended pointer position: the mouse position for a mouse event, the first touch for a touch event |
| Zoom.ViewerStartDrag | frontend/public/js/app.js:233-258 | at scale 1 or below a press changes nothing; otherwise a drag starts with anchor equal to pointer minus translate |
| Zoom.ViewerDrag | frontend/public/js/app.js:261-273 | unless dragging above scale 1 nothing changes; otherwise translate becomes pointer minus anchor and nothing else changes |
| Zoom.ViewerEndDrag | frontend/public/js/app.js:276-277 | releasing clears the drag flag and nothing else |
| Zoom.ViewerZoomKeepsRange | frontend/public/js/app.js:141-154 | both zoom buttons keep the scale between 0.5 and 3 |
| Zoom.ViewerButtonsMatch | frontend/public/js/app.js:141-212 | each button is disabled exactly when pressing it would change nothing |
| Zoom.ViewerDragRoundTrip | frontend/public/js/app.js:233-273 | pressing and moving to the same spot leaves the translate where it was |
| Zoom.ResetStopsPanning | frontend/public/js/app.js:157-262 | after a reset presses and moves change nothing, even in the middle of a drag |
| Zoom.PointerXAsWritten | frontend/public/js/app.js:253-254 | as written, a touch gives its first touch's x, a mouse gives no coordinate exactly when its x is 0, and any coordinate given is the intended one |
| Zoom.MouseAtLeftEdge | frontend/public/js/app.js:253 | a mouse press at x = 0 yields no coordinate as written, while the intended reading gives 0 |
| Zoom.PointerXAgreesAwayFromZero | frontend/public/js/app.js:253-267 | away from mouse x = 0 the written and intended readings agree |
| Uploader.Create | frontend/src/js/modules/fileUploader.js:3-5 | a new uploader holds no file |
| Uploader.HandleFile | frontend/src/js/modules/fileUploader.js:8-15 | a file is rejected with the image-only error exactly when its type does not start with `image/`; an accepted file becomes the original file and is returned |
| Uploader.HandleDrop | frontend/src/js/modules/fileUploader.js:28-36 | an empty drop returns nothing and changes nothing; otherwise the first file is accepted or rejected exactly as `handleFile` would |
| Uploader.HandleFileSelect | frontend/src/js/modules/fileUploader.js:39-45 | no chosen file returns nothing and changes nothing; a chosen file fails exactly when it is not an image, and is kept otherwise |
| Uploader.Reset | frontend/src/js/modules/fileUploader.js:65-67 | after a reset no file is held |
| Uploader.RejectionKeepsFile | frontend/public/js/modules/fileUploader.js:8-45 | a non-image file fails through both the drop and the file picker with the image-only message |
| Uploader.BlobType | frontend/src/js/modules/fileUploader.js:83-84 | the type a blob records is empty when any character is outside printable ASCII, and the lower-cased type otherwise |
| Uploader.SetOriginalFile | frontend/src/js/modules/fileUploader.js:70-86 | a source that is not a `data:image/` URL changes nothing; one without a comma, or whose payload `atob` refuses, throws; otherwise the file holds the decoded payload, the header's media type and the fixed name `restored-image.jpg` |
| Uploader.RestoreDataUrl | frontend/src/js/modules/fileUploader.js:70-86 | restoring from `data:image/<subtype>;base64,<encoding of the bytes>` yields a file with exactly those bytes and type `image/<subtype>` |
| Uploader.DataUrlParts | frontend/src/js/modules/fileUploader.js:74-75 | for such a data URL the second comma field is the payload and the media type is `image/<subtype>` |
| Uploader.HeaderMime | frontend/src/js/modules/fileUploader.js:75 | the media type read from `data:image/<subtype>;base64` is `image/<subtype>` |
| Uploader.BlobTypeOfPlain | frontend/src/js/modules/fileUploader.js:83-84 | a printable lower-case `image/` type is recorded unchanged |
| Uploader.NoCommaThrows | frontend/src/js/modules/fileUploader.js:74 | a data URL without a comma reaches `atob("undefined")` and fails |
| Base64.CharOf | frontend/src/js/modules/fileUploader.js:48-57 | every 6-bit value maps to a character of the base64 alphabet |
| Base64.ValueOf | frontend/src/js/modules/fileUploader.js:74 | every alphabet character has a value whose character is that character |
| Base64.ValueOfCharOf | frontend/src/js/modules/fileUploader.js:74 | the alphabet is a bijection: reading back a value's character gives the value |
| Base64.EncodeSextets | frontend/src/js/modules/fileUploader.js:48-57 | a whole group of three bytes gives four values, a final one or two bytes give two or three values |
| Base64.Padding | frontend/src/js/modules/fileUploader.js:48-57 | a final group of one byte is padded with `==`, of two bytes with `=`, and a whole group not at all |
| Base64.Encode | frontend/src/js/modules/fileUploader.js:48-57 | the base64 text of a data URL is always four characters per started group of three bytes |
| Base64.StripWhitespace | frontend/src/js/modules/fileUploader.js:74 | removing ASCII whitespace leaves no whitespace and keeps whitespace-free text unchanged |
| Base64.StripPadding | frontend/src/js/modules/fileUploader.js:74 | only a length that is a multiple of four loses its one or two trailing `=` |
| Base64.DecodeSextets | frontend/src/js/modules/fileUploader.js:74 | every four values give three bytes, so n values give 3n/4 bytes rounded down |
| Base64.DecodeChars | frontend/src/js/modules/fileUploader.js:74 | a text of alphabet characters gives 3/4 of its length in bytes, rounded down |
| Base64.ForgivingDecode | frontend/src/js/modules/fileUploader.js:74 | `atob` fails exactly when the cleaned text leaves one character over a multiple of four or holds a non-alphabet character; otherwise it gives 3/4 of the cleaned length in bytes |
| Base64.GroupRoundTrip | frontend/src/js/modules/fileUploader.js:74 | splitting three bytes into four values and joining them gives the bytes back |
| Base64.DecodeEncodeSextets | frontend/src/js/modules/fileUploader.js:48-74 | decoding the values of an encoding gives the bytes back, for every length |
| Base64.DecodeGroupThenRest | frontend/src/js/modules/fileUploader.js:74 | a leading group decodes independently of what follows |
| Base64.ValuesOfChars | frontend/src/js/modules/fileUploader.js:74 | reading the characters of a sequence of values gives the values back |
| Base64.DecodeEncodeBody | frontend/src/js/modules/fileUploader.js:48-74 | decoding the unpadded text gives the bytes back |
| Base64.StripPaddingOfEncode | frontend/src/js/modules/fileUploader.js:48-74 | removing the padding of an encoding leaves exactly its unpadded text |
| Base64.DecodeEncode | frontend/src/js/modules/fileUploader.js:48-84 | `atob` of the base64 text a data URL carries gives back exactly the file's bytes |
| Base64.DecodeIgnoresWhitespace | frontend/src/js/modules/fileUploader.js:74 | whitespace anywhere in the text does not change what `atob` gives |
| Base64.UndefinedIsRejected | frontend/src/js/modules/fileUploader.js:74 | `atob("undefined")` fails |
| Base64.OneOverIsRejected | frontend/src/js/modules/fileUploader.js:74 | a whitespace-free text one character over a multiple of four always fails |
| Base64.EncodeExamples | frontend/src/js/modules/fileUploader.js:48-57 | `Man` encodes as `TWFu` and `Ma` as `TWE=` |
| Base64.DecodeExamples | frontend/src/js/modules/fileUploader.js:74 | `TWFu` decodes to `Man`; `TWE=` and the unpadded `TWE` both decode to `Ma` |
| ImageInfo.ExtractFormat | frontend/src/js/modules/imageInfoManager.js:97-103 | the result is a known subtype the text starts with after `data:image/`, or `unknown` exactly when it starts with none of them |
| ImageInfo.ExtractFormatOfDataUrl | frontend/src/js/modules/imageInfoManager.js:97-103 | a data URL of any known subtype is reported as that subtype, whatever follows |
| ImageInfo.JpgIsUnknown | frontend/src/js/modules/imageInfoManager.js:98-102 | the spelling `image/jpg` is reported as `unknown` |
| ImageInfo.EstimatedBytes | frontend/src/js/modules/imageInfoManager.js:20-21 | the estimate is the smallest whole number of bytes at least 3/4 of the text length |
| ImageInfo.EstimatedBytesMonotone | frontend/src/js/modules/imageInfoManager.js:20-21 | a longer text never gives a smaller estimate |
| ImageInfo.CompressionRatio | frontend/src/js/modules/imageInfoManager.js:62-70 | a ratio exists exactly when an original is given; it is positive exactly when the processed estimate is smaller, zero exactly when they agree, and never above 100 |
| ImageInfo.OriginalImageInfo | frontend/src/js/modules/imageInfoManager.js:8-40 | nothing is shown exactly for a falsy image; otherwise its estimated bytes, its format and its size, with no ratio |
| ImageInfo.ProcessedImageInfo | frontend/src/js/modules/imageInfoManager.js:43-94 | nothing is shown exactly for a falsy processed image; a ratio is shown exactly when an original is present |
| ImageInfo.SameImageZeroRatio | frontend/src/js/modules/imageInfoManager.js:62-70 | an image compared with itself has ratio 0 |
| ImageInfo.SaveWorkPreview | frontend/src/js/modules/imageInfoManager.js:106-126 | each image line reads present exactly when the value is truthy; the settings line is the format text plus the JPEG quality if truthy, else the WebP quality if truthy, else nothing |
| ImageInfo.FormatText | frontend/src/js/modules/imageInfoManager.js:121 | a truthy saved format is shown as it is, and anything else as `원본 형식` |
| PublicApp.ProcessOptions | frontend/public/js/app.js:510-518 | the options carry the chosen format, each quality slider divided by 100 and the PNG slider itself; a size field gives a bound exactly when it starts with a non-zero integer |
| PublicApp.CropOptions | frontend/public/js/app.js:577-583 | the crop options are the processing options without any size bound |
| PublicApp.QualityFollowsSlider | frontend/public/js/app.js:510-518 | a produced non-PNG image is encoded with the WebP slider's quality for `webp` and the JPEG slider's for every other format |
| PublicApp.EmptySizeFieldsKeepSize | frontend/public/js/app.js:516-517 | empty size fields, or fields holding 0, produce a whole-pixel non-PNG image at its own size |
| PublicApp.ProcessImage | frontend/public/js/app.js:498-533 | without a file the upload alert is shown and nothing changes; an image that cannot be loaded shows the processing error and changes nothing; a produced encoding becomes the processed blob; a `null` blob clears it and shows the processing error; an encoding that never settles changes nothing; only the processed blob ever changes, and it always has pixels |
| PublicApp.FlatCanvasDropsBlob | frontend/public/js/app.js:498-533 | a 1000×10 JPEG with a width field of 1 clears the processed image and shows the processing error |
| PublicApp.ToggleCrop | frontend/public/js/app.js:536-551 | without a processed blob the alert is shown and nothing changes; otherwise crop mode flips and only the crop state changes, and switching on covers the whole displayed image |
| PublicApp.CropDoneNamesBothSizes | frontend/public/js/modules/uiManager.js:281-283 | the crop alert determines both sizes it names (when the first has no line break), so different sizes never show the same alert |
| PublicApp.ApplyCrop | frontend/public/js/app.js:560-603 | without a processed blob the alert is shown and nothing changes; an image that cannot be loaded shows the crop error; a produced crop becomes the processed blob, crop mode ends with the box kept, and the alert `크롭 완료!` names the original file's size and the cropped image's size; a `null` blob clears the processed image and shows the crop error; a crop that never settles changes nothing; the uploader never changes and the processed blob always has pixels |
| PublicApp.UntouchedCropKeepsSize | frontend/public/js/app.js:536-603 | switching crop on and applying it without moving the box keeps the size of a non-PNG processed image |
| PublicApp.DownloadFileName | frontend/public/js/app.js:630-631 | the download is `processed_image.` followed by the format value, or by `jpg` when it is empty |
| PublicApp.DownloadImage | frontend/public/js/app.js:623-634 | the download is refused exactly when there is no processed blob |
| PublicApp.DownloadExtensionIsFormat | frontend/public/js/app.js:630-631 | the download's extension is the format value itself, so `jpeg` downloads as `.jpeg` |
| PublicApp.JpegDownloadName | frontend/public/js/app.js:630-631 | `jpeg` gives `processed_image.jpeg` and an empty format `processed_image.jpg` |
| PublicApp.ResetApp | frontend/public/js/app.js:637-642 | after a reset neither a file nor a processed blob is held and crop mode is off with the box kept |
| PublicApp.ResetRefusesEverything | frontend/public/js/app.js:498-642 | after a reset processing, crop toggle, crop apply and download are all refused with their alerts and change nothing |
| SrcApp.ProcessOptionsAsWritten | frontend/src/js/modules/imageProcessor.js:10-15 | as written the src encoder reads no quality from the app's options, so it always encodes at 0.8 |
| SrcApp.SlidersIgnoredAsWritten | frontend/src/js/app.js:314-322 | as written, moving the JPEG or WebP slider does not change the options the encoder sees |
| SrcApp.HalfQualityIgnoredAsWritten | frontend/src/js/app.js:314-324 | as written a JPEG slider at 50 still encodes at quality 0.8 |
| SrcApp.SliderQuality | frontend/src/js/app.js:316-318 | the intended quality is the WebP slider over 100 for `webp` and the JPEG slider over 100 otherwise |
| SrcApp.ProcessOptions | frontend/src/js/app.js:314-322 | the intended options differ from the written ones only in carrying the slider quality |
| SrcApp.CropOptions | frontend/src/js/app.js:435-441 | the crop options are the intended processing options without any size bound |
| SrcApp.QualityAgreesWithPublicBuild | frontend/src/js/app.js:314-324 | with the quality passed, the src build encodes a non-PNG image at the same quality and size as the public build |
| SrcApp.AsWrittenDiffersOffEighty | frontend/src/js/app.js:314-322 | the written and intended options agree exactly when the format's slider sits at 80 |
| SrcApp.ProcessImage | frontend/src/js/app.js:302-340 | without a file the warning is shown and nothing changes; an image that cannot be loaded shows the error and changes nothing; a produced image becomes the processed blob, and a `null` blob clears it and shows the error; only the processed blob ever changes |
| SrcApp.ButtonStates | frontend/src/js/app.js:370-389 | crop, process and reset are disabled exactly when there is no file; the crop label reads `크롭 모드` without a file, else names the processed or the original image |
| SrcApp.SourceOf | frontend/src/js/app.js:444-451 | a crop or batch starts from the processed blob when there is one, else from the uploaded file, else there is none |
| SrcApp.ToggleCrop | frontend/src/js/app.js:343-367 | without a file the warning is shown and nothing changes; otherwise crop mode flips and only the crop state changes, and switching on places the centred 80% box inside the displayed image |
| SrcApp.ResetImage | frontend/src/js/app.js:521-538 | the processed blob is dropped and crop mode ends, while the file, the autosave switch and the works stay |
| SrcApp.ResetApp | frontend/src/js/app.js:808-816 | the file and the processed blob are dropped and crop mode ends, while the autosave switch and the works stay |
| SrcApp.ResetsAndButtons | frontend/src/js/app.js:370-816 | after `resetImage` crops start from the original and the buttons say so; after `resetApp` all buttons are disabled and toggle, apply, process and download are refused |
| SrcApp.HandleCropInputChange | frontend/src/js/app.js:406-415 | position fields default to 0 and size fields to 1; the box is never negative, never smaller than 1, lies inside an image of at least 1 pixel, and nothing else changes |
| SrcApp.CropInputRoundTrip | frontend/src/js/app.js:406-415 | typing the numbers of a whole-pixel box inside the image gives back exactly that box |
| SrcApp.ZeroSizeIsOne | frontend/src/js/app.js:410-411 | a size typed as 0 or left empty acts as 1 |
| SrcApp.ApplyCrop | frontend/src/js/app.js:418-474 | without a file the alert is shown and nothing changes; a failed load, or a restored data-URL string that cannot become an object URL, shows the crop error and changes nothing; a produced crop becomes the processed blob and crop mode ends, nothing else changing, and the notice `크롭 완료!` names the original file's size and the cropped image's size; a `null` blob clears the processed image and shows the crop error |
| SrcApp.CropButtonDescribesApplyCrop | frontend/src/js/app.js:370-474 | the crop button is disabled exactly when applying a crop is refused for lack of a file, and its label names the image the crop starts from |
| SrcApp.DownloadExtension | frontend/src/js/app.js:505-514 | a PNG blob downloads as `png`, a WebP blob as `webp`, and every other type as `jpg` |
| SrcApp.DownloadImage | frontend/src/js/app.js:498-518 | the download is refused exactly when there is no processed blob; it throws, offering nothing, exactly when the processed image is a restored data-URL string; otherwise it is named after the blob's type |
| SrcApp.DownloadFollowsFormat | frontend/src/js/app.js:302-518 | after processing, the download is named `png` for the `png` format and for `webp` in a browser without WebP, `webp` for `webp` with support, and `jpg` for every other format |
| SrcApp.DownloadBaseName | frontend/src/js/app.js:252 | the batch names start from the uploaded file's name, or from `image` when there is none |
| SrcApp.MultiSizeSource | frontend/src/js/app.js:212-224 | the batch stops with the upload alert without a source and with the size alert without a selected factor; otherwise it starts from the source image |
| SrcApp.RenderedCount | frontend/src/js/app.js:245-249 | the rendered entries number at most the results, all of them exactly when none failed and none exactly when all failed |
| SrcApp.Reached | frontend/src/js/app.js:245-251 | the loop gets as far as the first rendered entry whose blob is `null`, where making the object URL throws, or through the whole batch when there is none |
| SrcApp.DownloadLinks | frontend/src/js/app.js:245-251 | one link per rendered entry before the first `null` blob, each carrying a blob and named by the base name and its factor |
| SrcApp.DownloadBatch | frontend/src/js/app.js:243-261 | the batch ends in the download error exactly when some entry has a `null` blob, and otherwise in the count of all entries, failed ones included |
| SrcApp.EveryRenderedEntryIsOffered | frontend/src/js/app.js:245-251 | every rendered entry before the first `null` blob is offered under its generated name, and every rendered entry when no blob is `null` |
| SrcApp.NothingOfferedAfterNullBlob | frontend/src/js/app.js:245-251 | no entry at or after an entry with a `null` blob is offered |
| SrcApp.NullBlobStopsBatch | frontend/src/js/app.js:245-261 | with the middle of three factors rendering a `null` blob, only the first is offered and the batch ends in the download error |
| SrcApp.BatchDownloadNames | frontend/src/js/app.js:245-251 | for `stem.ext` every rendered factor other than 1 before the first `null` blob is offered as `stem@<n>x.ext`, and every offered file is rendered and carries a blob |
| SrcApp.WorkFor | frontend/src/js/app.js:608-613 | a work is built exactly when the original source can be read and its thumbnail loads; it then carries that original and thumbnail, the form's settings, the clock's id, the given name, and no processed image when the app holds no processed blob |
| SrcApp.SaveWork | frontend/src/js/app.js:599-622 | a name blank after trimming (ECMAScript white space included) shows the warning and stores nothing; when building the work never settles nothing is stored and nothing is shown; otherwise the work is stored under the trimmed name and the notice tells whether the write succeeded |
| SrcApp.BlankNameSavesNothing | frontend/src/js/app.js:601-606 | a name made only of blanks, ASCII or not, leaves the app unchanged |
| SrcApp.SaveThenLoad | frontend/src/js/app.js:599-622 | when building the work settles, a work saved under a fresh id loads back with the trimmed name and the form's settings; when it does not, the storage is untouched |
| SrcApp.ToggleAutoSave | frontend/src/js/app.js:776-781 | only the switch flips, and the button reads `자동저장 ON` exactly when it is on |
| SrcApp.ToggleAutoSaveTwice | frontend/src/js/app.js:776-777 | toggling twice gives back the same app |
| SrcApp.AutoSaveWork | frontend/src/js/app.js:546-558 | with the switch off, without a file, or when building the work never settles, nothing changes; otherwise only the stored works change |
| SrcApp.AutoSaveThenLoad | frontend/src/js/app.js:546-558 | when building the work settles, the autosave entry loads back afterwards with the form's settings and the original image, and without a processed image when there was no processed blob |
| SrcApp.RestoreWork | frontend/src/js/app.js:703-755 | an original that fails to load or to restore shows the error and changes nothing; a processed image that fails to load shows the error after the file was replaced; otherwise the file is restored and the processed blob becomes the work's processed data URL or nothing |
| SrcApp.RestoredWorkCannotBeDownloadedOrCropped | frontend/src/js/app.js:498-755 | a restored work with a processed image cannot be downloaded (making the object URL throws) and cannot be cropped (the crop error is shown and nothing changes) |

## Left out

- Canvas pixels, `drawImage`, `toBlob`/`toDataURL` internals, `Image.onload`, `URL.createObjectURL`, `FileReader` and `fetch`. Only their results enter the model: a decoded size, success or failure, the data URL read back, or the thumbnail `createThumbnail` resolves to (`None` when the image never loads, which leaves the save pending).
- `localStorage` and `JSON`. Storage is a value holding the list of works, plus a flag telling whether a write succeeded.
- `Date.now()`, `toLocaleString` and `toISOString`, used in `createWorkData`. They are parameters, because they are not deterministic.
- Timers and debouncing. This covers `scheduleAutoProcess`, the retry of `initCrop` through `setTimeout` when the image is not laid out yet (modelled as leaving the box unset), and the short-lived CSS classes.
- Number formatting. This covers `formatFileSize` in every file that has one, `toFixed` in the information panels and the zoom percentage text. The model stops at the numbers before they are formatted.
- The byte counts in the alert after a crop. The model does not know how many bytes an encoder writes, so `PublicApp.ApplyCrop` and `SrcApp.ApplyCrop` take the two `formatFileSize` texts as parameters and place them in the alert.
- `rotateImage` and `applyImageFilter` in `imageUtils`, which need trigonometry and canvas pixels. Also `getImageMetadata` and `getStorageUsage`, which only read browser objects.
- `compressPNG` writes the shrunk canvas pixels. Only its size rule is modelled, in `Sizing.PngSurface`. `isWebPSupported` is a boolean parameter.
- `updateFormatControls`, modals, toasts and event-listener wiring in both app files. Also the src `uiManager`, `eventManager`, `workModalManager`, `domSelector` and the public `cookieManager`, which are DOM plumbing.
- The src app calls `uiManager.getSelectedSizes`, `uiManager.generateFileName`, `uiManager.showErrorMessage` and `imageProcessor.processImageMultipleSizes`, which the src modules do not define. For `downloadMultipleSizes` the model keeps the guards, the choice of source image and the loop over results. It borrows the public `generateFileName` and batch rule for what those calls would do.
- The src `checkAutoSave`, `deleteWork` and `clearAllWorks` handlers ask the user to confirm, then call the work store and show a message. The store operations are modelled in `WorkManager`; the confirmation dialogs are not.
- The src `loadWork` also writes the saved settings back to the form. That step is `Settings.ApplySettings`, and `SrcApp.RestoreWork` does not repeat it.
- `webpTransparency` is read into the options objects, but no encoder uses it.
- The default settings of the work store also carry `widthPreset`, `size1_5x` and `size4x`. No control reads them, so `Settings.ApplyDefaults` leaves them out.
- IEEE 754 rounding. Geometry is exact `real` arithmetic, so a ratio such as 0.1 + 0.2 compares as it does on paper.
- Sizing.FitRatio: requires a positive source size. The source divides by the width and height, so an image of size 0 gives `NaN` or `Infinity` sizes, which the model does not represent.
- Sizing.FitSize: requires a positive source size. The source divides by the width and height, so an image of size 0 gives `NaN` or `Infinity` sizes, which the model does not represent.
- Sizing.CalculateImageSize: requires a positive source size. The source divides by the width and height, so an image of size 0 gives `NaN` or `Infinity` sizes, which the model does not represent.
- Sizing.CompressImageSurface: requires a positive source size. The source divides by the width and height, so an image of size 0 gives `NaN` or `Infinity` sizes, which the model does not represent.
- Encoding.PublicProcessImage: requires a positive source size. The source divides by the width and height, so an image of size 0 gives `NaN` or `Infinity` sizes, which the model does not represent.
- Encoding.SrcProcessImage: requires a positive source size. The source divides by the width and height, so an image of size 0 gives `NaN` or `Infinity` sizes, which the model does not represent.
- WorkManager.ThumbnailSize: requires a positive source size. The source divides by the width and height, so an image of size 0 gives `NaN` or `Infinity` sizes, which the model does not represent.
- Sizing.MapCrop: requires a non-zero displayed size. The source divides by the crop image's `offsetWidth` and `offsetHeight`, and the model does not represent the `NaN` that gives.
- Sizing.CropSurface: requires a non-zero displayed size. The source divides by the crop image's `offsetWidth` and `offsetHeight`, and the model does not represent the `NaN` that gives.
- Encoding.PublicCropImage: requires a non-zero displayed size. The source divides by the crop image's `offsetWidth` and `offsetHeight`, and the model does not represent the `NaN` that gives.
- Encoding.SrcCropImage: requires a non-zero displayed size. The source divides by the crop image's `offsetWidth` and `offsetHeight`, and the model does not represent the `NaN` that gives.
- PublicApp.ApplyCrop: requires a non-zero displayed size. The source divides by the crop image's `offsetWidth` and `offsetHeight`, and the model does not represent the `NaN` that gives.
- SrcApp.ApplyCrop: requires a non-zero displayed size. The source divides by the crop image's `offsetWidth` and `offsetHeight`, and the model does not represent the `NaN` that gives.
- PublicApp.ProcessImage: requires a positive decoded size whenever the image loads, because the encoding divides by that size and the model does not represent the `NaN` a size of 0 gives.
- SrcApp.ProcessImage: requires a positive decoded size whenever the image loads, because the encoding divides by that size and the model does not represent the `NaN` a size of 0 gives.
- Numbers.ParseInt: reads white space, a sign and decimal digits. It reads a `0x` prefix as 0, where `parseInt` without a radix reads hexadecimal.
- SrcApp.ProcessImage: encodes with the corrected options, so the chosen format's own slider sets the quality. The code as written encodes every JPEG and WebP image at 0.8; that behaviour is `SrcApp.ProcessOptionsAsWritten` (see Findings).
- SrcApp.ApplyCrop: crops with the corrected options, for the same reason as `SrcApp.ProcessImage`; the as-written options are `SrcApp.ProcessOptionsAsWritten`.
- Zoom.ViewerStartDrag: reads the pointer with the corrected rule, so a mouse at `clientX` 0 is read as 0. The code as written reads it as missing; that is `Zoom.PointerXAsWritten` (see Findings).
- Zoom.ViewerDrag: uses the same corrected pointer reading as `Zoom.ViewerStartDrag`.
- The src app passes the uploaded `File` and the processed `Blob` to `updateOriginalImageInfo` and `updateProcessedImageInfo` (frontend/src/js/app.js:291, 329, 458). Those methods set `img.src` to the argument, which becomes the text `[object File]` or `[object Blob]`. The image never loads, so the information panel is not filled after an upload, a process or a crop. Only restoring a work passes data-URL strings (frontend/src/js/app.js:723, 732). The `ImageInfo` members model the methods for string arguments.
- `toBlob` can also fail on a canvas too large for the browser's memory. That limit depends on the browser and is not modelled: every canvas with pixels on both sides produces an image.
- A promise that never settles is modelled as an outcome that changes nothing (`Encoding.Settled`). Nothing the page does later because of the pending promise is modelled.
- The src app assumes a page that supplies more than `uiManager` provides, and the model assumes that page is complete: every element it reads exists and every `uiManager` method it calls does what its name says. `uiManager` defines none of the methods `resetImage`, `resetProcessedImageInfo`, `showWarningMessage`, `showInfoMessage`, `showSizeOptions`, `showErrorMessage`, `getSelectedSizes` and `generateFileName`. `initializeElements` collects none of the elements `jpegQualitySlider`, `jpegQualityInput`, `jpegQualityValue`, `pngCompressionSlider`, `pngCompressionInput`, `pngCompressionValue`, `webpQualitySlider`, `webpQualityInput`, `webpQualityValue`, `webpTransparency`, `size1x`, `size2x`, `size3x`, `cropX`, `cropY`, `cropWidth`, `cropHeight`, `cropHandleN`, `cropHandleE`, `cropHandleS`, `cropHandleW`, `resetImageBtn`, `resetZoomBtn`, `zoomInBtn`, `zoomOutBtn`, `zoomLevel`, `autoSaveBtn`, `uploadAutoSaveBtn`, `uploadLoadWorkBtn`, `saveWorkBtn`, `loadWorkBtn`, `downloadMultiBtn`, `clearWorksBtn`, `workModal`, `workList`, `workEmpty`, `closeWorkModal`, `workSaveModal`, `workNameInput`, `confirmSaveWorkBtn`, `cancelSaveWorkBtn`, `closeWorkSaveModal`, `saveOriginalPreview`, `saveProcessedPreview`, `saveSettingsPreview`, `originalFileSize`, `originalImageSize`, `originalFormat`, `processedFileSize`, `processedImageSize`, `processedFormat`, `compressionInfo` and `compressionRatio`. On the page as shipped, the first call that reaches a missing one throws.
- A `FileReader` error while a blob URL is read back for a work rejects the save's promise; nothing is stored and no message is shown, just as when the thumbnail never loads. The model's `read` gives either the data URL or `null` (a failed `fetch`), so that rejection is not a separate outcome.
- Uploader.BlobType: models only the printable-ASCII check and lower-casing of the `Blob` type. It does not model the rest of MIME type parsing.

## Findings

| source | as written | input that shows it | evidently intended | confidence | as-written member | corrected member |
|---|---|---|---|---|---|---|
| frontend/src/js/modules/cropManager.js:111-150 | each resize move adds the pointer's distance from where the resize began to the current box, so repeated moves at one position keep growing the box | 1000×1000 image, 100×100 box, east handle grabbed at x = 0, two move events at x = 10: width 110, then 120 | the box follows the pointer: the delta is applied to the box as it was when the resize began, as in the public build | high, not executed | SrcCropManager.ResizeAccumulates, SrcCropManager.ResizeDriftExample | PublicCropManager.ResizePathIndependent |
| frontend/public/js/app.js:253-267 | `e.clientX \|\| (e.touches && e.touches[0].clientX)` treats a mouse `clientX` of 0 as missing; a mouse event has no `touches`, so the coordinate is `undefined` and the translate becomes `NaN` | a mouse press at `clientX` 0 while zoomed in above 1 | the mouse position is read whatever its value, and only touch events fall back to the first touch | high, not executed | Zoom.PointerXAsWritten, Zoom.MouseAtLeftEdge | Zoom.PointerOf, Zoom.PointerXAgreesAwayFromZero, Zoom.ViewerDragRoundTrip |
| frontend/src/js/app.js:314-322 | the app passes `jpegQuality` and `webpQuality`, but the src `processImage` and `cropImage` read only `quality` (frontend/src/js/modules/imageProcessor.js:10-15,56), so every JPEG or WebP encoding uses 0.8 | format `jpeg`, JPEG slider 50: encoded at 0.8 | the slider of the chosen format sets the quality, as in the public build | high, not executed | SrcApp.ProcessOptionsAsWritten, SrcApp.SlidersIgnoredAsWritten, SrcApp.HalfQualityIgnoredAsWritten | SrcApp.ProcessOptions, SrcApp.QualityAgreesWithPublicBuild, SrcApp.AsWrittenDiffersOffEighty |

`SrcApp.ProcessImage` and `SrcApp.ApplyCrop` use the corrected options. `Zoom.ViewerStartDrag` and `Zoom.ViewerDrag` use the corrected pointer reading. The public crop manager is the corrected resize. The src crop manager keeps the behaviour as written, because both variants are part of the system.

## Notes on the code's behaviour

- With only one bound, both `imageProcessor` files scale by `min(maxWidth / width, height / height)`, which is never above 1. So a single bound shrinks an image but never enlarges it, and the image does not reach the bound exactly. `calculateImageSize` in `imageUtils` does match a single bound exactly, and may enlarge.
- With both bounds, the ratio `min(maxWidth / width, maxHeight / height)` can exceed 1, so the image is enlarged to meet one bound.
- The crop input fields clamp the size to at least 1 pixel, not 50. The 50-pixel floor applies only to handle resizes.
- The autosave entry is found by the name `자동저장`.
- The src app's restored processed image is the data-URL string itself, not a `Blob`. `URL.createObjectURL` throws on it, so it cannot be downloaded, and cropping it shows the crop error (`SrcApp.RestoredWorkCannotBeDownloadedOrCropped`).
- A fitted or cropped canvas whose side truncates to 0 makes `toBlob` hand over `null`. Both apps then store `null` as the processed image and show their error message (`PublicApp.FlatCanvasDropsBlob`). On the public PNG path above level 3, `drawImage` throws on the empty canvas inside `compressPNG`'s promise executor instead. That promise rejects, the `.then(resolve)` waiting on it never passes the rejection on, and the outer promise never settles.
- Asked for WebP by a browser that cannot encode it, the public build requests JPEG, and the src build requests WebP and receives PNG (`Encoding.BuildsDifferOnWebpFallback`).
- The src `uiManager.showSuccessMessage` takes two sizes and always builds the crop alert. The src app also calls it with a single text after a save, a restore and a multi-size download. That text fills the original-size slot and the cropped size reads `undefined`, so each of those notices begins with `크롭 완료!` (`SrcApp.Saved`, `SrcApp.Restored`, `SrcApp.DownloadedCount`).
- In a multi-size download, an entry whose blob is `null` makes `URL.createObjectURL` throw. The loop stops there, and the download error replaces the count message (`SrcApp.NullBlobStopsBatch`).
- `setOriginalFile` on a `data:image/` text without a comma calls `atob("undefined")`, which throws (`Uploader.NoCommaThrows`).

=== FILE: app_public.dfy ===
/**
 * The public build's application rules above its modules: the options
 * object built from the page's controls, the guards that refuse to act
 * without an uploaded or a processed image, the crop toggle and apply
 * steps, the single download's file name, and the reset. Zoom and pan of
 * the preview live in `Zoom`.
 *
 * The processed blob is represented by what its encoding produced
 * (`Encoding.Output`: MIME type, quality and surface). Decoding an image
 * is a parameter: the decoded size, or `None` when the browser could not
 * load it. Every step returns the next state and the alert it shows, if
 * any; a refused step returns the state it was given, and so does a step
 * whose encoding never settles, since its `await` never returns.
 */
module PublicApp {
  import opened Common
  import opened Geometry
  import opened Sizing
  import opened Encoding
  import opened PageControls
  import opened Numbers
  import PublicCropManager
  import Uploader
  import FileNames
  import Strings

  datatype App = App(uploader: Uploader.Uploader, processedBlob: Option<Output>, crop: PublicCropManager.CropManager)

  /** The next state and the alert shown on the way, if any. */
  datatype Step = Step(app: App, alert: Option<string>)

  const UploadFirst: string := "먼저 이미지를 업로드해주세요."
  const ProcessFirst: string := "먼저 이미지를 처리해주세요."
  const ProcessFailed: string := "이미지 처리 중 오류가 발생했습니다."
  const CropFailed: string := "크롭 처리 중 오류가 발생했습니다."
  const CropDoneHeader: string := "크롭 완료!\n원본: "
  const CroppedLabel: string := "\n크롭된 이미지: "

  /**
   * `showSuccessMessage`: the alert after a crop, naming the original
   * file's size and the cropped image's size as `formatFileSize` shows them.
   */
  function CropDone(originalSize: string, newSize: string): (r: string)
    ensures |r| == |CropDoneHeader| + |originalSize| + |CroppedLabel| + |newSize|
    ensures r[..|CropDoneHeader|] == CropDoneHeader && r[|r| - |newSize|..] == newSize
  {
    CropDoneHeader + originalSize + CroppedLabel + newSize
  }

  /**
   * The crop alert can be read back: when the original size has no line
   * break, the alert determines both sizes, so two different pairs never
   * show the same alert.
   */
  lemma CropDoneNamesBothSizes(a: string, b: string, a2: string, b2: string)
    requires '\n' !in a && '\n' !in a2
    requires CropDone(a, b) == CropDone(a2, b2)
    ensures a == a2 && b == b2
  {
    var x := CroppedLabel[1..] + b;
    var x2 := CroppedLabel[1..] + b2;
    assert CropDone(a, b) == CropDoneHeader + (a + ['\n'] + x);
    assert CropDone(a2, b2) == CropDoneHeader + (a2 + ['\n'] + x2);
    assert a + ['\n'] + x == CropDone(a, b)[|CropDoneHeader|..];
    assert a2 + ['\n'] + x2 == CropDone(a2, b2)[|CropDoneHeader|..];
    Strings.SplitAtFirst(a, '\n', x);
    Strings.SplitAtFirst(a2, '\n', x2);
    assert b == x[|CroppedLabel| - 1..] && b2 == x2[|CroppedLabel| - 1..];
  }

  /**
   * The options object of `processImage` and of the batch download:
   * qualities are the sliders divided by 100, the PNG level is the slider
   * itself, and each size field gives a bound only for a non-zero integer.
   */
  function ProcessOptions(c: Controls): (o: PublicOptions)
    ensures o.format == c.format && o.pngCompression == Int(c.pngSlider)
    ensures o.jpegQuality * 100.0 == c.jpegSlider as real && o.webpQuality * 100.0 == c.webpSlider as real
    ensures (Given(o.maxWidth) <==> o.maxWidth.Some?) && (Given(o.maxHeight) <==> o.maxHeight.Some?)
    ensures o.maxWidth == ParseBound(c.maxWidth) && o.maxHeight == ParseBound(c.maxHeight)
  {
    PublicOptions(c.format, c.jpegSlider as real / 100.0, Int(c.pngSlider), c.webpSlider as real / 100.0,
                  ParseBound(c.maxWidth), ParseBound(c.maxHeight))
  }

  /** The options object of `applyCrop`: the same without the size fields. */
  function CropOptions(c: Controls): (o: PublicOptions)
    ensures o == ProcessOptions(c).(maxWidth := None, maxHeight := None)
  {
    ProcessOptions(c).(maxWidth := None, maxHeight := None)
  }

  /**
   * A non-PNG image is encoded with the quality of the slider that belongs
   * to the chosen format: the WebP slider for `webp`, the JPEG slider for
   * everything else.
   */
  lemma QualityFollowsSlider(src: Size, c: Controls, webpSupported: bool)
    requires src.width > 0.0 && src.height > 0.0
    requires c.format != "png"
    ensures var r := PublicProcessImage(src, ProcessOptions(c), webpSupported);
            r.Produced? ==> r.out.quality == Some((if c.format == "webp" then c.webpSlider else c.jpegSlider) as real / 100.0)
  {
  }

  /** Empty size fields, or fields holding 0, leave a whole-pixel image at its own size. */
  lemma EmptySizeFieldsKeepSize(w: nat, h: nat, c: Controls, webpSupported: bool)
    requires 0 < w <= MaxReflected && 0 < h <= MaxReflected
    requires c.format != "png"
    requires c.maxWidth in {"", "0"} && c.maxHeight in {"", "0"}
    ensures var r := PublicProcessImage(Size(w as real, h as real), ProcessOptions(c), webpSupported);
            r.Produced? && r.out.width == w && r.out.height == h
  {
    NoBoundTexts();
    PublicProcessKeepsSize(w, h, ProcessOptions(c), webpSupported);
  }

  /**
   * The blob an encoding leaves in the app. A `null` blob is stored as
   * such, and the object URL made from it next throws, which ends in the
   * error alert with the blob gone; a promise that never settles changes
   * nothing and shows nothing. An encoded image shows the `success` alert, if any.
   */
  function Settle(app: App, s: Settled, failure: string, onSuccess: App -> App, success: Option<string>): (r: Step)
    ensures s.Produced? ==> r == Step(onSuccess(app.(processedBlob := Some(s.out))), success)
    ensures s.NullBlob? ==> r == Step(app.(processedBlob := None), Some(failure))
    ensures s.NeverSettles? ==> r == Step(app, None)
  {
    match s
    case Produced(out) => Step(onSuccess(app.(processedBlob := Some(out))), success)
    case NullBlob => Step(app.(processedBlob := None), Some(failure))
    case NeverSettles => Step(app, None)
  }

  /** A processed blob, when there is one, has pixels on both sides. */
  predicate BlobHasPixels(app: App) {
    app.processedBlob.Some? ==> app.processedBlob.value.width > 0 && app.processedBlob.value.height > 0
  }

  /**
   * `processImage`: without an uploaded file it alerts and stops; an image
   * the browser cannot load ends in the error alert; otherwise the result
   * of the encoding is assigned to the processed blob: an encoded image
   * replaces it, a `null` blob clears it and ends in the error alert.
   */
  function ProcessImage(app: App, decoded: Option<Size>, c: Controls, webpSupported: bool): (r: Step)
    requires decoded.Some? ==> decoded.value.width > 0.0 && decoded.value.height > 0.0
    ensures app.uploader.originalFile.None? ==> r == Step(app, Some(UploadFirst))
    ensures app.uploader.originalFile.Some? && decoded.None? ==> r == Step(app, Some(ProcessFailed))
    ensures app.uploader.originalFile.Some? && decoded.Some? ==>
              var s := PublicProcessImage(decoded.value, ProcessOptions(c), webpSupported);
              && (s.Produced? ==> r == Step(app.(processedBlob := Some(s.out)), None))
              && (s.NullBlob? ==> r == Step(app.(processedBlob := None), Some(ProcessFailed)))
              && (s.NeverSettles? ==> r == Step(app, None))
    ensures BlobHasPixels(app) ==> BlobHasPixels(r.app)
    ensures r.app == app.(processedBlob := r.app.processedBlob)
  {
    if app.uploader.originalFile.None? then Step(app, Some(UploadFirst))
    else if decoded.None? then Step(app, Some(ProcessFailed))
    else Settle(app, PublicProcessImage(decoded.value, ProcessOptions(c), webpSupported), ProcessFailed, (a: App) => a, None)
  }

  /**
   * A width field of 1 on a 1000×10 JPEG gives a canvas one pixel wide and
   * 0.01 pixels high, which truncates to 0: the blob is `null`, the
   * processed image is dropped and the error alert is shown.
   */
  lemma FlatCanvasDropsBlob(app: App)
    requires app.uploader.originalFile.Some?
    ensures ProcessImage(app, Some(Size(1000.0, 10.0)), Controls("jpeg", 80, 6, 80, "1", ""), true)
            == Step(app.(processedBlob := None), Some(ProcessFailed))
  {
    assert IntToString(1) == "1";
    ParseBoundOfInt(1);
    NoBoundTexts();
    var o := ProcessOptions(Controls("jpeg", 80, 6, 80, "1", ""));
    assert o.maxWidth == Some(1.0) && o.maxHeight == None;
    assert FitRatio(Size(1000.0, 10.0), Some(1.0), None) == 0.001;
    assert FitSize(Size(1000.0, 10.0), Some(1.0), None) == Size(1.0, 0.01);
    assert CanvasSize(Size(1.0, 0.01)).1 == 0;
  }

  /**
   * `toggleCropMode`: refused without a processed blob. Otherwise the mode
   * flips; switching it on initialises the box over the displayed image,
   * unless the image measures 0 on a side, in which case the
   * initialisation is left to a later retry.
   */
  function ToggleCrop(app: App, offset: Size, bounding: Size, natural: Size): (r: Step)
    ensures app.processedBlob.None? ==> r == Step(app, Some(ProcessFirst))
    ensures app.processedBlob.Some? ==>
              && r.alert.None?
              && r.app.crop.isCropMode != app.crop.isCropMode
              && r.app == app.(crop := r.app.crop)
    ensures app.processedBlob.Some? && app.crop.isCropMode ==> r.app.crop.data == app.crop.data
    ensures app.processedBlob.Some? && !app.crop.isCropMode ==>
              var s := PublicCropManager.MeasureImage(offset, bounding, natural);
              s.width > 0.0 && s.height > 0.0 ==> r.app.crop.data.box == Rect(0.0, 0.0, s.width, s.height)
  {
    if app.processedBlob.None? then Step(app, Some(ProcessFirst))
    else
      var (m, on) := PublicCropManager.ToggleCropMode(app.crop);
      if !on then Step(app.(crop := m), None)
      else match PublicCropManager.InitCrop(m, offset, bounding, natural)
        case Some(m') => Step(app.(crop := m'), None)
        case None => Step(app.(crop := m), None)
  }

  /**
   * `applyCrop`: refused without a processed blob. The current box, on the
   * displayed size, is mapped onto the processed image and encoded
   * (`loads` says whether the processed blob decodes at all; when it does
   * not, the error alert is shown and nothing changes). An encoded image
   * replaces the processed blob, crop mode ends and the crop alert names
   * `originalSize` and `newSize`, the `formatFileSize` texts of the
   * uploaded file and of the new blob; a `null` blob clears the processed
   * blob, leaves crop mode on and ends in the error alert.
   */
  function ApplyCrop(app: App, displayed: Size, c: Controls, webpSupported: bool, loads: bool,
                     originalSize: string, newSize: string): (r: Step)
    requires displayed.width != 0.0 && displayed.height != 0.0
    ensures app.processedBlob.None? ==> r == Step(app, Some(ProcessFirst))
    ensures app.processedBlob.Some? && !loads ==> r == Step(app, Some(CropFailed))
    ensures app.processedBlob.Some? && loads ==>
              var before := app.processedBlob.value;
              var s := PublicCropImage(app.crop.data.box, displayed, Size(before.width as real, before.height as real),
                                       CropOptions(c), webpSupported);
              && (s.Produced? ==>
                    && r.alert == Some(CropDone(originalSize, newSize))
                    && r.app.processedBlob == Some(s.out) && r.app.uploader == app.uploader
                    && r.app.crop == PublicCropManager.CancelCrop(app.crop))
              && (s.NullBlob? ==> r == Step(app.(processedBlob := None), Some(CropFailed)))
              && (s.NeverSettles? ==> r == Step(app, None))
    ensures BlobHasPixels(app) ==> BlobHasPixels(r.app)
    ensures r.app.uploader == app.uploader
  {
    if app.processedBlob.None? then Step(app, Some(ProcessFirst))
    else if !loads then Step(app, Some(CropFailed))
    else
      var before := app.processedBlob.value;
      var s := PublicCropImage(PublicCropManager.GetCropData(app.crop).box, displayed,
                               Size(before.width as real, before.height as real), CropOptions(c), webpSupported);
      Settle(app, s, CropFailed, (a: App) => a.(crop := PublicCropManager.CancelCrop(a.crop)),
             Some(CropDone(originalSize, newSize)))
  }

  /**
   * Switching crop mode on and applying the crop without moving the box
   * re-encodes a non-PNG processed image at its own size.
   */
  lemma UntouchedCropKeepsSize(app: App, displayed: Size, c: Controls, webpSupported: bool,
                               originalSize: string, newSize: string)
    requires app.processedBlob.Some? && !app.crop.isCropMode
    requires displayed.width > 0.0 && displayed.height > 0.0
    requires 0 < app.processedBlob.value.width <= MaxReflected && 0 < app.processedBlob.value.height <= MaxReflected
    requires c.format != "png"
    ensures var on := ToggleCrop(app, displayed, displayed, displayed).app;
            var out := ApplyCrop(on, displayed, c, webpSupported, true, originalSize, newSize).app.processedBlob;
            out.Some? && out.value.width == app.processedBlob.value.width && out.value.height == app.processedBlob.value.height
  {
    var on := ToggleCrop(app, displayed, displayed, displayed).app;
    assert on.crop.data.box == Rect(0.0, 0.0, displayed.width, displayed.height);
    var before := app.processedBlob.value;
    PublicCropWhole(displayed, before.width, before.height, CropOptions(c), webpSupported);
  }

  /** `downloadImage`'s file name: the format menu's value, or `jpg` when it is empty. */
  function DownloadFileName(format: string): (r: string)
    ensures format != "" ==> r == "processed_image." + format
    ensures format == "" ==> r == "processed_image.jpg"
  {
    "processed_image." + (if format == "" then "jpg" else format)
  }

  /** `downloadImage`: refused without a processed blob; otherwise the name of the file offered. */
  function DownloadImage(app: App, format: string): (r: Result<string>)
    ensures r.Err? <==> app.processedBlob.None?
    ensures r.Err? ==> r.message == ProcessFirst
    ensures r.Ok? ==> r.value == DownloadFileName(format)
  {
    if app.processedBlob.None? then Err(ProcessFirst) else Ok(DownloadFileName(format))
  }

  /**
   * The download name's extension is the format value itself (for a
   * dot-free value), so `jpeg` downloads as `.jpeg`, not `.jpg`.
   */
  lemma DownloadExtensionIsFormat(format: string)
    requires '.' !in format
    ensures FileNames.Extension(DownloadFileName(format)) == (if format == "" then "jpg" else format)
  {
    var ext := if format == "" then "jpg" else format;
    assert DownloadFileName(format) == "processed_image" + "." + ext;
    FileNames.ExtensionOfJoin("processed_image", ext);
  }

  lemma JpegDownloadName()
    ensures DownloadFileName("jpeg") == "processed_image.jpeg"
    ensures DownloadFileName("") == "processed_image.jpg"
  {
  }

  /** `resetApp`: the uploaded file and the processed blob are dropped and crop mode ends. */
  function ResetApp(app: App): (r: App)
    ensures r.uploader.originalFile.None? && r.processedBlob.None?
    ensures !r.crop.isCropMode && r.crop.data.box == app.crop.data.box
  {
    App(Uploader.Reset(app.uploader), None, PublicCropManager.CancelCrop(app.crop))
  }

  /** After a reset, processing, cropping and downloading all refuse with their alerts and change nothing. */
  lemma ResetRefusesEverything(app: App, decoded: Option<Size>, c: Controls, webpSupported: bool,
                               offset: Size, bounding: Size, natural: Size, displayed: Size, format: string,
                               originalSize: string, newSize: string)
    requires decoded.Some? ==> decoded.value.width > 0.0 && decoded.value.height > 0.0
    requires displayed.width != 0.0 && displayed.height != 0.0
    ensures var z := ResetApp(app);
            && ProcessImage(z, decoded, c, webpSupported) == Step(z, Some(UploadFirst))
            && ToggleCrop(z, offset, bounding, natural) == Step(z, Some(ProcessFirst))
            && ApplyCrop(z, displayed, c, webpSupported, true, originalSize, newSize) == Step(z, Some(ProcessFirst))
            && DownloadImage(z, format) == Err(ProcessFirst)
  {
  }
}

=== FILE: app_src.dfy ===
/**
 * The src build's application rules above its modules: the options
 * object built from the page's controls, the button-state table, the
 * crop inputs, applying a crop, the single and the multi-size download,
 * saving a work by name, the autosave switch and the autosave itself, and
 * restoring a saved work.
 *
 * The processed blob is either what an encoding produced or, after a
 * saved work is restored, the work's data-URL string. Decoding, reading a
 * blob URL back, the clock, the thumbnail and whether the browser encodes
 * WebP are parameters. Every step returns the next state and the notice
 * it shows, if any; a refused step returns the state it was given.
 *
 * The page is taken to supply every element and every user-interface
 * method these steps use; the notices stand for the messages shown.
 */
module SrcApp {
  import opened Common
  import opened Strings
  import opened Numbers
  import opened Geometry
  import opened Encoding
  import opened PageControls
  import SrcCropManager
  import CropRules
  import WorkManager
  import Settings
  import FileNames
  import Uploader
  import PublicApp

  /** What `processedBlob` holds: an encoded image, or the data URL of a restored work. */
  datatype Processed = EncodedBlob(out: Output) | LoadedDataUrl(url: string)

  datatype App = App(
    uploader: Uploader.Uploader,
    processedBlob: Option<Processed>,
    crop: SrcCropManager.CropManager,
    autoSaveEnabled: bool,
    storage: WorkManager.Storage)

  /** The next state and the notice shown on the way, if any. */
  datatype Step = Step(app: App, notice: Option<string>)

  const UploadFirst: string := "먼저 이미지를 업로드해주세요."
  const ProcessFirst: string := "먼저 이미지를 처리해주세요."
  const SelectSize: string := "최소 하나의 크기를 선택해주세요."
  const ProcessFailed: string := "이미지 처리 중 오류가 발생했습니다."
  const CropFailed: string := "크롭 처리 중 오류가 발생했습니다."
  const EnterName: string := "작업물 이름을 입력해주세요."
  const SaveFailed: string := "작업물 저장에 실패했습니다."
  const DownloadFailed: string := "다운로드 중 오류가 발생했습니다."

  /**
   * `showSuccessMessage` with a single text. The src `uiManager` defines
   * only the crop alert with two sizes, so the text takes the original
   * size's place and the cropped size reads `undefined`.
   */
  function Success(text: string): string {
    PublicApp.CropDone(text, "undefined")
  }

  const Saved: string := Success("작업물이 저장되었습니다.")
  const Restored: string := Success("작업물을 불러왔습니다.")
  const RestoreFailed: string := "작업물을 불러오는 중 오류가 발생했습니다. 이미지 데이터가 손상되었을 수 있습니다."

  // ---------------------------------------------------------------------
  // Options
  // ---------------------------------------------------------------------

  /**
   * The options object as `processImage` builds it, read by the src
   * `processImage`: it carries `jpegQuality` and `webpQuality` but no
   * `quality` key, so the encoder always receives the default 0.8.
   */
  function ProcessOptionsAsWritten(c: Controls): (o: SrcOptions)
    ensures o.quality == 0.8
    ensures o.format == c.format && o.maxWidth == ParseBound(c.maxWidth) && o.maxHeight == ParseBound(c.maxHeight)
  {
    ResolveSrcOptions(Some(c.format), None, ParseBound(c.maxWidth), ParseBound(c.maxHeight))
  }

  /** As written, the quality sliders have no effect: moving them gives the same options. */
  lemma SlidersIgnoredAsWritten(c: Controls, jpegSlider: int, webpSlider: int)
    ensures ProcessOptionsAsWritten(c.(jpegSlider := jpegSlider, webpSlider := webpSlider)) == ProcessOptionsAsWritten(c)
  {
  }

  /** A JPEG slider at 50 still encodes at quality 0.8. */
  lemma HalfQualityIgnoredAsWritten(src: Size, webpSupported: bool)
    requires src.width > 0.0 && src.height > 0.0
    ensures var r := SrcProcessImage(src, ProcessOptionsAsWritten(Controls("jpeg", 50, 6, 80, "", "")), webpSupported);
            r.Some? ==> r.value.quality == Some(0.8)
  {
  }

  /** The quality of the slider that belongs to the format: WebP for `webp`, JPEG otherwise. */
  function SliderQuality(c: Controls): (q: real)
    ensures c.format == "webp" ==> q * 100.0 == c.webpSlider as real
    ensures c.format != "webp" ==> q * 100.0 == c.jpegSlider as real
  {
    (if c.format == "webp" then c.webpSlider else c.jpegSlider) as real / 100.0
  }

  /** The options with the slider quality passed under the key the src encoder reads. */
  function ProcessOptions(c: Controls): (o: SrcOptions)
    ensures o == ProcessOptionsAsWritten(c).(quality := SliderQuality(c))
  {
    ResolveSrcOptions(Some(c.format), Some(SliderQuality(c)), ParseBound(c.maxWidth), ParseBound(c.maxHeight))
  }

  /** `applyCrop`'s options: the same without the size fields. */
  function CropOptions(c: Controls): (o: SrcOptions)
    ensures o == ProcessOptions(c).(maxWidth := None, maxHeight := None)
  {
    ResolveSrcOptions(Some(c.format), Some(SliderQuality(c)), None, None)
  }

  /**
   * With the quality passed, the src build encodes a non-PNG image exactly
   * when the public build does, with the same quality and at the same size,
   * in a browser that supports WebP.
   */
  lemma QualityAgreesWithPublicBuild(src: Size, c: Controls)
    requires src.width > 0.0 && src.height > 0.0
    requires c.format != "png"
    ensures var mine := SrcProcessImage(src, ProcessOptions(c), true);
            var theirs := PublicProcessImage(src, PublicApp.ProcessOptions(c), true);
            && (mine.Some? <==> theirs.Produced?)
            && (mine.Some? ==>
                  && mine.value.quality == theirs.out.quality
                  && mine.value.width == theirs.out.width && mine.value.height == theirs.out.height)
  {
    BuildsAgreeOnSize(src, PublicApp.ProcessOptions(c), ProcessOptions(c), true);
    PublicApp.QualityFollowsSlider(src, c, true);
  }

  /** The as-written options differ from the intended ones exactly when the format's slider is not at 80. */
  lemma AsWrittenDiffersOffEighty(c: Controls)
    ensures ProcessOptionsAsWritten(c) == ProcessOptions(c) <==>
            (if c.format == "webp" then c.webpSlider else c.jpegSlider) == 80
  {
  }

  // ---------------------------------------------------------------------
  // Processing and button states
  // ---------------------------------------------------------------------

  /**
   * `processImage`: without a file the warning is shown and nothing
   * changes; an image the browser cannot load ends in the error notice;
   * otherwise the result of the encoding is assigned to the processed
   * blob: an encoded image replaces it, while the `null` blob of a canvas
   * with a zero side clears it, and the object URL made from it next throws,
   * which ends in the error notice.
   */
  function ProcessImage(app: App, decoded: Option<Size>, c: Controls, webpSupported: bool): (r: Step)
    requires decoded.Some? ==> decoded.value.width > 0.0 && decoded.value.height > 0.0
    ensures app.uploader.originalFile.None? ==> r == Step(app, Some(UploadFirst))
    ensures app.uploader.originalFile.Some? && decoded.None? ==> r == Step(app, Some(ProcessFailed))
    ensures r.app == app.(processedBlob := r.app.processedBlob)
    ensures app.uploader.originalFile.Some? && decoded.Some? ==>
              var out := SrcProcessImage(decoded.value, ProcessOptions(c), webpSupported);
              && (out.Some? ==> r.notice.None? && r.app.processedBlob == Some(EncodedBlob(out.value)))
              && (out.None? ==> r.notice == Some(ProcessFailed) && r.app.processedBlob.None?)
  {
    if app.uploader.originalFile.None? then Step(app, Some(UploadFirst))
    else if decoded.None? then Step(app, Some(ProcessFailed))
    else match SrcProcessImage(decoded.value, ProcessOptions(c), webpSupported)
      case Some(out) => Step(app.(processedBlob := Some(EncodedBlob(out))), None)
      case None => Step(app.(processedBlob := None), Some(ProcessFailed))
  }

  const CropModeLabel: string := "크롭 모드"
  const ProcessedCropLabel: string := "처리된 이미지 크롭"
  const OriginalCropLabel: string := "원본 이미지 크롭"

  datatype Buttons = Buttons(cropText: string, cropDisabled: bool, processDisabled: bool, resetDisabled: bool)

  /**
   * `updateButtonStates`: without a file every button is disabled and the
   * crop button reads `크롭 모드`; with a file the crop button names the
   * image a crop would start from.
   */
  function ButtonStates(app: App): (b: Buttons)
    ensures b.cropDisabled == b.processDisabled == b.resetDisabled == app.uploader.originalFile.None?
    ensures app.uploader.originalFile.None? ==> b.cropText == CropModeLabel
    ensures app.uploader.originalFile.Some? ==>
              b.cropText == (if app.processedBlob.Some? then ProcessedCropLabel else OriginalCropLabel)
  {
    var file := app.uploader.originalFile;
    if file.None? then Buttons(CropModeLabel, true, true, true)
    else if app.processedBlob.Some? then Buttons(ProcessedCropLabel, false, false, false)
    else Buttons(OriginalCropLabel, false, false, false)
  }

  // ---------------------------------------------------------------------
  // Crop
  // ---------------------------------------------------------------------

  /** The image a crop or a multi-size download starts from. */
  datatype Source = FromProcessed(p: Processed) | FromOriginal(file: Uploader.File)

  /** The processed blob when there is one, else the uploaded file. */
  function SourceOf(app: App): (r: Option<Source>)
    ensures app.processedBlob.Some? ==> r == Some(FromProcessed(app.processedBlob.value))
    ensures app.processedBlob.None? ==> (r.Some? <==> app.uploader.originalFile.Some?)
    ensures app.processedBlob.None? && r.Some? ==> r.value == FromOriginal(app.uploader.originalFile.value)
  {
    if app.processedBlob.Some? then Some(FromProcessed(app.processedBlob.value))
    else if app.uploader.originalFile.Some? then Some(FromOriginal(app.uploader.originalFile.value))
    else None
  }

  /**
   * `toggleCropMode`: refused without an uploaded file. Otherwise the mode
   * flips; switching it on places the centred box over the displayed
   * image, which shows the processed blob when there is one and the
   * original otherwise.
   */
  function ToggleCrop(app: App, displayed: Size): (r: Step)
    ensures app.uploader.originalFile.None? ==> r == Step(app, Some(UploadFirst))
    ensures app.uploader.originalFile.Some? ==>
              && r.notice.None?
              && r.app.crop.isCropMode != app.crop.isCropMode
              && r.app == app.(crop := r.app.crop)
    ensures app.uploader.originalFile.Some? && app.crop.isCropMode ==> r.app.crop.data == app.crop.data
    ensures app.uploader.originalFile.Some? && !app.crop.isCropMode && displayed.width >= 0.0 && displayed.height >= 0.0 ==>
              Inside(r.app.crop.data.box, displayed.width, displayed.height) &&
              r.app.crop.data.box.width == displayed.width * 0.8 && r.app.crop.data.box.height == displayed.height * 0.8
  {
    if app.uploader.originalFile.None? then Step(app, Some(UploadFirst))
    else
      var (m, on) := SrcCropManager.ToggleCropMode(app.crop);
      if on then Step(app.(crop := SrcCropManager.InitCrop(m, displayed)), None)
      else Step(app.(crop := m), None)
  }

  /** `resetImage`: the processed blob is dropped and crop mode ends; the file, the switch and the works stay. */
  function ResetImage(app: App): (r: App)
    ensures r.processedBlob.None? && !r.crop.isCropMode && r.crop.data.box == app.crop.data.box
    ensures r.uploader == app.uploader && r.autoSaveEnabled == app.autoSaveEnabled && r.storage == app.storage
  {
    app.(processedBlob := None, crop := SrcCropManager.CancelCrop(app.crop))
  }

  /** `resetApp`: the file and the processed blob are dropped and crop mode ends; the switch and the works stay. */
  function ResetApp(app: App): (r: App)
    ensures r.uploader.originalFile.None? && r.processedBlob.None?
    ensures !r.crop.isCropMode && r.crop.data.box == app.crop.data.box
    ensures r.autoSaveEnabled == app.autoSaveEnabled && r.storage == app.storage
  {
    app.(uploader := Uploader.Reset(app.uploader), processedBlob := None, crop := SrcCropManager.CancelCrop(app.crop))
  }

  /**
   * After `resetImage` a crop starts from the original again, and the
   * buttons say so; after `resetApp` every button is disabled and crop,
   * processing and downloading are refused.
   */
  lemma ResetsAndButtons(app: App, displayed: Size, natural: Size, decoded: Option<Size>, c: Controls,
                         webpSupported: bool, loads: bool, originalSize: string, newSize: string)
    requires app.uploader.originalFile.Some?
    requires displayed.width != 0.0 && displayed.height != 0.0
    requires decoded.Some? ==> decoded.value.width > 0.0 && decoded.value.height > 0.0
    ensures SourceOf(ResetImage(app)) == Some(FromOriginal(app.uploader.originalFile.value))
    ensures ButtonStates(ResetImage(app)) == Buttons(OriginalCropLabel, false, false, false)
    ensures var z := ResetApp(app);
            && ButtonStates(z) == Buttons(CropModeLabel, true, true, true)
            && ToggleCrop(z, displayed) == Step(z, Some(UploadFirst))
            && ApplyCrop(z, displayed, natural, c, webpSupported, loads, originalSize, newSize) == Step(z, Some(UploadFirst))
            && ProcessImage(z, decoded, c, webpSupported) == Step(z, Some(UploadFirst))
            && DownloadImage(z) == Refused(ProcessFirst)
  {
  }

  /**
   * `handleCropInputChange`: text that does not parse, and 0, default to 0
   * for the position and 1 for the size; the box is then clamped into the
   * image.
   */
  function HandleCropInputChange(m: SrcCropManager.CropManager, xText: string, yText: string,
                                 widthText: string, heightText: string,
                                 imageWidth: real, imageHeight: real): (r: SrcCropManager.CropManager)
    ensures r.data.box.x >= 0.0 && r.data.box.y >= 0.0
    ensures r.data.box.width >= 1.0 && r.data.box.height >= 1.0
    ensures ParseInt(widthText).OrElse(1) >= 1 && ParseInt(heightText).OrElse(1) >= 1 &&
            imageWidth >= 1.0 && imageHeight >= 1.0 ==>
              Inside(r.data.box, imageWidth, imageHeight)
    ensures r.data == m.data.(box := r.data.box) && r.isCropMode == m.isCropMode
  {
    SrcCropManager.SetCropFromInput(m, ParseInt(xText).OrElse(0) as real, ParseInt(yText).OrElse(0) as real,
                                    ParseInt(widthText).OrElse(1) as real, ParseInt(heightText).OrElse(1) as real,
                                    imageWidth, imageHeight)
  }

  /** Typing the numbers of a whole-pixel box that lies inside the image gives back exactly that box. */
  lemma CropInputRoundTrip(m: SrcCropManager.CropManager, x: int, y: int, width: int, height: int,
                           imageWidth: real, imageHeight: real)
    requires 0 <= x && 0 <= y && 1 <= width && 1 <= height
    requires (x + width) as real <= imageWidth && (y + height) as real <= imageHeight
    ensures HandleCropInputChange(m, IntToString(x), IntToString(y), IntToString(width), IntToString(height),
                                  imageWidth, imageHeight).data.box == Rect(x as real, y as real, width as real, height as real)
  {
    ParseIntOfIntToStringAlone(x);
    ParseIntOfIntToStringAlone(y);
    ParseIntOfIntToStringAlone(width);
    ParseIntOfIntToStringAlone(height);
  }

  /** A size typed as 0, or left empty, is taken as 1. */
  lemma ZeroSizeIsOne(m: SrcCropManager.CropManager, xText: string, yText: string, imageWidth: real, imageHeight: real)
    ensures HandleCropInputChange(m, xText, yText, "0", "", imageWidth, imageHeight) ==
            HandleCropInputChange(m, xText, yText, "1", "1", imageWidth, imageHeight)
  {
    assert IntToString(0) == "0" && IntToString(1) == "1";
    ParseIntOfIntToStringAlone(0);
    ParseIntOfIntToStringAlone(1);
  }

  /**
   * `applyCrop`: refused without an uploaded file. The crop starts from the
   * processed blob when there is one, else from the file; `natural` is the
   * decoded size of that image and `loads` says whether it decodes at all.
   * A restored work's data-URL string cannot be turned into an object URL,
   * so cropping it fails like an image that does not load: the error
   * notice, and nothing changes. Otherwise an encoded crop becomes the
   * processed blob, crop mode ends and the crop alert names `originalSize`
   * and `newSize`, the `formatFileSize` texts of the uploaded file and of
   * the new blob, while the `null` blob of an empty
   * crop clears the processed blob, keeps crop mode and ends in the error
   * notice.
   */
  function ApplyCrop(app: App, displayed: Size, natural: Size, c: Controls, webpSupported: bool, loads: bool,
                     originalSize: string, newSize: string): (r: Step)
    requires displayed.width != 0.0 && displayed.height != 0.0
    ensures app.uploader.originalFile.None? ==> r == Step(app, Some(UploadFirst))
    ensures app.uploader.originalFile.Some? && (!loads || (app.processedBlob.Some? && app.processedBlob.value.LoadedDataUrl?)) ==>
              r == Step(app, Some(CropFailed))
    ensures app.uploader.originalFile.Some? && loads && !(app.processedBlob.Some? && app.processedBlob.value.LoadedDataUrl?) ==>
              var out := SrcCropImage(app.crop.data.box, displayed, natural, CropOptions(c), webpSupported);
              && (out.Some? ==>
                    && r.notice == Some(PublicApp.CropDone(originalSize, newSize))
                    && r.app == app.(processedBlob := Some(EncodedBlob(out.value)), crop := SrcCropManager.CancelCrop(app.crop)))
              && (out.None? ==> r == Step(app.(processedBlob := None), Some(CropFailed)))
    ensures r.app.uploader == app.uploader && r.app.storage == app.storage
  {
    if app.uploader.originalFile.None? then Step(app, Some(UploadFirst))
    else if !loads || (app.processedBlob.Some? && app.processedBlob.value.LoadedDataUrl?) then Step(app, Some(CropFailed))
    else match SrcCropImage(app.crop.data.box, displayed, natural, CropOptions(c), webpSupported)
      case Some(out) =>
        Step(app.(processedBlob := Some(EncodedBlob(out)), crop := SrcCropManager.CancelCrop(app.crop)),
             Some(PublicApp.CropDone(originalSize, newSize)))
      case None => Step(app.(processedBlob := None), Some(CropFailed))
  }

  /**
   * The crop button tells the truth: it is disabled exactly when applying
   * a crop is refused, and its label names the image the crop starts from.
   */
  lemma CropButtonDescribesApplyCrop(app: App, displayed: Size, natural: Size, c: Controls, webpSupported: bool, loads: bool,
                                     originalSize: string, newSize: string)
    requires displayed.width != 0.0 && displayed.height != 0.0
    ensures ButtonStates(app).cropDisabled <==>
            ApplyCrop(app, displayed, natural, c, webpSupported, loads, originalSize, newSize) == Step(app, Some(UploadFirst))
    ensures ButtonStates(app).cropText == ProcessedCropLabel <==>
            app.uploader.originalFile.Some? && SourceOf(app).Some? && SourceOf(app).value.FromProcessed?
    ensures ButtonStates(app).cropText == OriginalCropLabel <==>
            app.uploader.originalFile.Some? && SourceOf(app).Some? && SourceOf(app).value.FromOriginal?
    ensures ButtonStates(app).processDisabled <==> ProcessImage(app, None, c, webpSupported).notice == Some(UploadFirst)
  {
  }

  // ---------------------------------------------------------------------
  // Downloads
  // ---------------------------------------------------------------------

  /** The extension `downloadImage` derives from a blob's MIME type: `png`, `webp`, and `jpg` for any other type. */
  function DownloadExtension(mime: string): (ext: string)
    ensures ext == "png" <==> mime == "image/png"
    ensures ext == "webp" <==> mime == "image/webp"
    ensures ext in {"png", "webp", "jpg"}
  {
    if mime == "image/png" then "png" else if mime == "image/webp" then "webp" else "jpg"
  }

  /**
   * What a single download does: it is refused with an alert, a file is
   * offered under a name, or making the object URL throws and nothing is
   * offered.
   */
  datatype Download = Refused(alert: string) | Offered(name: string) | Throws

  /**
   * `downloadImage`: refused without a processed blob. An encoded blob is
   * offered under a name whose extension follows its type. A restored
   * work's data-URL string is not a `Blob`, so `URL.createObjectURL`
   * throws and nothing is downloaded.
   */
  function DownloadImage(app: App): (r: Download)
    ensures r.Refused? <==> app.processedBlob.None?
    ensures r.Refused? ==> r.alert == ProcessFirst
    ensures r.Throws? <==> app.processedBlob.Some? && app.processedBlob.value.LoadedDataUrl?
    ensures r.Offered? ==> r.name == "processed_image." + DownloadExtension(app.processedBlob.value.out.mime)
  {
    match app.processedBlob
    case None => Refused(ProcessFirst)
    case Some(EncodedBlob(out)) => Offered("processed_image." + DownloadExtension(out.mime))
    case Some(LoadedDataUrl(_)) => Throws
  }

  /**
   * After processing, the download's extension follows what the browser
   * encoded: `png` for PNG and for WebP in a browser that cannot encode
   * WebP, `webp` for WebP in one that can, and `jpg` for every other format.
   */
  lemma DownloadFollowsFormat(app: App, decoded: Size, c: Controls, webpSupported: bool)
    requires decoded.width > 0.0 && decoded.height > 0.0
    requires app.uploader.originalFile.Some?
    ensures var after := ProcessImage(app, Some(decoded), c, webpSupported).app;
            after.processedBlob.Some? ==>
              DownloadImage(after) ==
              Offered("processed_image." +
                      (if c.format == "png" || (c.format == "webp" && !webpSupported) then "png"
                       else if c.format == "webp" then "webp" else "jpg"))
  {
  }

  /** The file name a multi-size download starts from: the uploaded file's name, or `image`. */
  function DownloadBaseName(file: Option<Uploader.File>): (r: string)
    ensures file.Some? && file.value.name != "" ==> r == file.value.name
    ensures !(file.Some? && file.value.name != "") ==> r == "image"
  {
    if file.Some? && file.value.name != "" then file.value.name else "image"
  }

  /**
   * The guards of `downloadMultipleSizes`: no source image, then no
   * selected factor, each stop the download with their alert. `sizes`
   * stands for the selected factors.
   */
  function MultiSizeSource(app: App, sizes: seq<int>): (r: Result<Source>)
    ensures SourceOf(app).None? ==> r == Err(UploadFirst)
    ensures SourceOf(app).Some? && |sizes| == 0 ==> r == Err(SelectSize)
    ensures r.Ok? <==> SourceOf(app).Some? && |sizes| > 0
    ensures r.Ok? ==> r.value == SourceOf(app).value
  {
    match SourceOf(app)
    case None => Err(UploadFirst)
    case Some(s) => if |sizes| == 0 then Err(SelectSize) else Ok(s)
  }

  /** A file offered for download: the batch entry and its generated name. */
  datatype Link<B> = Link(entry: SizeEntry<Option<B>>, name: string)

  /** The number of rendered entries in a batch result. */
  function RenderedCount<B>(results: seq<SizeEntry<B>>): (n: nat)
    ensures n <= |results|
    ensures n == |results| <==> forall i :: 0 <= i < |results| ==> results[i].Rendered?
    ensures n == 0 <==> forall i :: 0 <= i < |results| ==> results[i].Failed?
  {
    if |results| == 0 then 0
    else
      var rest := RenderedCount(results[1..]);
      assert forall i :: 1 <= i < |results| ==> results[i] == results[1..][i - 1];
      (if results[0].Rendered? then 1 else 0) + rest
  }

  /** A rendered entry whose blob is `null`: the object URL made for it throws. */
  predicate NullBlobEntry<B>(e: SizeEntry<Option<B>>) {
    e.Rendered? && e.blob.None?
  }

  /**
   * How far the download loop gets: the position of the first entry with a
   * `null` blob, where it throws, or the whole batch when there is none.
   */
  function Reached<B>(results: seq<SizeEntry<Option<B>>>): (n: nat)
    ensures n <= |results|
    ensures forall i :: 0 <= i < n ==> !NullBlobEntry(results[i])
    ensures n < |results| ==> NullBlobEntry(results[n])
  {
    if |results| == 0 || NullBlobEntry(results[0]) then 0
    else 1 + Reached(results[1..])
  }

  /**
   * The download loop: entries that carry an error are skipped and each
   * rendered entry is offered under the base name with its factor, until
   * an entry with a `null` blob throws and ends the loop.
   */
  function DownloadLinks<B>(results: seq<SizeEntry<Option<B>>>, baseName: string): (r: seq<Link<B>>)
    ensures |r| == RenderedCount(results[..Reached(results)])
    ensures forall k :: 0 <= k < |r| ==>
              && r[k].entry in results[..Reached(results)]
              && r[k].entry.Rendered? && r[k].entry.blob.Some?
              && r[k].name == FileNames.GenerateFileName(baseName, r[k].entry.size)
  {
    if |results| == 0 || NullBlobEntry(results[0]) then []
    else
      var rest := DownloadLinks(results[1..], baseName);
      assert results[..Reached(results)] == [results[0]] + results[1..][..Reached(results[1..])];
      if results[0].Failed? then rest
      else [Link(results[0], FileNames.GenerateFileName(baseName, results[0].size))] + rest
  }

  /** The files a multi-size download offers and the notice it ends with. */
  datatype Batch<B> = Batch(links: seq<Link<B>>, notice: string)

  /** The notice of a completed batch: the number of entries, failed ones included. */
  function DownloadedCount(n: nat): string {
    Success(IntToString(n) + "개 파일이 다운로드되었습니다.")
  }

  /**
   * `downloadMultipleSizes` after its guards: the links the loop offered,
   * then the count of entries when the loop completes, or the download
   * error when an entry with a `null` blob stopped it.
   */
  function DownloadBatch<B>(results: seq<SizeEntry<Option<B>>>, baseName: string): (r: Batch<B>)
    ensures r.links == DownloadLinks(results, baseName)
    ensures r.notice == DownloadFailed <==> exists i :: 0 <= i < |results| && NullBlobEntry(results[i])
    ensures r.notice != DownloadFailed ==> r.notice == DownloadedCount(|results|)
  {
    var links := DownloadLinks(results, baseName);
    if Reached(results) < |results| then Batch(links, DownloadFailed)
    else
      assert DownloadedCount(|results|)[0] == '크' != DownloadFailed[0];
      Batch(links, DownloadedCount(|results|))
  }

  /**
   * Every rendered entry before the first `null` blob is offered under its
   * generated name, and when no blob is `null` every rendered entry is.
   */
  lemma {:induction false} EveryRenderedEntryIsOffered<B>(results: seq<SizeEntry<Option<B>>>, baseName: string)
    ensures forall i :: 0 <= i < Reached(results) && results[i].Rendered? ==>
              Link(results[i], FileNames.GenerateFileName(baseName, results[i].size)) in DownloadLinks(results, baseName)
    ensures (forall i :: 0 <= i < |results| ==> !NullBlobEntry(results[i])) ==>
              forall i :: 0 <= i < |results| && results[i].Rendered? ==>
                Link(results[i], FileNames.GenerateFileName(baseName, results[i].size)) in DownloadLinks(results, baseName)
  {
    if |results| > 0 && !NullBlobEntry(results[0]) {
      EveryRenderedEntryIsOffered(results[1..], baseName);
      forall i | 1 <= i < Reached(results) && results[i].Rendered?
        ensures Link(results[i], FileNames.GenerateFileName(baseName, results[i].size)) in DownloadLinks(results, baseName)
      {
        assert results[i] == results[1..][i - 1];
      }
    }
  }

  /** Nothing at or after an entry with a `null` blob is offered. */
  lemma NothingOfferedAfterNullBlob<B>(results: seq<SizeEntry<Option<B>>>, baseName: string, j: nat)
    requires j < |results| && NullBlobEntry(results[j])
    ensures Reached(results) <= j
    ensures forall k :: 0 <= k < |DownloadLinks(results, baseName)| ==>
              DownloadLinks(results, baseName)[k].entry in results[..j]
  {
  }

  /**
   * Three factors whose middle one rendered a `null` blob: only the first
   * is offered, and the batch ends in the download error.
   */
  lemma NullBlobStopsBatch<B>(blob: B, name: string)
    ensures var results := [Rendered(1, Some(blob), None, None), Rendered(2, None, None, None),
                            Rendered(3, Some(blob), None, None)];
            DownloadBatch(results, name)
            == Batch([Link(Rendered(1, Some(blob), None, None), FileNames.GenerateFileName(name, 1))], DownloadFailed)
  {
  }

  /**
   * For an uploaded `stem.ext` (both free of dots), every factor other
   * than 1 that rendered before any `null` blob is offered as
   * `stem@<n>x.ext`, and every offered file carries a blob.
   */
  lemma BatchDownloadNames<B>(stem: string, ext: string, factors: seq<int>, results: seq<SizeEntry<Option<B>>>)
    requires '.' !in stem && '.' !in ext
    requires |results| == |factors|
    requires forall i :: 0 <= i < |factors| ==> results[i].size == factors[i] && factors[i] != 1
    ensures forall i :: 0 <= i < Reached(results) && results[i].Rendered? ==>
              Link(results[i], stem + "@" + IntToString(factors[i]) + "x." + ext) in DownloadLinks(results, stem + "." + ext)
    ensures forall k :: 0 <= k < |DownloadLinks(results, stem + "." + ext)| ==>
              DownloadLinks(results, stem + "." + ext)[k].entry.Rendered? &&
              DownloadLinks(results, stem + "." + ext)[k].entry.blob.Some?
  {
    EveryRenderedEntryIsOffered(results, stem + "." + ext);
    forall i | 0 <= i < |factors| && results[i].Rendered?
      ensures FileNames.GenerateFileName(stem + "." + ext, results[i].size) == stem + "@" + IntToString(factors[i]) + "x." + ext
    {
      FileNames.GenerateFileNameOfJoin(stem, ext, factors[i]);
    }
  }

  // ---------------------------------------------------------------------
  // Works
  // ---------------------------------------------------------------------

  /**
   * The clock readings a new work is built with, and what `createThumbnail`
   * resolves to for a source (`None` when that image never loads).
   */
  datatype Stamp = Stamp(id: string, localTime: string, isoTime: string, thumbnailOf: string -> Option<string>)

  /**
   * The original image a work is built from: the source through
   * `convertImageToBase64` (`read` stands for reading a blob URL back).
   */
  function OriginalFor(originalSrc: string, read: string -> Option<string>): (r: Option<string>)
    ensures !StartsWith(originalSrc, "blob:") ==> r == Some(originalSrc)
    ensures StartsWith(originalSrc, "blob:") ==> r == read(originalSrc)
  {
    WorkManager.ConvertImageToBase64(originalSrc, read(originalSrc))
  }

  /**
   * Whether building a work settles: the original can be read and its
   * thumbnail loads.
   */
  predicate WorkSettles(originalSrc: string, stamp: Stamp, read: string -> Option<string>) {
    var original := OriginalFor(originalSrc, read);
    original.Some? && stamp.thumbnailOf(original.value).Some?
  }

  /**
   * The work built from the page: both image sources go through
   * `convertImageToBase64`; the processed source is `null` when the app
   * holds no processed blob, and an empty source counts as missing; the
   * settings are the ones currently on the form. `None` is a
   * `createWorkData` that never settles: the original could not be read,
   * or its thumbnail never loads.
   */
  function WorkFor(app: App, originalSrc: string, processedSrc: string, form: Settings.Form,
                   workName: Option<string>, stamp: Stamp, read: string -> Option<string>): (w: Option<WorkManager.Work>)
    ensures w.Some? <==> WorkSettles(originalSrc, stamp, read)
    ensures w.Some? ==> w.value.originalImage == OriginalFor(originalSrc, read).value
    ensures w.Some? ==> w.value.thumbnail == stamp.thumbnailOf(OriginalFor(originalSrc, read).value).value
    ensures w.Some? && (app.processedBlob.None? || processedSrc == "") ==> w.value.processedImage.None?
    ensures w.Some? ==> w.value.settings == Settings.GetCurrentSettings(form)
    ensures w.Some? ==> w.value.id == stamp.id
    ensures w.Some? && workName.Some? && workName.value != "" ==> w.value.name == workName.value
  {
    var original := OriginalFor(originalSrc, read);
    var processed := if app.processedBlob.Some? && processedSrc != ""
                     then WorkManager.ConvertImageToBase64(processedSrc, read(processedSrc)) else None;
    WorkManager.CreateWorkData(original, processed, Settings.GetCurrentSettings(form), workName,
                               stamp.id, stamp.localTime, stamp.isoTime, stamp.thumbnailOf)
  }

  /**
   * `saveWork`: a name that is empty after trimming shows the warning and
   * stores nothing. Otherwise the work is saved under the trimmed name and
   * the notice tells whether the write succeeded; when building the work
   * never settles, nothing is stored and nothing is shown.
   */
  function SaveWork(app: App, nameInput: string, originalSrc: string, processedSrc: string, form: Settings.Form,
                    stamp: Stamp, read: string -> Option<string>, writeOk: bool): (r: Step)
    ensures Trim(nameInput) == "" ==> r == Step(app, Some(EnterName))
    ensures Trim(nameInput) != "" && !WorkSettles(originalSrc, stamp, read) ==> r == Step(app, None)
    ensures Trim(nameInput) != "" && WorkSettles(originalSrc, stamp, read) ==>
              var w := WorkFor(app, originalSrc, processedSrc, form, Some(Trim(nameInput)), stamp, read).value;
              var saved := WorkManager.SaveWork(app.storage, w, writeOk);
              r == Step(app.(storage := saved.0), Some(if saved.1 then Saved else SaveFailed))
  {
    var name := Trim(nameInput);
    if name == "" then Step(app, Some(EnterName))
    else match WorkFor(app, originalSrc, processedSrc, form, Some(name), stamp, read)
      case None => Step(app, None)
      case Some(w) =>
        var saved := WorkManager.SaveWork(app.storage, w, writeOk);
        Step(app.(storage := saved.0), Some(if saved.1 then Saved else SaveFailed))
  }

  /** A name of blanks saves nothing. */
  lemma BlankNameSavesNothing(app: App, originalSrc: string, processedSrc: string, form: Settings.Form,
                              stamp: Stamp, read: string -> Option<string>, writeOk: bool)
    ensures SaveWork(app, "  \t", originalSrc, processedSrc, form, stamp, read, writeOk).app == app
    ensures SaveWork(app, "\U{A0}\U{3000}\n", originalSrc, processedSrc, form, stamp, read, writeOk).app == app
  {
    assert Trim("  \t") == "";
    assert Trim("\U{A0}\U{3000}\n") == "";
  }

  /**
   * A work saved under a fresh id can be loaded back, under the trimmed
   * name and with the form's current settings, when building it settles;
   * when it does not, the storage is untouched.
   */
  lemma SaveThenLoad(app: App, nameInput: string, originalSrc: string, processedSrc: string, form: Settings.Form,
                     stamp: Stamp, read: string -> Option<string>)
    requires Trim(nameInput) != ""
    requires forall k :: 0 <= k < |WorkManager.GetWorkList(app.storage)| ==> WorkManager.GetWorkList(app.storage)[k].id != stamp.id
    ensures var after := SaveWork(app, nameInput, originalSrc, processedSrc, form, stamp, read, true).app;
            var loaded := WorkManager.LoadWork(after.storage, stamp.id);
            WorkSettles(originalSrc, stamp, read) ==>
              loaded.Some? && loaded.value.name == Trim(nameInput) && loaded.value.settings == Settings.GetCurrentSettings(form)
    ensures !WorkSettles(originalSrc, stamp, read) ==>
              SaveWork(app, nameInput, originalSrc, processedSrc, form, stamp, read, true).app.storage == app.storage
  {
    var w := WorkFor(app, originalSrc, processedSrc, form, Some(Trim(nameInput)), stamp, read);
    if w.Some? {
      WorkManager.LoadAfterSave(app.storage, w.value);
    }
  }

  const AutoSaveOn: string := "자동저장 ON"

  /** `toggleAutoSave`: flips the switch; the button reads `자동저장 ON` or `자동저장`. */
  function ToggleAutoSave(app: App): (r: (App, string))
    ensures r.0 == app.(autoSaveEnabled := !app.autoSaveEnabled)
    ensures r.1 == (if r.0.autoSaveEnabled then AutoSaveOn else WorkManager.AutoSaveName)
  {
    var next := app.(autoSaveEnabled := !app.autoSaveEnabled);
    (next, if next.autoSaveEnabled then AutoSaveOn else WorkManager.AutoSaveName)
  }

  lemma ToggleAutoSaveTwice(app: App)
    ensures ToggleAutoSave(ToggleAutoSave(app).0).0 == app
  {
  }

  /**
   * `autoSaveWork`: nothing happens while the switch is off or without an
   * uploaded file; otherwise the page is autosaved, unless building the
   * work never settles.
   */
  function AutoSaveWork(app: App, originalSrc: string, processedSrc: string, form: Settings.Form,
                        stamp: Stamp, read: string -> Option<string>, writeOk: bool): (r: App)
    ensures !app.autoSaveEnabled || app.uploader.originalFile.None? ==> r == app
    ensures !WorkSettles(originalSrc, stamp, read) ==> r == app
    ensures r == app.(storage := r.storage)
  {
    if !app.autoSaveEnabled || app.uploader.originalFile.None? then app
    else match WorkFor(app, originalSrc, processedSrc, form, Some(WorkManager.AutoSaveName), stamp, read)
      case None => app
      case Some(w) => app.(storage := WorkManager.AutoSave(app.storage, w, writeOk).0)
  }

  /**
   * When the autosave runs and building the work settles, loading the
   * autosave afterwards gives a work named `자동저장` with the form's
   * settings and the original image, and without a processed image when
   * the app held no processed blob.
   */
  lemma AutoSaveThenLoad(app: App, originalSrc: string, processedSrc: string, form: Settings.Form,
                         stamp: Stamp, read: string -> Option<string>)
    requires app.autoSaveEnabled && app.uploader.originalFile.Some?
    ensures var loaded := WorkManager.LoadAutoSave(AutoSaveWork(app, originalSrc, processedSrc, form, stamp, read, true).storage);
            WorkSettles(originalSrc, stamp, read) ==>
              && loaded.Some?
              && loaded.value.name == WorkManager.AutoSaveName
              && loaded.value.settings == Settings.GetCurrentSettings(form)
              && loaded.value.originalImage == OriginalFor(originalSrc, read).value
              && (app.processedBlob.None? ==> loaded.value.processedImage.None?)
  {
    var w := WorkFor(app, originalSrc, processedSrc, form, Some(WorkManager.AutoSaveName), stamp, read);
    if w.Some? {
      WorkManager.LoadAfterAutoSave(app.storage, w.value);
    }
  }

  /**
   * `loadWork`: the original image must load (`originalLoads`) and its data
   * URL must be restorable as a file, or the error notice is shown and the
   * app keeps its state. The file is replaced before the processed image
   * is loaded, so a processed image that fails to load (`processedLoads`)
   * shows the error notice with the new file in place and the old
   * processed blob. Otherwise the processed blob becomes the work's
   * processed data URL, or nothing when the work has none.
   */
  function RestoreWork(app: App, w: WorkManager.Work, originalLoads: bool, processedLoads: bool): (r: Step)
    ensures !originalLoads || Uploader.SetOriginalFile(app.uploader, w.originalImage).Err? ==> r == Step(app, Some(RestoreFailed))
    ensures originalLoads && Uploader.SetOriginalFile(app.uploader, w.originalImage).Ok? ==>
              && r.app.uploader == Uploader.SetOriginalFile(app.uploader, w.originalImage).value
              && r.app.storage == app.storage && r.app.crop == app.crop
              && (w.processedImage.Some? && w.processedImage.value != "" && !processedLoads ==>
                    r.notice == Some(RestoreFailed) && r.app.processedBlob == app.processedBlob)
              && (w.processedImage.Some? && w.processedImage.value != "" && processedLoads ==>
                    r.notice == Some(Restored) && r.app.processedBlob == Some(LoadedDataUrl(w.processedImage.value)))
              && (w.processedImage.None? || w.processedImage.value == "" ==>
                    r.notice == Some(Restored) && r.app.processedBlob.None?)
  {
    if !originalLoads then Step(app, Some(RestoreFailed))
    else match Uploader.SetOriginalFile(app.uploader, w.originalImage)
      case Err(_) => Step(app, Some(RestoreFailed))
      case Ok(u) =>
        if w.processedImage.Some? && w.processedImage.value != "" then
          if processedLoads then Step(app.(uploader := u, processedBlob := Some(LoadedDataUrl(w.processedImage.value))), Some(Restored))
          else Step(app.(uploader := u), Some(RestoreFailed))
        else Step(app.(uploader := u, processedBlob := None), Some(Restored))
  }

  /**
   * A restored work with a processed image can be neither downloaded nor
   * cropped: the download throws, and the crop ends in the error notice
   * with nothing changed.
   */
  lemma RestoredWorkCannotBeDownloadedOrCropped(app: App, w: WorkManager.Work, displayed: Size, natural: Size,
                                                c: Controls, webpSupported: bool, originalSize: string, newSize: string)
    requires w.processedImage.Some? && w.processedImage.value != ""
    requires Uploader.SetOriginalFile(app.uploader, w.originalImage).Ok?
    requires Uploader.SetOriginalFile(app.uploader, w.originalImage).value.originalFile.Some?
    requires displayed.width != 0.0 && displayed.height != 0.0
    ensures var restored := RestoreWork(app, w, true, true).app;
            && DownloadImage(restored) == Throws
            && ApplyCrop(restored, displayed, natural, c, webpSupported, true, originalSize, newSize) == Step(restored, Some(CropFailed))
  {
  }
}

=== FILE: base64.dfy ===
/**
 * Base64 as the app meets it. Data URLs carry their payload in the base64
 * encoding of section 4 of RFC 4648 (alphabet `A-Z a-z 0-9 + /`, `=`
 * padding to a multiple of four characters); `atob` reads it back with the
 * "forgiving-base64 decode" of the WHATWG Infra standard, which ignores
 * ASCII whitespace, accepts missing padding and fails on anything else.
 *
 * Bytes are integers in 0..255, and `atob`'s binary string is the sequence
 * of its character codes.
 */
module Base64 {
  import opened Common

  type Byte = x: int | 0 <= x < 256
  type Sextet = x: int | 0 <= x < 64

  // ---------------------------------------------------------------------
  // Alphabet (RFC 4648, section 4, table 1)
  // ---------------------------------------------------------------------

  predicate IsBase64Char(c: char) {
    ('A' <= c <= 'Z') || ('a' <= c <= 'z') || ('0' <= c <= '9') || c == '+' || c == '/'
  }

  function CharOf(v: Sextet): (c: char)
    ensures IsBase64Char(c)
  {
    if v < 26 then ('A' as int + v) as char
    else if v < 52 then ('a' as int + (v - 26)) as char
    else if v < 62 then ('0' as int + (v - 52)) as char
    else if v == 62 then '+'
    else '/'
  }

  function ValueOf(c: char): (v: Sextet)
    requires IsBase64Char(c)
    ensures CharOf(v) == c
  {
    if 'A' <= c <= 'Z' then c as int - 'A' as int
    else if 'a' <= c <= 'z' then c as int - 'a' as int + 26
    else if '0' <= c <= '9' then c as int - '0' as int + 52
    else if c == '+' then 62
    else 63
  }

  /** The alphabet is a bijection between 0..63 and its 64 characters. */
  lemma ValueOfCharOf(v: Sextet)
    ensures ValueOf(CharOf(v)) == v
  {
  }

  // ---------------------------------------------------------------------
  // Encoding (RFC 4648, section 4)
  // ---------------------------------------------------------------------

  /** One full group of three bytes as four 6-bit values, most significant bits first. */
  function SplitGroup(x: Byte, y: Byte, z: Byte): (r: seq<Sextet>)
    ensures |r| == 4
  {
    [x / 4, (x % 4) * 16 + y / 16, (y % 16) * 4 + z / 64, z % 64]
  }

  /**
   * The 6-bit values of the input: four per full group of three bytes; a
   * final one or two bytes are padded with zero bits to two or three values.
   */
  function EncodeSextets(b: seq<Byte>): (r: seq<Sextet>)
    ensures |b| % 3 == 0 ==> |r| == 4 * (|b| / 3)
    ensures |b| % 3 == 1 ==> |r| == 4 * (|b| / 3) + 2
    ensures |b| % 3 == 2 ==> |r| == 4 * (|b| / 3) + 3
  {
    if |b| == 0 then []
    else if |b| == 1 then [b[0] / 4, (b[0] % 4) * 16]
    else if |b| == 2 then [b[0] / 4, (b[0] % 4) * 16 + b[1] / 16, (b[1] % 16) * 4]
    else SplitGroup(b[0], b[1], b[2]) + EncodeSextets(b[3..])
  }

  function Chars(v: seq<Sextet>): (r: string)
    ensures |r| == |v| && forall i :: 0 <= i < |r| ==> r[i] == CharOf(v[i]) && IsBase64Char(r[i])
  {
    seq(|v|, i requires 0 <= i < |v| => CharOf(v[i]))
  }

  /** The characters of the input bytes, without padding. */
  function EncodeBody(b: seq<Byte>): (r: string)
    ensures forall i :: 0 <= i < |r| ==> IsBase64Char(r[i])
    ensures |r| == |EncodeSextets(b)|
  {
    Chars(EncodeSextets(b))
  }

  /** Padding after a final group of one byte (`==`) or two bytes (`=`). */
  function Padding(n: nat): (r: string)
    ensures n % 3 == 0 ==> r == ""
    ensures n % 3 == 1 ==> r == "=="
    ensures n % 3 == 2 ==> r == "="
  {
    if n % 3 == 1 then "==" else if n % 3 == 2 then "=" else ""
  }

  /** Base64 with padding: always a multiple of four characters. */
  function Encode(b: seq<Byte>): (r: string)
    ensures |r| % 4 == 0 && |r| == 4 * ((|b| + 2) / 3)
  {
    EncodeBody(b) + Padding(|b|)
  }

  // ---------------------------------------------------------------------
  // Forgiving decoding (WHATWG Infra, "forgiving-base64 decode")
  // ---------------------------------------------------------------------

  /** ASCII whitespace: tab, line feed, form feed, carriage return and space. */
  predicate IsAsciiWhitespace(c: char) {
    c == '\t' || c == '\n' || c == '\U{000C}' || c == '\r' || c == ' '
  }

  function StripWhitespace(s: string): (r: string)
    ensures |r| <= |s|
    ensures forall i :: 0 <= i < |r| ==> !IsAsciiWhitespace(r[i])
    ensures (forall i :: 0 <= i < |s| ==> !IsAsciiWhitespace(s[i])) ==> r == s
  {
    if |s| == 0 then ""
    else if IsAsciiWhitespace(s[0]) then StripWhitespace(s[1..])
    else [s[0]] + StripWhitespace(s[1..])
  }

  /** A length that is a multiple of four loses one or two trailing `=`. */
  function StripPadding(d: string): (r: string)
    ensures |d| % 4 != 0 ==> r == d
    ensures |d| % 4 == 0 && |d| >= 2 && d[|d| - 1] == '=' && d[|d| - 2] == '=' ==> r == d[..|d| - 2]
    ensures |d| % 4 == 0 && |d| >= 1 && d[|d| - 1] == '=' && !(|d| >= 2 && d[|d| - 2] == '=') ==> r == d[..|d| - 1]
    ensures |d| % 4 == 0 && !(|d| >= 1 && d[|d| - 1] == '=') ==> r == d
  {
    if |d| % 4 != 0 then d
    else if |d| >= 2 && d[|d| - 1] == '=' && d[|d| - 2] == '=' then d[..|d| - 2]
    else if |d| >= 1 && d[|d| - 1] == '=' then d[..|d| - 1]
    else d
  }

  /** Four 6-bit values back to three bytes. */
  function JoinGroup(a: Sextet, b: Sextet, c: Sextet, e: Sextet): (r: seq<Byte>)
    ensures |r| == 3
  {
    [a * 4 + b / 16, (b % 16) * 16 + c / 4, (c % 4) * 64 + e]
  }

  /**
   * Every four values give three bytes; a final two or three values give
   * one or two bytes, their leftover low bits dropped.
   */
  function DecodeSextets(v: seq<Sextet>): (r: seq<Byte>)
    requires |v| % 4 != 1
    ensures |r| == (3 * |v|) / 4
  {
    if |v| == 0 then []
    else if |v| == 2 then
      var x: Byte := v[0] as int * 4 + v[1] as int / 16;
      [x]
    else if |v| == 3 then
      var x: Byte, y: Byte := v[0] as int * 4 + v[1] as int / 16, (v[1] as int % 16) * 16 + v[2] as int / 4;
      [x, y]
    else JoinGroup(v[0], v[1], v[2], v[3]) + DecodeSextets(v[4..])
  }

  function Values(d: string): (r: seq<Sextet>)
    requires AllBase64(d)
    ensures |r| == |d| && forall i :: 0 <= i < |d| ==> r[i] == ValueOf(d[i])
  {
    seq(|d|, i requires 0 <= i < |d| => ValueOf(d[i]))
  }

  /** Groups of four characters give three bytes; a final two or three characters give one or two. */
  function DecodeChars(d: string): (r: seq<Byte>)
    requires AllBase64(d)
    requires |d| % 4 != 1
    ensures |r| == (3 * |d|) / 4
  {
    DecodeSextets(Values(d))
  }

  /** What is left for decoding once whitespace and padding are gone. */
  function Cleaned(s: string): string {
    StripPadding(StripWhitespace(s))
  }

  predicate AllBase64(d: string) {
    forall i :: 0 <= i < |d| ==> IsBase64Char(d[i])
  }

  /**
   * `atob`: fails when the cleaned text leaves one character over a
   * multiple of four or holds a character outside the alphabet (a `=`
   * anywhere but the final padding included); otherwise it yields three
   * bytes for every four characters, rounded down.
   */
  function ForgivingDecode(s: string): (r: Option<seq<Byte>>)
    ensures r.None? <==> |Cleaned(s)| % 4 == 1 || !AllBase64(Cleaned(s))
    ensures r.Some? ==> |r.value| == (3 * |Cleaned(s)|) / 4
  {
    var d := Cleaned(s);
    if |d| % 4 == 1 || !AllBase64(d) then None
    else Some(DecodeChars(d))
  }

  // ---------------------------------------------------------------------
  // Round trip
  // ---------------------------------------------------------------------

  /** One full group: joining the four values of three bytes gives the bytes back. */
  lemma GroupRoundTrip(x: Byte, y: Byte, z: Byte)
    ensures var g := SplitGroup(x, y, z); JoinGroup(g[0], g[1], g[2], g[3]) == [x, y, z]
  {
  }

  /** Decoding the 6-bit values of an encoding gives the bytes back. */
  lemma {:induction false} DecodeEncodeSextets(b: seq<Byte>)
    ensures |EncodeSextets(b)| % 4 != 1
    ensures DecodeSextets(EncodeSextets(b)) == b
    decreases |b|
  {
    if |b| >= 3 {
      var g := SplitGroup(b[0], b[1], b[2]);
      var rest := EncodeSextets(b[3..]);
      DecodeEncodeSextets(b[3..]);
      GroupRoundTrip(b[0], b[1], b[2]);
      DecodeGroupThenRest(g, rest);
      assert b == [b[0], b[1], b[2]] + b[3..];
    }
  }

  /** A leading group of four values decodes on its own, ahead of the rest. */
  lemma DecodeGroupThenRest(g: seq<Sextet>, rest: seq<Sextet>)
    requires |g| == 4 && |rest| % 4 != 1
    ensures |g + rest| % 4 != 1
    ensures DecodeSextets(g + rest) == JoinGroup(g[0], g[1], g[2], g[3]) + DecodeSextets(rest)
  {
    assert (g + rest)[4..] == rest;
  }

  /** Reading the characters of a sequence of values gives the values back. */
  lemma ValuesOfChars(v: seq<Sextet>)
    ensures AllBase64(Chars(v)) && Values(Chars(v)) == v
  {
    forall i | 0 <= i < |v| ensures Values(Chars(v))[i] == v[i] {
      ValueOfCharOf(v[i]);
    }
  }

  /** Decoding the unpadded characters gives the bytes back. */
  lemma DecodeEncodeBody(b: seq<Byte>)
    ensures |EncodeBody(b)| % 4 != 1
    ensures DecodeChars(EncodeBody(b)) == b
  {
    ValuesOfChars(EncodeSextets(b));
    DecodeEncodeSextets(b);
  }

  /** Removing the padding of an encoding leaves exactly its characters. */
  lemma StripPaddingOfEncode(b: seq<Byte>)
    ensures StripPadding(Encode(b)) == EncodeBody(b)
  {
    var body := EncodeBody(b);
    var e := Encode(b);
    if |b| % 3 == 0 {
      assert e == body;
      if |body| > 0 { assert IsBase64Char(body[|body| - 1]); }
    } else if |b| % 3 == 1 {
      assert e == body + "==";
      assert e[..|e| - 2] == body;
    } else {
      assert e == body + "=";
      assert IsBase64Char(body[|body| - 1]);
      assert e[|e| - 2] == body[|body| - 1];
      assert e[..|e| - 1] == body;
    }
  }

  /** `atob` of a base64 encoding gives back the encoded bytes. */
  lemma DecodeEncode(b: seq<Byte>)
    ensures ForgivingDecode(Encode(b)) == Some(b)
  {
    var e := Encode(b);
    assert forall i :: 0 <= i < |e| ==> !IsAsciiWhitespace(e[i]) by {
      forall i | 0 <= i < |e| ensures !IsAsciiWhitespace(e[i]) {
        if i < |EncodeBody(b)| {
          assert e[i] == EncodeBody(b)[i];
        } else {
          assert e[i] == '=';
        }
      }
    }
    assert StripWhitespace(e) == e;
    StripPaddingOfEncode(b);
    DecodeEncodeBody(b);
  }

  /** Whitespace anywhere in the text is ignored. */
  lemma DecodeIgnoresWhitespace(s: string)
    ensures ForgivingDecode(StripWhitespace(s)) == ForgivingDecode(s)
  {
    assert StripWhitespace(StripWhitespace(s)) == StripWhitespace(s);
  }

  /** The text `undefined` (nine letters) is rejected: it leaves one character over. */
  lemma UndefinedIsRejected()
    ensures ForgivingDecode("undefined").None?
  {
    OneOverIsRejected("undefined");
  }

  /** A text without whitespace whose length leaves one character over a multiple of four is rejected. */
  lemma OneOverIsRejected(s: string)
    requires forall i :: 0 <= i < |s| ==> !IsAsciiWhitespace(s[i])
    requires |s| % 4 == 1
    ensures ForgivingDecode(s).None?
  {
    assert StripWhitespace(s) == s;
    assert Cleaned(s) == s;
  }

  /** `Man` encodes as `TWFu`, and `Ma` as `TWE=`. */
  lemma EncodeExamples()
    ensures Encode([77, 97, 110]) == "TWFu"
    ensures Encode([77, 97]) == "TWE="
  {
    assert EncodeSextets([77, 97, 110]) == [19, 22, 5, 46] by {
      assert [77, 97, 110][3..] == [];
    }
    assert EncodeSextets([77, 97]) == [19, 22, 4];
    assert CharOf(19) == 'T' && CharOf(22) == 'W' && CharOf(5) == 'F' && CharOf(46) == 'u' && CharOf(4) == 'E';
  }

  /** `TWFu` decodes to `Man`; padding may be omitted, so `TWE` and `TWE=` both decode to `Ma`. */
  lemma DecodeExamples()
    ensures ForgivingDecode("TWFu") == Some([77, 97, 110])
    ensures ForgivingDecode("TWE=") == Some([77, 97])
    ensures ForgivingDecode("TWE") == Some([77, 97])
  {
    EncodeExamples();
    DecodeEncode([77, 97, 110]);
    DecodeEncode([77, 97]);
    assert StripWhitespace("TWE") == "TWE";
    assert StripWhitespace("TWE=") == "TWE=";
    assert Cleaned("TWE") == Cleaned("TWE=");
  }
}

=== FILE: common.dfy ===
/**
 * Shared vocabulary of the image tool model: optional values and results
 * standing in for JavaScript's `null` and thrown errors, the value a
 * `parseInt` call produces, and the arithmetic helpers (`Math.min`,
 * `Math.max`, `Math.round`, the canvas dimension conversion) that every
 * other module uses.
 */
module Common {

  /** `null` / `undefined` versus a present value. */
  datatype Option<+T> = None | Some(value: T) {
    function GetOr(default: T): T {
      match this
      case Some(v) => v
      case None => default
    }
  }

  /** A value, or the message of the `Error` the source throws or rejects with. */
  datatype Result<+T> = Ok(value: T) | Err(message: string)

  /** What `parseInt(text, 10)` returns: `NaN` or an integer. */
  datatype JsInt = NaN | Int(v: int) {
    /** JavaScript truthiness of the number: `NaN` and `0` are falsy. */
    predicate Truthy() {
      Int? && v != 0
    }

    /** `parseInt(...) || fallback` */
    function OrElse(fallback: int): (r: int)
      ensures Truthy() ==> r == v
      ensures !Truthy() ==> r == fallback
    {
      if Truthy() then v else fallback
    }
  }

  function MinR(a: real, b: real): (r: real)
    ensures r <= a && r <= b && (r == a || r == b)
  {
    if a <= b then a else b
  }

  function MaxR(a: real, b: real): (r: real)
    ensures r >= a && r >= b && (r == a || r == b)
  {
    if a >= b then a else b
  }

  function MinI(a: int, b: int): (r: int)
    ensures r <= a && r <= b && (r == a || r == b)
  {
    if a <= b then a else b
  }

  function MaxI(a: int, b: int): (r: int)
    ensures r >= a && r >= b && (r == a || r == b)
  {
    if a >= b then a else b
  }

  /**
   * The clamp the settings handlers write out as two statements:
   * `if (v < lo) v = lo; if (v > hi) v = hi;`.
   */
  function ClampI(v: int, lo: int, hi: int): (r: int)
    requires lo <= hi
    ensures lo <= r <= hi
    ensures lo <= v <= hi ==> r == v
    ensures v < lo ==> r == lo
    ensures v > hi ==> r == hi
  {
    if v < lo then lo else if v > hi then hi else v
  }

  /** `Math.round(x)`, which JavaScript defines as the floor of `x + 0.5`. */
  function Round(x: real): (r: int)
    ensures x - 0.5 < r as real <= x + 0.5
  {
    (x + 0.5).Floor
  }

  /** Truncation toward zero, the first step of every WebIDL integer conversion. */
  function TruncR(x: real): (r: int)
    ensures x >= 0.0 ==> r == x.Floor
    ensures x < 0.0 ==> r == -((-x).Floor)
    ensures (if r < 0 then -r else r) as real <= (if x < 0.0 then -x else x)
  {
    if x >= 0.0 then x.Floor else -((-x).Floor)
  }

  const Two32: int := 0x1_0000_0000

  /** The largest value a reflected non-negative integer attribute keeps (2^31 - 1). */
  const MaxReflected: int := 0x7FFF_FFFF

  /** The defaults of a canvas's `width` and `height` attributes. */
  const CanvasDefaultWidth: int := 300
  const CanvasDefaultHeight: int := 150

  /**
   * Assigning a number to `canvas.width` or `canvas.height`: the attribute is
   * a WebIDL `unsigned long`, so the value is truncated toward zero and
   * reduced modulo 2^32; a result above 2^31 - 1 is not stored and the
   * attribute takes its default instead (`dflt`: 300 for the width, 150 for
   * the height).
   */
  function CanvasDim(x: real, dflt: int): (r: int)
    requires 0 <= dflt <= MaxReflected
    ensures 0 <= r <= MaxReflected
    ensures 0.0 <= x < (MaxReflected + 1) as real ==> r == x.Floor
    ensures -1.0 < x < 0.0 ==> r == 0
    ensures -((MaxReflected + 1) as real) <= x <= -1.0 ==> r == dflt
    ensures (MaxReflected + 1) as real <= x < Two32 as real ==> r == dflt
  {
    var u := TruncR(x) % Two32;
    if u <= MaxReflected then u else dflt
  }
}

=== FILE: crop_public.dfy ===
/**
 * The CropManager of the public build, as an immutable state and pure
 * transitions. The crop box starts at the full measured image, and a resize
 * recomputes the box from the geometry recorded when the resize began, so
 * each pointer move depends only on that start geometry and the current
 * pointer.
 *
 * DOM inputs become parameters: the measured image size, whether the pointer
 * target carries the `crop-handle` class, the pointer coordinates. The
 * overlay element is represented by the last style written to it and its
 * `active` class.
 */
module PublicCropManager {
  import opened Common
  import opened Geometry
  import opened CropRules

  /** The `cropData` record of the public variant. */
  datatype CropData = CropData(
    box: Rect,
    isDragging: bool,
    isResizing: bool,
    resizeHandle: Option<Handle>,
    start: Rect,               // startX, startY, startWidth, startHeight
    dragStartX: real,
    dragStartY: real,
    mouseStartX: real,
    mouseStartY: real)

  /** The overlay element: the last left/top/width/height written, and its `active` class. */
  datatype Overlay = Overlay(style: Option<Rect>, active: bool)

  datatype CropManager = CropManager(data: CropData, isCropMode: bool, overlay: Overlay)

  /** The constructor's state. */
  function Create(): (m: CropManager)
    ensures m.data.box == Rect(0.0, 0.0, 100.0, 100.0)
    ensures !m.data.isDragging && !m.data.isResizing && m.data.resizeHandle.None?
    ensures !m.isCropMode
  {
    CropManager(
      CropData(Rect(0.0, 0.0, 100.0, 100.0), false, false, None, Rect(0.0, 0.0, 0.0, 0.0), 0.0, 0.0, 0.0, 0.0),
      false,
      Overlay(None, false))
  }

  /**
   * `updateCropOverlay`: the style is written only when the box has a
   * positive width and height; otherwise the overlay keeps its old style.
   */
  function UpdateOverlay(o: Overlay, box: Rect): (r: Overlay)
    ensures r.active == o.active
    ensures box.width > 0.0 && box.height > 0.0 ==> r.style == Some(box)
    ensures !(box.width > 0.0 && box.height > 0.0) ==> r == o
  {
    if box.width > 0.0 && box.height > 0.0 then o.(style := Some(box)) else o
  }

  /**
   * `getImageSize` inside `initCrop`: the layout size, falling back to the
   * bounding rectangle when either side is 0, then to the natural size.
   */
  function MeasureImage(offset: Size, bounding: Size, natural: Size): (r: Size)
    ensures offset.width != 0.0 && offset.height != 0.0 ==> r == offset
    ensures (offset.width == 0.0 || offset.height == 0.0) && bounding.width != 0.0 && bounding.height != 0.0 ==>
              r == bounding
    ensures r == offset || r == bounding || r == natural
  {
    if offset.width != 0.0 && offset.height != 0.0 then offset
    else if bounding.width != 0.0 && bounding.height != 0.0 then bounding
    else natural
  }

  /**
   * `initCrop`: when the measured image has a zero side the initialisation
   * is retried later (`None`); otherwise the box covers the whole image, the
   * overlay is written and made active, and nothing else changes.
   */
  function InitCrop(m: CropManager, offset: Size, bounding: Size, natural: Size): (r: Option<CropManager>)
    ensures var s := MeasureImage(offset, bounding, natural);
            r.None? <==> s.width == 0.0 || s.height == 0.0
    ensures r.Some? ==>
              var s := MeasureImage(offset, bounding, natural);
              && r.value.data == m.data.(box := Rect(0.0, 0.0, s.width, s.height))
              && r.value.isCropMode == m.isCropMode
              && r.value.overlay.active
    ensures r.Some? && MeasureImage(offset, bounding, natural).width > 0.0 && MeasureImage(offset, bounding, natural).height > 0.0 ==>
              Inside(r.value.data.box, MeasureImage(offset, bounding, natural).width, MeasureImage(offset, bounding, natural).height)
  {
    var s := MeasureImage(offset, bounding, natural);
    if s.width == 0.0 || s.height == 0.0 then None
    else
      var box := Rect(0.0, 0.0, s.width, s.height);
      Some(m.(data := m.data.(box := box), overlay := UpdateOverlay(m.overlay, box).(active := true)))
  }

  /**
   * `setCropFromInput` against the image's layout size: the clamped box
   * replaces the current one and is written to the overlay; interaction
   * state is untouched.
   */
  function SetCropFromInput(m: CropManager, x: real, y: real, width: real, height: real,
                            imageWidth: real, imageHeight: real): (r: CropManager)
    ensures r.data.box.width >= 1.0 && r.data.box.height >= 1.0
    ensures width >= 1.0 && height >= 1.0 && imageWidth >= 1.0 && imageHeight >= 1.0 ==>
              Inside(r.data.box, imageWidth, imageHeight)
    ensures r.data == m.data.(box := r.data.box) && r.isCropMode == m.isCropMode
    ensures r.overlay.style == Some(r.data.box)
  {
    var box := ClampToImage(x, y, width, height, imageWidth, imageHeight);
    m.(data := m.data.(box := box), overlay := UpdateOverlay(m.overlay, box))
  }

  /**
   * `startCropDrag`: ignored when the pointer is on a resize handle;
   * otherwise the drag flag is set and the anchor is the pointer's offset
   * from the box origin.
   */
  function StartCropDrag(m: CropManager, onHandle: bool, pointerX: real, pointerY: real): (r: CropManager)
    ensures onHandle ==> r == m
    ensures !onHandle ==> r.data.isDragging
    ensures !onHandle ==> r.data.dragStartX + m.data.box.x == pointerX && r.data.dragStartY + m.data.box.y == pointerY
    ensures !onHandle ==> r.data.box == m.data.box && r.data.isResizing == m.data.isResizing
    ensures !onHandle ==>
              && r.isCropMode == m.isCropMode && r.overlay == m.overlay
              && r.data == m.data.(isDragging := true, dragStartX := r.data.dragStartX, dragStartY := r.data.dragStartY)
  {
    if onHandle then m
    else m.(data := m.data.(isDragging := true, dragStartX := pointerX - m.data.box.x,
                             dragStartY := pointerY - m.data.box.y))
  }

  /**
   * `startCropResize`: records the handle, the box geometry and the pointer
   * position the resize starts from.
   */
  function StartCropResize(m: CropManager, h: Handle, pointerX: real, pointerY: real): (r: CropManager)
    ensures r.data.isResizing && r.data.resizeHandle == Some(h)
    ensures r.data.start == m.data.box
    ensures r.data.mouseStartX == pointerX && r.data.mouseStartY == pointerY
    ensures r.data.box == m.data.box && r.data.isDragging == m.data.isDragging
    ensures r.isCropMode == m.isCropMode && r.overlay == m.overlay
    ensures r.data == m.data.(isResizing := true, resizeHandle := Some(h), start := r.data.start,
                              mouseStartX := r.data.mouseStartX, mouseStartY := r.data.mouseStartY)
  {
    m.(data := m.data.(isResizing := true, resizeHandle := Some(h), start := m.data.box,
                       mouseStartX := pointerX, mouseStartY := pointerY))
  }

  /** The crop data after one pointer move, before the overlay is written. */
  function MoveData(d: CropData, pointerX: real, pointerY: real, imageWidth: real, imageHeight: real): (r: CropData)
    ensures r == d.(box := r.box)
    ensures !d.isDragging && !d.isResizing ==> r == d
    ensures d.isDragging ==>
              r.box == DragTo(d.box, d.dragStartX, d.dragStartY, pointerX, pointerY, imageWidth, imageHeight)
    ensures !d.isDragging && d.isResizing ==>
              r.box == Resize(d.resizeHandle, d.box, d.start, pointerX - d.mouseStartX, pointerY - d.mouseStartY,
                              imageWidth, imageHeight)
  {
    if d.isDragging then
      d.(box := DragTo(d.box, d.dragStartX, d.dragStartY, pointerX, pointerY, imageWidth, imageHeight))
    else if d.isResizing then
      d.(box := Resize(d.resizeHandle, d.box, d.start, pointerX - d.mouseStartX, pointerY - d.mouseStartY,
                       imageWidth, imageHeight))
    else d
  }

  /**
   * `handleCropMouseMove` against the image's bounding size: a move with
   * neither a drag nor a resize in progress changes nothing; otherwise the
   * box is moved or resized and written to the overlay if it has positive
   * width and height. After a resize the box never overflows the right or
   * bottom edge.
   */
  function HandleCropMouseMove(m: CropManager, pointerX: real, pointerY: real,
                               imageWidth: real, imageHeight: real): (r: CropManager)
    ensures !m.data.isDragging && !m.data.isResizing ==> r == m
    ensures r.isCropMode == m.isCropMode
    ensures r.data == m.data.(box := r.data.box)
    ensures m.data.isResizing && !m.data.isDragging ==>
              r.data.box.x + r.data.box.width <= imageWidth && r.data.box.y + r.data.box.height <= imageHeight
    ensures m.data.isDragging ==> r.data.box.width == m.data.box.width && r.data.box.height == m.data.box.height
    ensures m.data.isDragging || m.data.isResizing ==> r.overlay == UpdateOverlay(m.overlay, r.data.box)
  {
    if !m.data.isDragging && !m.data.isResizing then m
    else
      var d := MoveData(m.data, pointerX, pointerY, imageWidth, imageHeight);
      m.(data := d, overlay := UpdateOverlay(m.overlay, d.box))
  }

  /** `stopCropInteraction`: clears both flags and the handle. */
  function StopCropInteraction(m: CropManager): (r: CropManager)
    ensures !r.data.isDragging && !r.data.isResizing && r.data.resizeHandle.None?
    ensures r.data.box == m.data.box && r.isCropMode == m.isCropMode && r.overlay == m.overlay
    ensures r.data.(isDragging := m.data.isDragging, isResizing := m.data.isResizing,
                    resizeHandle := m.data.resizeHandle) == m.data
  {
    m.(data := m.data.(isDragging := false, isResizing := false, resizeHandle := None))
  }

  /** `toggleCropMode`: flips the mode and reports the new value. */
  function ToggleCropMode(m: CropManager): (r: (CropManager, bool))
    ensures r.1 == r.0.isCropMode && r.1 != m.isCropMode
    ensures r.0.data == m.data && r.0.overlay == m.overlay
  {
    var next := m.(isCropMode := !m.isCropMode);
    (next, next.isCropMode)
  }

  /**
   * `cancelCrop`: leaves crop mode, deactivates the overlay and stops any
   * interaction; the box itself is kept.
   */
  function CancelCrop(m: CropManager): (r: CropManager)
    ensures !r.isCropMode && !r.overlay.active
    ensures r.data.box == m.data.box
    ensures !r.data.isDragging && !r.data.isResizing && r.data.resizeHandle.None?
    ensures r.data == StopCropInteraction(m).data
    ensures r.overlay == m.overlay.(active := false)
  {
    StopCropInteraction(m.(isCropMode := false, overlay := m.overlay.(active := false)))
  }

  /**
   * `getCropData`: a copy of the crop record. Values are immutable here, so
   * the copy is the record itself; later transitions of the manager cannot
   * reach it.
   */
  function GetCropData(m: CropManager): (r: CropData)
    ensures r.box == m.data.box
  {
    m.data
  }

  /**
   * `updateCropInfo`: the box is reported to the UI only when a UI manager
   * with an `updateCropInfo` method is supplied.
   */
  function UpdateCropInfo(m: CropManager, hasReceiver: bool): (r: Option<Rect>)
    ensures r.Some? <==> hasReceiver
    ensures r.Some? ==> r.value == m.data.box
  {
    if hasReceiver then Some(m.data.box) else None
  }

  // ---------------------------------------------------------------------
  // Properties relating several transitions
  // ---------------------------------------------------------------------

  /** Typing the values the fields already show changes nothing further. */
  lemma SetCropFromInputIdempotent(m: CropManager, x: real, y: real, width: real, height: real,
                                   imageWidth: real, imageHeight: real)
    requires width >= 1.0 && height >= 1.0 && imageWidth >= 1.0 && imageHeight >= 1.0
    ensures var once := SetCropFromInput(m, x, y, width, height, imageWidth, imageHeight);
            var b := once.data.box;
            SetCropFromInput(once, b.x, b.y, b.width, b.height, imageWidth, imageHeight) == once
  {
  }

  /**
   * Starting a drag and moving back to the very pointer position the drag
   * started from leaves the box where it was, when it lies inside the image.
   */
  lemma DragRoundTrip(m: CropManager, pointerX: real, pointerY: real, imageWidth: real, imageHeight: real)
    requires Inside(m.data.box, imageWidth, imageHeight)
    ensures var started := StartCropDrag(m, false, pointerX, pointerY);
            HandleCropMouseMove(started, pointerX, pointerY, imageWidth, imageHeight).data.box == m.data.box
  {
  }

  /**
   * Resizing is path-independent: the crop data after a move depends only on
   * the state recorded when the resize began and the current pointer, not on
   * the moves in between.
   */
  lemma ResizePathIndependent(m: CropManager, x1: real, y1: real, x2: real, y2: real,
                              imageWidth: real, imageHeight: real)
    requires m.data.isResizing && !m.data.isDragging
    ensures var via := HandleCropMouseMove(m, x1, y1, imageWidth, imageHeight);
            HandleCropMouseMove(via, x2, y2, imageWidth, imageHeight).data
              == HandleCropMouseMove(m, x2, y2, imageWidth, imageHeight).data
  {
  }

  /**
   * A resize started on a box that lies inside the image and is at least
   * 50 on each side, followed by a move that does not move the pointer,
   * leaves the box unchanged.
   */
  lemma ResizeWithoutMovement(m: CropManager, h: Handle, pointerX: real, pointerY: real,
                              imageWidth: real, imageHeight: real)
    requires Inside(m.data.box, imageWidth, imageHeight)
    requires m.data.box.width >= MinSize && m.data.box.height >= MinSize
    requires !m.data.isDragging
    ensures var started := StartCropResize(m, h, pointerX, pointerY);
            HandleCropMouseMove(started, pointerX, pointerY, imageWidth, imageHeight).data.box == m.data.box
  {
    ResizeZeroDelta(h, m.data.box, imageWidth, imageHeight);
  }

  /**
   * A resize that collapses the box to a non-positive width leaves the
   * overlay showing the previous box.
   */
  lemma CollapsedBoxNotDrawn()
    ensures var m := StartCropResize(InitCrop(Create(), Size(200.0, 200.0), Size(0.0, 0.0), Size(0.0, 0.0)).value,
                                     SW, 0.0, 0.0);
            var r := HandleCropMouseMove(m, 500.0, 0.0, 200.0, 200.0);
            r.data.box.width == -300.0 && r.overlay.style == Some(Rect(0.0, 0.0, 200.0, 200.0))
  {
  }

  /** Stopping an interaction twice is the same as stopping it once. */
  lemma StopIdempotent(m: CropManager)
    ensures StopCropInteraction(StopCropInteraction(m)) == StopCropInteraction(m)
  {
  }

  /** Toggling crop mode twice restores the state. */
  lemma ToggleTwice(m: CropManager)
    ensures ToggleCropMode(ToggleCropMode(m).0).0 == m
  {
  }
}

=== FILE: crop_rules.dfy ===
/**
 * The geometric rules both CropManager variants share, written once: the
 * clamp applied to typed-in crop values, the clamp of a dragged box, the
 * per-handle resize transform with its 50px floor, and the boundary clamp
 * that follows every resize step.
 *
 * The two variants differ only in which geometry a resize step starts from:
 * the public variant recomputes from the geometry recorded when the resize
 * began, the src variant from the current box. `Resize` therefore takes both
 * the current box and the `base` box the handle formulas read.
 */
module CropRules {
  import opened Common
  import opened Geometry

  /** The eight resize handles around the crop box. */
  datatype Handle = N | S | E | W | NE | NW | SE | SW

  /** Smallest width or height a resize step produces before the boundary clamp. */
  const MinSize: real := 50.0

  /**
   * `setCropFromInput`: the position is clamped first, against the requested
   * size, then the size against the clamped position, with a floor of 1.
   * For a request at least 1 wide and high on an image at least 1 wide and
   * high, the result lies inside the image; a request that already lies
   * inside comes back unchanged.
   */
  function ClampToImage(x: real, y: real, width: real, height: real, imageWidth: real, imageHeight: real): (r: Rect)
    ensures r.x >= 0.0 && r.y >= 0.0 && r.width >= 1.0 && r.height >= 1.0
    ensures width >= 1.0 && imageWidth >= 1.0 ==> r.x + r.width <= imageWidth
    ensures height >= 1.0 && imageHeight >= 1.0 ==> r.y + r.height <= imageHeight
    ensures Inside(Rect(x, y, width, height), imageWidth, imageHeight) && width >= 1.0 && height >= 1.0 ==>
              r == Rect(x, y, width, height)
  {
    var cx := MaxR(0.0, MinR(x, imageWidth - width));
    var cy := MaxR(0.0, MinR(y, imageHeight - height));
    Rect(cx, cy, MaxR(1.0, MinR(width, imageWidth - cx)), MaxR(1.0, MinR(height, imageHeight - cy)))
  }

  /**
   * Drag step: the box keeps its size and its origin follows the pointer
   * minus the anchor recorded at drag start, clamped to `[0, image − size]`
   * on each axis. When the box is wider (taller) than the image the origin
   * is pinned at 0.
   */
  function DragTo(box: Rect, anchorX: real, anchorY: real, pointerX: real, pointerY: real,
                  imageWidth: real, imageHeight: real): (r: Rect)
    ensures r.width == box.width && r.height == box.height
    ensures r.x >= 0.0 && r.y >= 0.0
    ensures box.width <= imageWidth ==> r.x + r.width <= imageWidth
    ensures box.height <= imageHeight ==> r.y + r.height <= imageHeight
    ensures box.width > imageWidth ==> r.x == 0.0
    ensures box.height > imageHeight ==> r.y == 0.0
    ensures 0.0 <= pointerX - anchorX <= imageWidth - box.width ==> r.x == pointerX - anchorX
    ensures 0.0 <= pointerY - anchorY <= imageHeight - box.height ==> r.y == pointerY - anchorY
  {
    Rect(MaxR(0.0, MinR(pointerX - anchorX, imageWidth - box.width)),
         MaxR(0.0, MinR(pointerY - anchorY, imageHeight - box.height)),
         box.width, box.height)
  }

  /**
   * The per-handle step of a resize with pointer delta `(dx, dy)`: the
   * dimensions a handle moves are recomputed from `base` with a floor of
   * `MinSize`, an origin a handle moves is recomputed from `base` with a
   * floor of 0, and every other field keeps its value in `cur`.
   */
  function ApplyHandle(h: Handle, cur: Rect, base: Rect, dx: real, dy: real): (r: Rect)
    ensures h in {E, W, NE, NW, SE, SW} ==> r.width >= MinSize
    ensures h in {N, S, NE, NW, SE, SW} ==> r.height >= MinSize
    ensures h in {N, S} ==> r.width == cur.width
    ensures h in {E, W} ==> r.height == cur.height
    ensures h in {W, NW, SW} ==> r.x == MaxR(0.0, base.x + dx)
    ensures h !in {W, NW, SW} ==> r.x == cur.x
    ensures h in {N, NE, NW} ==> r.y == MaxR(0.0, base.y + dy)
    ensures h !in {N, NE, NW} ==> r.y == cur.y
    ensures h in {E, NE, SE} ==> r.width == MaxR(MinSize, base.width + dx)
    ensures h in {W, NW, SW} ==> r.width == MaxR(MinSize, base.width - dx)
    ensures h in {S, SE, SW} ==> r.height == MaxR(MinSize, base.height + dy)
    ensures h in {N, NE, NW} ==> r.height == MaxR(MinSize, base.height - dy)
  {
    match h
    case SE => cur.(width := MaxR(MinSize, base.width + dx), height := MaxR(MinSize, base.height + dy))
    case SW => cur.(width := MaxR(MinSize, base.width - dx), height := MaxR(MinSize, base.height + dy),
                    x := MaxR(0.0, base.x + dx))
    case NE => cur.(width := MaxR(MinSize, base.width + dx), height := MaxR(MinSize, base.height - dy),
                    y := MaxR(0.0, base.y + dy))
    case NW => cur.(width := MaxR(MinSize, base.width - dx), height := MaxR(MinSize, base.height - dy),
                    x := MaxR(0.0, base.x + dx), y := MaxR(0.0, base.y + dy))
    case N => cur.(height := MaxR(MinSize, base.height - dy), y := MaxR(0.0, base.y + dy))
    case S => cur.(height := MaxR(MinSize, base.height + dy))
    case E => cur.(width := MaxR(MinSize, base.width + dx))
    case W => cur.(width := MaxR(MinSize, base.width - dx), x := MaxR(0.0, base.x + dx))
  }

  /**
   * The boundary clamp after a resize step: a box that overflows the right
   * (bottom) edge is shrunk to end exactly there. The origin is never moved,
   * so an origin beyond the edge leaves a width (height) of zero or less.
   */
  function ClampFarEdges(r: Rect, imageWidth: real, imageHeight: real): (c: Rect)
    ensures c.x == r.x && c.y == r.y
    ensures c.x + c.width <= imageWidth && c.y + c.height <= imageHeight
    ensures c.width == MinR(r.width, imageWidth - r.x)
    ensures c.height == MinR(r.height, imageHeight - r.y)
  {
    var w := if r.x + r.width > imageWidth then imageWidth - r.x else r.width;
    var h := if r.y + r.height > imageHeight then imageHeight - r.y else r.height;
    r.(width := w, height := h)
  }

  /** One resize step: the handle transform followed by the boundary clamp. */
  function Resize(h: Option<Handle>, cur: Rect, base: Rect, dx: real, dy: real,
                  imageWidth: real, imageHeight: real): (r: Rect)
    ensures r.x + r.width <= imageWidth && r.y + r.height <= imageHeight
    ensures cur.x >= 0.0 ==> r.x >= 0.0
    ensures cur.y >= 0.0 ==> r.y >= 0.0
  {
    var moved := match h
      case Some(handle) => ApplyHandle(handle, cur, base, dx, dy)
      case None => cur;
    ClampFarEdges(moved, imageWidth, imageHeight)
  }

  /**
   * Dragging the south-east corner: before the boundary clamp the size is
   * the base size plus the delta, floored at 50; when the result fits, that
   * is the final size and the origin does not move.
   */
  lemma ResizeSouthEast(cur: Rect, base: Rect, dx: real, dy: real, imageWidth: real, imageHeight: real)
    requires cur.x + MaxR(MinSize, base.width + dx) <= imageWidth
    requires cur.y + MaxR(MinSize, base.height + dy) <= imageHeight
    ensures Resize(Some(SE), cur, base, dx, dy, imageWidth, imageHeight)
              == Rect(cur.x, cur.y, MaxR(MinSize, base.width + dx), MaxR(MinSize, base.height + dy))
  {
  }

  /**
   * With a zero delta, resizing a box from its own geometry is the identity
   * when the box lies inside the image and is at least 50 on each side.
   */
  lemma ResizeZeroDelta(h: Handle, box: Rect, imageWidth: real, imageHeight: real)
    requires Inside(box, imageWidth, imageHeight)
    requires box.width >= MinSize && box.height >= MinSize
    ensures Resize(Some(h), box, box, 0.0, 0.0, imageWidth, imageHeight) == box
  {
  }

  /**
   * The boundary clamp can drive a dimension below the 50px floor and even
   * below zero: dragging the south-west handle 500px right on a 200×200
   * image moves the origin to x = 500 and leaves a width of −300.
   */
  lemma ResizeCanCollapse()
    ensures Resize(Some(SW), Rect(0.0, 0.0, 100.0, 100.0), Rect(0.0, 0.0, 100.0, 100.0), 500.0, 0.0, 200.0, 200.0).width
              == -300.0
  {
  }
}

=== FILE: crop_src.dfy ===
/**
 * The CropManager of the src build. It differs from the public build in
 * three ways: the initial box is a centred 80% of the displayed image, the
 * overlay is written unconditionally, and a resize step starts from the
 * CURRENT box while the pointer delta is still measured from where the
 * resize began, so a resize is not path-independent (see
 * `ResizeAccumulates`). One pair of fields, `startX`/`startY`, holds the
 * drag anchor during a drag and the pointer start during a resize.
 */
module SrcCropManager {
  import opened Common
  import opened Geometry
  import opened CropRules

  datatype CropData = CropData(
    box: Rect,
    isDragging: bool,
    isResizing: bool,
    resizeHandle: Option<Handle>,
    startX: real,
    startY: real)

  /** The overlay element: the last style written, and its `active` class. */
  datatype Overlay = Overlay(style: Option<Rect>, active: bool)

  datatype CropManager = CropManager(data: CropData, isCropMode: bool, overlay: Overlay)

  /** The constructor's state. */
  function Create(): (m: CropManager)
    ensures m.data.box == Rect(0.0, 0.0, 100.0, 100.0)
    ensures !m.data.isDragging && !m.data.isResizing && m.data.resizeHandle.None?
    ensures !m.isCropMode
  {
    CropManager(CropData(Rect(0.0, 0.0, 100.0, 100.0), false, false, None, 0.0, 0.0), false, Overlay(None, false))
  }

  /**
   * `initCrop`: the box is 80% of the displayed image in each dimension and
   * centred on it; the overlay shows it and becomes active.
   */
  function InitCrop(m: CropManager, displayed: Size): (r: CropManager)
    ensures r.data.box.width == displayed.width * 0.8 && r.data.box.height == displayed.height * 0.8
    ensures r.data.box.x + r.data.box.width + r.data.box.x == displayed.width
    ensures r.data.box.y + r.data.box.height + r.data.box.y == displayed.height
    ensures displayed.width >= 0.0 && displayed.height >= 0.0 ==> Inside(r.data.box, displayed.width, displayed.height)
    ensures r.overlay == Overlay(Some(r.data.box), true)
    ensures r.data == m.data.(box := r.data.box) && r.isCropMode == m.isCropMode
  {
    var w := displayed.width * 0.8;
    var h := displayed.height * 0.8;
    var box := Rect((displayed.width - w) / 2.0, (displayed.height - h) / 2.0, w, h);
    m.(data := m.data.(box := box), overlay := Overlay(Some(box), true))
  }

  /** `setCropFromInput`: the shared clamp; the overlay always shows the result. */
  function SetCropFromInput(m: CropManager, x: real, y: real, width: real, height: real,
                            imageWidth: real, imageHeight: real): (r: CropManager)
    ensures r.data.box.width >= 1.0 && r.data.box.height >= 1.0
    ensures width >= 1.0 && height >= 1.0 && imageWidth >= 1.0 && imageHeight >= 1.0 ==>
              Inside(r.data.box, imageWidth, imageHeight)
    ensures r.data == m.data.(box := r.data.box) && r.isCropMode == m.isCropMode
    ensures r.overlay == m.overlay.(style := Some(r.data.box))
  {
    var box := ClampToImage(x, y, width, height, imageWidth, imageHeight);
    m.(data := m.data.(box := box), overlay := m.overlay.(style := Some(box)))
  }

  /** `startCropDrag`: ignored on a handle; otherwise the anchor is pointer minus origin. */
  function StartCropDrag(m: CropManager, onHandle: bool, pointerX: real, pointerY: real): (r: CropManager)
    ensures onHandle ==> r == m
    ensures !onHandle ==> r.data.isDragging && r.data.box == m.data.box
    ensures !onHandle ==> r.data.startX + m.data.box.x == pointerX && r.data.startY + m.data.box.y == pointerY
    ensures !onHandle ==>
              && r.isCropMode == m.isCropMode && r.overlay == m.overlay
              && r.data == m.data.(isDragging := true, startX := r.data.startX, startY := r.data.startY)
  {
    if onHandle then m
    else m.(data := m.data.(isDragging := true, startX := pointerX - m.data.box.x, startY := pointerY - m.data.box.y))
  }

  /** `startCropResize`: records the handle and the raw pointer position. */
  function StartCropResize(m: CropManager, h: Option<Handle>, pointerX: real, pointerY: real): (r: CropManager)
    ensures r.data.isResizing && r.data.resizeHandle == h
    ensures r.data.startX == pointerX && r.data.startY == pointerY
    ensures r.data.box == m.data.box && r.data.isDragging == m.data.isDragging
    ensures r.isCropMode == m.isCropMode && r.overlay == m.overlay
    ensures r.data == m.data.(isResizing := true, resizeHandle := h, startX := r.data.startX, startY := r.data.startY)
  {
    m.(data := m.data.(isResizing := true, resizeHandle := h, startX := pointerX, startY := pointerY))
  }

  /**
   * `handleCropMouseMove`: nothing happens with no interaction in progress.
   * A drag moves the box as in the public build. A resize applies the
   * handle transform to the current box with the delta from the resize's
   * start pointer, then clamps the far edges; the start pointer is not
   * advanced. The overlay is written after every handled move.
   */
  function HandleCropMouseMove(m: CropManager, pointerX: real, pointerY: real,
                               imageWidth: real, imageHeight: real): (r: CropManager)
    ensures !m.data.isDragging && !m.data.isResizing ==> r == m
    ensures r.data == m.data.(box := r.data.box) && r.isCropMode == m.isCropMode
    ensures m.data.isDragging ==>
              r.data.box == DragTo(m.data.box, m.data.startX, m.data.startY, pointerX, pointerY, imageWidth, imageHeight)
    ensures !m.data.isDragging && m.data.isResizing ==>
              r.data.box == Resize(m.data.resizeHandle, m.data.box, m.data.box,
                                   pointerX - m.data.startX, pointerY - m.data.startY, imageWidth, imageHeight)
    ensures m.data.isDragging || m.data.isResizing ==> r.overlay == m.overlay.(style := Some(r.data.box))
  {
    if !m.data.isDragging && !m.data.isResizing then m
    else
      var box :=
        if m.data.isDragging then
          DragTo(m.data.box, m.data.startX, m.data.startY, pointerX, pointerY, imageWidth, imageHeight)
        else
          Resize(m.data.resizeHandle, m.data.box, m.data.box,
                 pointerX - m.data.startX, pointerY - m.data.startY, imageWidth, imageHeight);
      m.(data := m.data.(box := box), overlay := m.overlay.(style := Some(box)))
  }

  /** `stopCropInteraction`: clears both flags and the handle. */
  function StopCropInteraction(m: CropManager): (r: CropManager)
    ensures !r.data.isDragging && !r.data.isResizing && r.data.resizeHandle.None?
    ensures r.data.box == m.data.box && r.isCropMode == m.isCropMode && r.overlay == m.overlay
    ensures r.data.startX == m.data.startX && r.data.startY == m.data.startY
  {
    m.(data := m.data.(isDragging := false, isResizing := false, resizeHandle := None))
  }

  /** `toggleCropMode`: flips the mode and reports the new value. */
  function ToggleCropMode(m: CropManager): (r: (CropManager, bool))
    ensures r.1 == r.0.isCropMode && r.1 != m.isCropMode
    ensures r.0.data == m.data && r.0.overlay == m.overlay
  {
    var next := m.(isCropMode := !m.isCropMode);
    (next, next.isCropMode)
  }

  /** `cancelCrop`: leaves crop mode, deactivates the overlay, stops the interaction, keeps the box. */
  function CancelCrop(m: CropManager): (r: CropManager)
    ensures !r.isCropMode && !r.overlay.active
    ensures r.data.box == m.data.box
    ensures !r.data.isDragging && !r.data.isResizing && r.data.resizeHandle.None?
    ensures r.data == StopCropInteraction(m).data
    ensures r.overlay == m.overlay.(active := false)
  {
    StopCropInteraction(m.(isCropMode := false, overlay := m.overlay.(active := false)))
  }

  // ---------------------------------------------------------------------
  // The resize drift
  // ---------------------------------------------------------------------

  /** `n` consecutive pointer moves, all reporting the same position. */
  function MovesAt(m: CropManager, pointerX: real, pointerY: real, imageWidth: real, imageHeight: real, n: nat): CropManager
  {
    if n == 0 then m
    else HandleCropMouseMove(MovesAt(m, pointerX, pointerY, imageWidth, imageHeight, n - 1),
                             pointerX, pointerY, imageWidth, imageHeight)
  }

  /** `n * d`, written as repeated addition so that the proofs stay linear. */
  function Times(n: nat, d: real): (r: real)
    ensures d >= 0.0 ==> r >= 0.0
  {
    if n == 0 then 0.0 else Times(n - 1, d) + d
  }

  /**
   * While the east edge is being dragged and the pointer stays `dx` to the
   * right of where the resize began, every further move event adds `dx`
   * again: after `n` events the width has grown by `n * dx`, as long as the
   * box still fits the image. Holding the pointer still does not hold the
   * box still.
   */
  lemma {:induction false} ResizeAccumulates(m: CropManager, dx: real, pointerY: real,
                                             imageWidth: real, imageHeight: real, n: nat)
    requires m.data.isResizing && !m.data.isDragging && m.data.resizeHandle == Some(E)
    requires dx >= 0.0 && m.data.box.width >= MinSize
    requires m.data.box.x + m.data.box.width + Times(n, dx) <= imageWidth
    requires m.data.box.y + m.data.box.height <= imageHeight
    ensures var r := MovesAt(m, m.data.startX + dx, pointerY, imageWidth, imageHeight, n);
            && r.data == m.data.(box := r.data.box)
            && r.data.box == m.data.box.(width := m.data.box.width + Times(n, dx))
  {
    if n > 0 {
      var p := m.data.startX + dx;
      ResizeAccumulates(m, dx, pointerY, imageWidth, imageHeight, n - 1);
      var prev := MovesAt(m, p, pointerY, imageWidth, imageHeight, n - 1);
      EastStep(prev, dx, pointerY, imageWidth, imageHeight);
    }
  }

  /** One move of the east edge by `dx` that still fits widens the box by `dx`. */
  lemma EastStep(m: CropManager, dx: real, pointerY: real, imageWidth: real, imageHeight: real)
    requires m.data.isResizing && !m.data.isDragging && m.data.resizeHandle == Some(E)
    requires dx >= 0.0 && m.data.box.width >= MinSize
    requires m.data.box.x + m.data.box.width + dx <= imageWidth
    requires m.data.box.y + m.data.box.height <= imageHeight
    ensures var r := HandleCropMouseMove(m, m.data.startX + dx, pointerY, imageWidth, imageHeight);
            && r.data == m.data.(box := r.data.box)
            && r.data.box == m.data.box.(width := m.data.box.width + dx)
  {
  }

  /**
   * A concrete instance: on a 1000×1000 image, grabbing the east handle of
   * a 100×100 box at x = 0 and moving the pointer to x = 10 produces a
   * width of 110 after one move event and 120 after a second one at the
   * same position. The public build gives 110 both times.
   */
  lemma ResizeDriftExample()
    ensures var m := StartCropResize(Create(), Some(E), 0.0, 0.0);
            && HandleCropMouseMove(m, 10.0, 0.0, 1000.0, 1000.0).data.box.width == 110.0
            && MovesAt(m, 10.0, 0.0, 1000.0, 1000.0, 2).data.box.width == 120.0
  {
    var m := StartCropResize(Create(), Some(E), 0.0, 0.0);
    ResizeAccumulates(m, 10.0, 0.0, 1000.0, 1000.0, 2);
  }

  /** A drag keeps the box inside an image at least as large as the box. */
  lemma DragStaysInside(m: CropManager, onHandle: bool, startX: real, startY: real,
                        pointerX: real, pointerY: real, imageWidth: real, imageHeight: real)
    requires !m.data.isResizing
    requires m.data.box.width <= imageWidth && m.data.box.height <= imageHeight
    ensures var started := StartCropDrag(m, onHandle, startX, startY);
            var r := HandleCropMouseMove(started, pointerX, pointerY, imageWidth, imageHeight);
            !onHandle ==> Inside(r.data.box, imageWidth, imageHeight)
  {
  }

  /** Toggling crop mode twice restores the state. */
  lemma ToggleTwice(m: CropManager)
    ensures ToggleCropMode(ToggleCropMode(m).0).0 == m
  {
  }
}

=== FILE: encoding.dfy ===
/**
 * How an image is encoded: the option defaults, the choice of MIME type and
 * quality in both `processImage` builds and in `convertImageFormat`, the
 * complete processing and cropping pipelines down to the surface that is
 * encoded, the quality assessment of the image utilities, and the public
 * build's batch over several size factors.
 *
 * The canvas encoder (`toBlob`) is modelled by the one property the
 * pipelines depend on: it hands its callback `null` exactly when the
 * canvas has a zero side. Where the encoder is called with options of its
 * own it is a parameter returning `None` for that `null`. Whether the
 * browser can encode WebP is a boolean parameter; an encoder asked for a
 * type it cannot produce produces PNG.
 */
module Encoding {
  import opened Common
  import opened Strings
  import opened Geometry
  import opened Sizing

  // ---------------------------------------------------------------------
  // Public build
  // ---------------------------------------------------------------------

  /** The options `processImage` and `cropImage` of the public build read. */
  datatype PublicOptions = PublicOptions(
    format: string,
    jpegQuality: real,
    pngCompression: JsInt,
    webpQuality: real,
    maxWidth: Option<real>,
    maxHeight: Option<real>)

  /**
   * The destructuring defaults: a field that is not supplied (`None`) takes
   * `jpeg`, 0.8, 6, 0.8, or no bound.
   */
  function ResolvePublicOptions(format: Option<string>, jpegQuality: Option<real>, pngCompression: Option<JsInt>,
                                webpQuality: Option<real>, maxWidth: Option<real>, maxHeight: Option<real>): (o: PublicOptions)
    ensures format.None? ==> o.format == "jpeg"
    ensures format.Some? ==> o.format == format.value
    ensures jpegQuality.None? ==> o.jpegQuality == 0.8
    ensures pngCompression.None? ==> o.pngCompression == Int(6)
    ensures webpQuality.None? ==> o.webpQuality == 0.8
    ensures o.maxWidth == maxWidth && o.maxHeight == maxHeight
  {
    PublicOptions(format.GetOr("jpeg"), jpegQuality.GetOr(0.8), pngCompression.GetOr(Int(6)),
                  webpQuality.GetOr(0.8), maxWidth, maxHeight)
  }

  /** What happens to the drawn canvas: the PNG shrink path, or one `toBlob` call. */
  datatype Encoding = PngPath(level: JsInt) | Encoded(mime: string, quality: real)

  /**
   * The format switch of the public build: `png` takes the PNG path;
   * `webp` encodes as WebP when the browser supports it and otherwise as
   * JPEG, in both cases with the WebP quality; every other format value,
   * `jpeg` and `original` included, is JPEG with the JPEG quality. WebP is
   * never requested from a browser that cannot produce it.
   */
  function PublicEncoding(o: PublicOptions, webpSupported: bool): (e: Encoding)
    ensures e.PngPath? <==> o.format == "png"
    ensures e.PngPath? ==> e.level == o.pngCompression
    ensures e.Encoded? ==> e.mime == "image/jpeg" || e.mime == "image/webp"
    ensures e.Encoded? && e.mime == "image/webp" ==> webpSupported && o.format == "webp"
    ensures o.format == "webp" ==> e.Encoded? && e.quality == o.webpQuality
    ensures o.format != "png" && o.format != "webp" ==> e == Encoded("image/jpeg", o.jpegQuality)
  {
    if o.format == "png" then PngPath(o.pngCompression)
    else if o.format == "webp" then
      if webpSupported then Encoded("image/webp", o.webpQuality) else Encoded("image/jpeg", o.webpQuality)
    else Encoded("image/jpeg", o.jpegQuality)
  }

  /** The encoded result of a pipeline: MIME type, the quality passed to the encoder (if any) and the surface. */
  datatype Output = Output(mime: string, quality: Option<real>, width: int, height: int)

  /**
   * What a pipeline's promise settles to: an encoded image, the `null`
   * blob `toBlob` hands over for a canvas with a zero side, or nothing at
   * all when an exception inside the image's load handler leaves the
   * promise pending forever.
   */
  datatype Settled = Produced(out: Output) | NullBlob | NeverSettles

  /** `canvas.toBlob` on a canvas of the given surface. */
  function ToBlob(mime: string, quality: Option<real>, canvas: (int, int)): (r: Settled)
    ensures !r.NeverSettles?
    ensures r.NullBlob? <==> canvas.0 == 0 || canvas.1 == 0
    ensures r.Produced? ==> r.out == Output(mime, quality, canvas.0, canvas.1)
  {
    if canvas.0 == 0 || canvas.1 == 0 then NullBlob else Produced(Output(mime, quality, canvas.0, canvas.1))
  }

  /** The PNG path redraws the canvas at a new size (levels above 3, or a `NaN` level). */
  predicate PngShrinks(o: PublicOptions) {
    o.format == "png" && !(o.pngCompression.Int? && o.pngCompression.v <= 3)
  }

  /**
   * Encoding a canvas of the given surface as the public build does. A
   * canvas with a zero side gives the `null` blob, except on the shrinking
   * PNG path: there `drawImage` refuses the empty canvas with an exception
   * inside `compressPNG`'s promise executor; that promise rejects, the
   * `.then(resolve)` that waits on it never passes the rejection on, and
   * the outer promise never settles. Every image that is produced has
   * pixels.
   */
  function PublicEncode(canvas: (int, int), o: PublicOptions, webpSupported: bool): (r: Settled)
    requires 0 <= canvas.0 <= MaxReflected && 0 <= canvas.1 <= MaxReflected
    ensures r.NeverSettles? <==> PngShrinks(o) && (canvas.0 == 0 || canvas.1 == 0)
    ensures r.NullBlob? <==> !PngShrinks(o) && (canvas.0 == 0 || canvas.1 == 0)
    ensures r.Produced? ==> r.out.width > 0 && r.out.height > 0
    ensures r.Produced? ==> (r.out.mime == "image/png" <==> o.format == "png")
    ensures r.Produced? && o.format == "png" ==>
              r.out.quality.None? && (r.out.width, r.out.height) == PngSurface(canvas.0, canvas.1, o.pngCompression)
    ensures r.Produced? && o.format != "png" ==> r.out.quality.Some? && (r.out.width, r.out.height) == canvas
    ensures r.Produced? && r.out.mime == "image/webp" ==> webpSupported
  {
    match PublicEncoding(o, webpSupported)
    case PngPath(level) =>
      if level.Int? && level.v <= 3 then ToBlob("image/png", None, canvas)
      else if canvas.0 == 0 || canvas.1 == 0 then NeverSettles
      else
        var s := PngSurface(canvas.0, canvas.1, level);
        Produced(Output("image/png", None, s.0, s.1))
    case Encoded(mime, q) => ToBlob(mime, Some(q), canvas)
  }

  /**
   * `processImage` of the public build, for a decoded image of size `src`:
   * the canvas is the fitted size, truncated; the PNG path may shrink it
   * further. Outside the shrinking PNG path an image is produced exactly
   * when the fitted canvas has pixels on both sides.
   */
  function PublicProcessImage(src: Size, o: PublicOptions, webpSupported: bool): (r: Settled)
    requires src.width > 0.0 && src.height > 0.0
    ensures var c := CanvasSize(FitSize(src, o.maxWidth, o.maxHeight));
            !PngShrinks(o) ==> (r.Produced? <==> c.0 > 0 && c.1 > 0) && (r.NullBlob? <==> !r.Produced?)
    ensures o.format != "png" && r.Produced? ==>
              (r.out.width, r.out.height) == CanvasSize(FitSize(src, o.maxWidth, o.maxHeight))
    ensures r.Produced? ==> (r.out.mime == "image/png" <==> o.format == "png")
    ensures r.Produced? ==> r.out.width > 0 && r.out.height > 0
  {
    PublicEncode(CanvasSize(FitSize(src, o.maxWidth, o.maxHeight)), o, webpSupported)
  }

  /**
   * With no bounds and any non-PNG format, a decoded image whose sides are
   * whole numbers is encoded at its own size.
   */
  lemma PublicProcessKeepsSize(w: nat, h: nat, o: PublicOptions, webpSupported: bool)
    requires 0 < w <= MaxReflected && 0 < h <= MaxReflected
    requires !Given(o.maxWidth) && !Given(o.maxHeight) && o.format != "png"
    ensures var r := PublicProcessImage(Size(w as real, h as real), o, webpSupported);
            r.Produced? && r.out.width == w && r.out.height == h
  {
  }

  /** `cropImage` of the public build: the mapped crop is the canvas, then encoded like `processImage`. */
  function PublicCropImage(crop: Rect, displayed: Size, natural: Size, o: PublicOptions, webpSupported: bool): (r: Settled)
    requires displayed.width != 0.0 && displayed.height != 0.0
    ensures var c := CropSurface(crop, displayed, natural);
            !PngShrinks(o) ==> (r.Produced? <==> c.0 > 0 && c.1 > 0) && (r.NullBlob? <==> !r.Produced?)
    ensures o.format != "png" && r.Produced? ==> (r.out.width, r.out.height) == CropSurface(crop, displayed, natural)
    ensures r.Produced? ==> (r.out.mime == "image/png" <==> o.format == "png")
    ensures r.Produced? ==> r.out.width > 0 && r.out.height > 0
  {
    PublicEncode(CropSurface(crop, displayed, natural), o, webpSupported)
  }

  /** Cropping the whole displayed image encodes the whole source image. */
  lemma PublicCropWhole(displayed: Size, w: nat, h: nat, o: PublicOptions, webpSupported: bool)
    requires displayed.width != 0.0 && displayed.height != 0.0
    requires 0 < w <= MaxReflected && 0 < h <= MaxReflected && o.format != "png"
    ensures var r := PublicCropImage(Rect(0.0, 0.0, displayed.width, displayed.height), displayed,
                                     Size(w as real, h as real), o, webpSupported);
            r.Produced? && r.out.width == w && r.out.height == h
  {
  }

  // ---------------------------------------------------------------------
  // src build
  // ---------------------------------------------------------------------

  /** The options the src build's `processImage` and `cropImage` read. */
  datatype SrcOptions = SrcOptions(format: string, quality: real, maxWidth: Option<real>, maxHeight: Option<real>)

  /** Destructuring defaults of the src build: `jpeg` and quality 0.8. */
  function ResolveSrcOptions(format: Option<string>, quality: Option<real>, maxWidth: Option<real>, maxHeight: Option<real>): (o: SrcOptions)
    ensures format.None? ==> o.format == "jpeg"
    ensures quality.None? ==> o.quality == 0.8
    ensures format.Some? ==> o.format == format.value
    ensures quality.Some? ==> o.quality == quality.value
    ensures o.maxWidth == maxWidth && o.maxHeight == maxHeight
  {
    SrcOptions(format.GetOr("jpeg"), quality.GetOr(0.8), maxWidth, maxHeight)
  }

  /** The src build's MIME switch: `png`, `webp`, and JPEG for everything else; no WebP check. */
  function SrcMime(format: string): (mime: string)
    ensures mime == "image/png" <==> format == "png"
    ensures mime == "image/webp" <==> format == "webp"
    ensures mime == "image/png" || mime == "image/webp" || mime == "image/jpeg"
  {
    if format == "png" then "image/png" else if format == "webp" then "image/webp" else "image/jpeg"
  }

  /**
   * The type `toBlob` actually produces for a requested one: every browser
   * encodes PNG and JPEG, and a request for WebP from a browser that cannot
   * encode it falls back to PNG.
   */
  function BrowserMime(requested: string, webpSupported: bool): (mime: string)
    requires requested in {"image/png", "image/webp", "image/jpeg"}
    ensures mime == "image/webp" <==> requested == "image/webp" && webpSupported
    ensures mime == "image/png" <==> requested == "image/png" || (requested == "image/webp" && !webpSupported)
    ensures mime == "image/jpeg" <==> requested == "image/jpeg"
  {
    if requested == "image/webp" && !webpSupported then "image/png" else requested
  }

  /**
   * `processImage` of the src build: the fitted canvas, encoded with one
   * quality for every format; `None` is the `null` blob of a canvas with a
   * zero side.
   */
  function SrcProcessImage(src: Size, o: SrcOptions, webpSupported: bool): (r: Option<Output>)
    requires src.width > 0.0 && src.height > 0.0
    ensures var c := CanvasSize(FitSize(src, o.maxWidth, o.maxHeight));
            && (r.Some? <==> c.0 > 0 && c.1 > 0)
            && (r.Some? ==> (r.value.width, r.value.height) == c)
    ensures r.Some? ==> r.value.quality == Some(o.quality)
    ensures r.Some? ==> r.value.mime == BrowserMime(SrcMime(o.format), webpSupported)
  {
    var c := CanvasSize(FitSize(src, o.maxWidth, o.maxHeight));
    if c.0 == 0 || c.1 == 0 then None
    else Some(Output(BrowserMime(SrcMime(o.format), webpSupported), Some(o.quality), c.0, c.1))
  }

  /** `cropImage` of the src build, with the same `null` blob for a canvas with a zero side. */
  function SrcCropImage(crop: Rect, displayed: Size, natural: Size, o: SrcOptions, webpSupported: bool): (r: Option<Output>)
    requires displayed.width != 0.0 && displayed.height != 0.0
    ensures var c := CropSurface(crop, displayed, natural);
            && (r.Some? <==> c.0 > 0 && c.1 > 0)
            && (r.Some? ==> (r.value.width, r.value.height) == c)
    ensures r.Some? ==> r.value.quality == Some(o.quality) && r.value.mime == BrowserMime(SrcMime(o.format), webpSupported)
  {
    var c := CropSurface(crop, displayed, natural);
    if c.0 == 0 || c.1 == 0 then None
    else Some(Output(BrowserMime(SrcMime(o.format), webpSupported), Some(o.quality), c.0, c.1))
  }

  /**
   * The two builds agree on whether an image is produced and on its size,
   * and differ in the WebP fallback: asked for WebP by a browser that
   * cannot encode it, the public build chooses JPEG itself while the src
   * build requests WebP and receives PNG.
   */
  lemma BuildsDifferOnWebpFallback(src: Size, q: real)
    requires src.width > 0.0 && src.height > 0.0
    ensures var p := PublicProcessImage(src, PublicOptions("webp", q, Int(6), q, None, None), false);
            var s := SrcProcessImage(src, SrcOptions("webp", q, None, None), false);
            && (p.Produced? <==> s.Some?)
            && (p.Produced? ==> p.out.mime == "image/jpeg" && s.value.mime == "image/png")
            && (p.Produced? ==> p.out.width == s.value.width && p.out.height == s.value.height)
  {
  }

  /**
   * Given the same bounds, the src build produces an image exactly when the
   * public build does on a non-PNG format, and at the same size.
   */
  lemma BuildsAgreeOnSize(src: Size, po: PublicOptions, so: SrcOptions, webpSupported: bool)
    requires src.width > 0.0 && src.height > 0.0
    requires po.format != "png" && po.maxWidth == so.maxWidth && po.maxHeight == so.maxHeight
    ensures var theirs := PublicProcessImage(src, po, true);
            var mine := SrcProcessImage(src, so, webpSupported);
            && (mine.Some? <==> theirs.Produced?)
            && (mine.Some? ==> mine.value.width == theirs.out.width && mine.value.height == theirs.out.height)
  {
  }

  // ---------------------------------------------------------------------
  // Image utilities
  // ---------------------------------------------------------------------

  /**
   * The MIME switch of `convertImageFormat`, applied to the lower-cased
   * format: `png` and `webp` map to themselves, `jpeg`, `jpg` and every
   * other value to JPEG.
   */
  function ConvertMime(format: string): (mime: string)
    ensures mime == "image/png" <==> ToLower(format) == "png"
    ensures mime == "image/webp" <==> ToLower(format) == "webp"
    ensures mime == "image/png" || mime == "image/webp" || mime == "image/jpeg"
  {
    var f := ToLower(format);
    if f == "png" then "image/png" else if f == "webp" then "image/webp" else "image/jpeg"
  }

  /** Lower-casing twice is lower-casing once. */
  lemma {:induction false} ToLowerIdempotent(s: string)
    ensures ToLower(ToLower(s)) == ToLower(s)
  {
    if |s| > 0 {
      ToLowerIdempotent(s[1..]);
      assert ToLower(s)[1..] == ToLower(s[1..]);
    }
  }

  /** The format switch ignores case: a format and its lower-cased form choose the same MIME type. */
  lemma ConvertMimeIgnoresCase(format: string)
    ensures ConvertMime(ToLower(format)) == ConvertMime(format)
  {
    ToLowerIdempotent(format);
  }

  /** Upper-case names are recognised: `PNG` is PNG, `WEBP` is WebP, `JPG` is JPEG. */
  lemma ConvertMimeExamples()
    ensures ConvertMime("PNG") == "image/png"
    ensures ConvertMime("WEBP") == "image/webp"
    ensures ConvertMime("JPG") == "image/jpeg"
  {
    assert ToLower("PNG") == "png";
    assert ToLower("WEBP") == "webp";
    assert ToLower("JPG") == "jpg";
  }

  const ConversionFailed: string := "이미지 변환에 실패했습니다."

  /**
   * `convertImageFormat`: the canvas is encoded with the chosen MIME type
   * and the quality; a `null` blob from the encoder rejects with an error
   * instead of resolving.
   */
  function ConvertImageFormat<B>(format: string, quality: real, encode: (string, real) -> Option<B>): (r: Result<B>)
    ensures r.Ok? <==> encode(ConvertMime(format), quality).Some?
    ensures r.Ok? ==> r.value == encode(ConvertMime(format), quality).value
    ensures r.Err? ==> r.message == ConversionFailed
  {
    match encode(ConvertMime(format), quality)
    case Some(blob) => Ok(blob)
    case None => Err(ConversionFailed)
  }

  /**
   * `cropImage` of the image utilities: the new canvas has exactly the
   * requested size while that lies below 2^31, and the canvas's default
   * side for a requested side of -1 or less.
   */
  function UtilsCropSurface(width: real, height: real): (r: (int, int))
    ensures 0.0 <= width < (MaxReflected + 1) as real && 0.0 <= height < (MaxReflected + 1) as real ==>
              r == (width.Floor, height.Floor)
    ensures -((MaxReflected + 1) as real) <= width <= -1.0 ==> r.0 == CanvasDefaultWidth
    ensures -((MaxReflected + 1) as real) <= height <= -1.0 ==> r.1 == CanvasDefaultHeight
  {
    CanvasSize(Size(width, height))
  }

  const LowResolutionAdvice: string := "저해상도 이미지입니다. 더 높은 해상도의 이미지를 사용하세요."
  const HighResolutionAdvice: string := "고해상도 이미지입니다. 웹 사용을 위해 압축을 고려하세요."
  const LargeFileAdvice: string := "파일 크기가 큽니다. 압축을 권장합니다."

  datatype QualityReport = QualityReport(resolution: int, fileSize: int, compressionRatio: int, recommendations: seq<string>)

  /**
   * `assessImageQuality`: low resolution (under 640·480 pixels) and high
   * resolution (over 4000·3000) are advised on exclusively, a file over
   * 5 MiB adds a third piece of advice after them, so there are at most two
   * pieces of advice and the size advice is always last.
   */
  function AssessImageQuality(width: int, height: int, fileSize: int): (q: QualityReport)
    ensures q.resolution == width * height && q.fileSize == fileSize && q.compressionRatio == 1
    ensures |q.recommendations| <= 2
    ensures LowResolutionAdvice in q.recommendations <==> width * height < 640 * 480
    ensures HighResolutionAdvice in q.recommendations <==> width * height > 4000 * 3000
    ensures !(LowResolutionAdvice in q.recommendations && HighResolutionAdvice in q.recommendations)
    ensures LargeFileAdvice in q.recommendations <==> fileSize > 5 * 1024 * 1024
    ensures LargeFileAdvice in q.recommendations ==> q.recommendations[|q.recommendations| - 1] == LargeFileAdvice
    ensures forall i :: 0 <= i < |q.recommendations| ==>
              q.recommendations[i] in {LowResolutionAdvice, HighResolutionAdvice, LargeFileAdvice}
  {
    var resolution := width * height;
    var byResolution :=
      if resolution < 640 * 480 then [LowResolutionAdvice]
      else if resolution > 4000 * 3000 then [HighResolutionAdvice]
      else [];
    var bySize := if fileSize > 5 * 1024 * 1024 then [LargeFileAdvice] else [];
    QualityReport(resolution, fileSize, 1, byResolution + bySize)
  }

  // ---------------------------------------------------------------------
  // Batch over size factors (public build)
  // ---------------------------------------------------------------------

  /** `options.maxWidth ? options.maxWidth * size : null` */
  function ScaledBound(b: Option<real>, factor: int): (r: Option<real>)
    ensures Given(b) ==> r == Some(b.value * factor as real)
    ensures !Given(b) ==> r.None?
  {
    if Given(b) then Some(b.value * factor as real) else None
  }

  /**
   * One entry of the batch result: a rendered blob with the bounds that were
   * requested (not the dimensions obtained), or the error message.
   */
  datatype SizeEntry<B> =
    | Rendered(size: int, blob: B, width: Option<real>, height: Option<real>)
    | Failed(size: int, error: string)

  /** The entry the batch records for one factor, given what rendering at that factor produced. */
  function EntryFor<B>(factor: int, maxWidth: Option<real>, maxHeight: Option<real>, outcome: Result<B>): (e: SizeEntry<B>)
    ensures e.size == factor
    ensures e.Rendered? <==> outcome.Ok?
    ensures e.Rendered? ==>
              e.blob == outcome.value && e.width == ScaledBound(maxWidth, factor) && e.height == ScaledBound(maxHeight, factor)
    ensures e.Failed? ==> e.error == outcome.message
  {
    match outcome
    case Ok(blob) => Rendered(factor, blob, ScaledBound(maxWidth, factor), ScaledBound(maxHeight, factor))
    case Err(message) => Failed(factor, message)
  }

  /**
   * `processImageMultipleSizes`: every factor is rendered in order, each
   * with its own scaled bounds; a failure is recorded as an entry and the
   * remaining factors still run. `render` stands for `processImage` on the
   * same file and options with the given bounds.
   */
  method ProcessMultipleSizes<B>(factors: seq<int>, maxWidth: Option<real>, maxHeight: Option<real>,
                                 render: (Option<real>, Option<real>) -> Result<B>)
    returns (results: seq<SizeEntry<B>>)
    ensures |results| == |factors|
    ensures forall i :: 0 <= i < |factors| ==> results[i].size == factors[i]
    ensures forall i :: 0 <= i < |factors| ==>
              var outcome := render(ScaledBound(maxWidth, factors[i]), ScaledBound(maxHeight, factors[i]));
              && (results[i].Rendered? <==> outcome.Ok?)
              && (results[i].Rendered? ==>
                    && results[i].blob == outcome.value
                    && results[i].width == ScaledBound(maxWidth, factors[i])
                    && results[i].height == ScaledBound(maxHeight, factors[i]))
              && (results[i].Failed? ==> results[i].error == outcome.message)
  {
    results := [];
    var k := 0;
    while k < |factors|
      invariant 0 <= k <= |factors|
      invariant |results| == k
      invariant forall i :: 0 <= i < k ==>
                  results[i] == EntryFor(factors[i], maxWidth, maxHeight,
                                         render(ScaledBound(maxWidth, factors[i]), ScaledBound(maxHeight, factors[i])))
    {
      var outcome := render(ScaledBound(maxWidth, factors[k]), ScaledBound(maxHeight, factors[k]));
      results := results + [EntryFor(factors[k], maxWidth, maxHeight, outcome)];
      k := k + 1;
    }
  }
}

=== FILE: file_names.dfy ===
/**
 * File names for the multi-size download of the public build: the chosen
 * scale factors, and the `name@2x.ext` naming rule.
 */
module FileNames {
  import opened Common
  import opened Strings
  import opened Numbers

  /** `baseName.split('.').pop()`: the text after the last dot, or the whole name when there is none. */
  function Extension(baseName: string): (r: string)
    ensures '.' !in r
    ensures |r| <= |baseName| && baseName[|baseName| - |r|..] == r
    ensures '.' !in baseName ==> r == baseName
  {
    LastField(baseName, '.')
  }

  /** The name with the first occurrence of `.` + extension removed. */
  function Stem(baseName: string): (r: string)
    ensures FindFrom(baseName, "." + Extension(baseName), 0).None? ==> r == baseName
  {
    ReplaceFirst(baseName, "." + Extension(baseName), "")
  }

  /** `generateFileName`: factor 1 keeps the name; any other factor inserts `@<factor>x` before the extension. */
  function GenerateFileName(baseName: string, size: int): (r: string)
    ensures size == 1 ==> r == baseName
    ensures size != 1 ==> r == Stem(baseName) + "@" + IntToString(size) + "x." + Extension(baseName)
  {
    if size == 1 then baseName
    else Stem(baseName) + "@" + IntToString(size) + "x." + Extension(baseName)
  }

  /** The extension of `stem.ext` is `ext` whenever `ext` has no dot. */
  lemma ExtensionOfJoin(stem: string, ext: string)
    requires '.' !in ext
    ensures Extension(stem + "." + ext) == ext
  {
    var s := stem + "." + ext;
    var r := Extension(s);
    assert s[|stem|] == '.';
    assert s[|s| - |ext|..] == ext;
  }

  /**
   * For a dot-free stem and extension, the generated name splits the name
   * back into its two halves: `stem.ext` at factor n (not 1) is
   * `stem@nx.ext`.
   */
  lemma GenerateFileNameOfJoin(stem: string, ext: string, size: int)
    requires '.' !in stem && '.' !in ext
    requires size != 1
    ensures GenerateFileName(stem + "." + ext, size) == stem + "@" + IntToString(size) + "x." + ext
  {
    var s := stem + "." + ext;
    ExtensionOfJoin(stem, ext);
    var pat := "." + ext;
    assert s[|stem|..|stem| + |pat|] == pat;
    forall j | 0 <= j < |stem| ensures !OccursAt(s, pat, j) {
      assert s[j] == stem[j];
    }
    FindFirst(s, pat, |stem|);
    assert s[..|stem|] == stem;
    assert s[|stem| + |pat|..] == [];
    assert Stem(s) == s[..|stem|] + "" + s[|stem| + |pat|..];
    assert Stem(s) == stem;
  }

  /** `photo.png` at factor 2 is `photo@2x.png`; at factor 1 it is unchanged. */
  lemma GenerateFileNamePlain()
    ensures GenerateFileName("photo.png", 2) == "photo@2x.png"
    ensures GenerateFileName("photo.png", 1) == "photo.png"
  {
    assert "photo" + "." + "png" == "photo.png";
    GenerateFileNameOfJoin("photo", "png", 2);
    assert IntToString(2) == "2";
  }

  /** Only the first `.png` is removed: `x.png.png` at factor 3 is `x.png@3x.png`. */
  lemma GenerateFileNameDoubledExtension()
    ensures GenerateFileName("x.png.png", 3) == "x.png@3x.png"
  {
    DoubledExtensionParts();
    assert IntToString(3) == "3";
  }

  lemma DoubledExtensionParts()
    ensures Extension("x.png.png") == "png" && Stem("x.png.png") == "x.png"
  {
    DoubledExtension();
    FirstPngAtOne();
    var s := "x.png.png";
    assert Stem(s) == s[..1] + "" + s[5..];
  }

  lemma DoubledExtension()
    ensures Extension("x.png.png") == "png"
  {
    assert "x.png.png" == "x.png" + "." + "png";
    ExtensionOfJoin("x.png", "png");
  }

  lemma FirstPngAtOne()
    ensures FindFrom("x.png.png", ".png", 0) == Some(1)
  {
    var s := "x.png.png";
    assert OccursAt(s, ".png", 1) by { assert s[1..5] == ".png"; }
    assert !OccursAt(s, ".png", 0) by { assert s[0] != '.'; }
    FindFirst(s, ".png", 1);
  }

  /**
   * A name without a dot is its own extension and its own stem, so the
   * factor is appended and the whole name repeated: `README` at factor 2
   * is `README@2x.README`.
   */
  lemma GenerateFileNameNoDot(name: string, size: int)
    requires '.' !in name && size != 1
    ensures GenerateFileName(name, size) == name + "@" + IntToString(size) + "x." + name
  {
    assert Extension(name) == name;
    var pat := "." + name;
    assert FindFrom(name, pat, 0).None?;
  }

  /**
   * `getSelectedSizes`: each checkbox is absent (`None`) or present with its
   * checked state; the checked factors come out in ascending order.
   */
  function GetSelectedSizes(size1x: Option<bool>, size2x: Option<bool>, size3x: Option<bool>): (r: seq<int>)
    ensures 1 in r <==> size1x == Some(true)
    ensures 2 in r <==> size2x == Some(true)
    ensures 3 in r <==> size3x == Some(true)
    ensures forall i :: 0 <= i < |r| ==> 1 <= r[i] <= 3
    ensures forall i, j :: 0 <= i < j < |r| ==> r[i] < r[j]
  {
    (if size1x == Some(true) then [1] else []) +
    (if size2x == Some(true) then [2] else []) +
    (if size3x == Some(true) then [3] else [])
  }
}

=== FILE: geometry.dfy ===
/**
 * Pixel geometry shared by the crop engine and the rendering pipeline.
 * Browser sizes are fractional, so coordinates are `real`.
 */
module Geometry {

  /** A width and height, as measured on an element or decoded from an image. */
  datatype Size = Size(width: real, height: real)

  /** An axis-aligned rectangle: the crop box, or a region of the source image. */
  datatype Rect = Rect(x: real, y: real, width: real, height: real)

  /** The rectangle lies entirely within a `width` × `height` surface anchored at the origin. */
  predicate Inside(r: Rect, width: real, height: real) {
    && 0.0 <= r.x && 0.0 <= r.y
    && r.x + r.width <= width
    && r.y + r.height <= height
  }

  /** Width and height are in the same proportion as `w` to `h`. */
  predicate SameAspect(width: real, height: real, w: real, h: real) {
    width * h == height * w
  }
}

=== FILE: image_info.dfy ===
/**
 * The information panel of the src build: the format named by a data URL's
 * prefix, the byte estimate of a base64 data URL, the compression ratio
 * between two images, and the summary shown before a work is saved.
 *
 * Image arguments are `Option<string>`: `None` stands for `null` or
 * `undefined`; together with the empty string these are the falsy values
 * the panel ignores. Image dimensions come from the browser and are passed
 * through as parameters.
 */
module ImageInfo {
  import opened Common
  import opened Strings
  import opened Settings

  predicate Present(image: Option<string>) {
    image.Some? && image.value != ""
  }

  /** The subtypes recognised by prefix, in the order they are tried. */
  const KnownFormats: seq<string> := ["jpeg", "png", "webp", "gif"]

  /** `extractFormatFromBase64`: the first known subtype the string starts with after `data:image/`. */
  function ExtractFormat(s: string): (r: string)
    ensures r == "unknown" || r in KnownFormats
    ensures r != "unknown" ==> StartsWith(s, "data:image/" + r)
    ensures r == "unknown" ==> forall k :: 0 <= k < |KnownFormats| ==> !StartsWith(s, "data:image/" + KnownFormats[k])
  {
    if StartsWith(s, "data:image/jpeg") then "jpeg"
    else if StartsWith(s, "data:image/png") then "png"
    else if StartsWith(s, "data:image/webp") then "webp"
    else if StartsWith(s, "data:image/gif") then "gif"
    else "unknown"
  }

  /** A data URL whose media type is one of the known subtypes is reported as that subtype. */
  lemma ExtractFormatOfDataUrl(subtype: string, rest: string)
    requires subtype in KnownFormats
    ensures ExtractFormat("data:image/" + subtype + rest) == subtype
  {
    var s := "data:image/" + subtype + rest;
    assert s[..|"data:image/" + subtype|] == "data:image/" + subtype;
    assert StartsWith(s, "data:image/" + subtype);
    // No known subtype is a prefix of another one, so the earlier tests fail.
    if subtype != "jpeg" { assert s[11] != 'j'; assert !StartsWith(s, "data:image/jpeg"); }
    if subtype == "webp" || subtype == "gif" { assert s[11] != 'p'; assert !StartsWith(s, "data:image/png"); }
    if subtype == "gif" { assert s[11] != 'w'; assert !StartsWith(s, "data:image/webp"); }
  }

  /** `image/jpg` is not recognised: only the exact `jpeg` spelling is. */
  lemma JpgIsUnknown()
    ensures ExtractFormat("data:image/jpg;base64,") == "unknown"
  {
    var s := "data:image/jpg;base64,";
    assert s[13] != 'e';
    assert !StartsWith(s, "data:image/jpeg");
    assert s[11] != 'p' && s[11] != 'w' && s[11] != 'g';
  }

  /** `Math.ceil(length * 3 / 4)`: the bytes a base64 text of that length stands for, rounded up. */
  function EstimatedBytes(length: nat): (r: nat)
    ensures 4 * r >= 3 * length
    ensures 4 * r < 3 * length + 4
  {
    (3 * length + 3) / 4
  }

  /** A longer text never gives a smaller estimate. */
  lemma EstimatedBytesMonotone(a: nat, b: nat)
    requires a <= b
    ensures EstimatedBytes(a) <= EstimatedBytes(b)
  {
  }

  /**
   * The compression ratio in percent, before its one-decimal formatting.
   * It exists only when an original is given; it is positive exactly when
   * the processed image is estimated smaller and zero exactly when the two
   * estimates agree.
   */
  function CompressionRatio(processed: string, original: Option<string>): (r: Option<real>)
    ensures r.Some? <==> Present(original)
    ensures r.Some? ==> (r.value > 0.0 <==> EstimatedBytes(|processed|) < EstimatedBytes(|original.value|))
    ensures r.Some? ==> (r.value == 0.0 <==> EstimatedBytes(|processed|) == EstimatedBytes(|original.value|))
    ensures r.Some? ==> r.value <= 100.0
  {
    if !Present(original) then None
    else
      var ob := EstimatedBytes(|original.value|) as real;
      var pb := EstimatedBytes(|processed|) as real;
      RatioFacts(ob, pb);
      Some((ob - pb) / ob * 100.0)
  }

  lemma RatioFacts(ob: real, pb: real)
    requires ob >= 1.0 && pb >= 0.0
    ensures (ob - pb) / ob * 100.0 > 0.0 <==> pb < ob
    ensures (ob - pb) / ob * 100.0 == 0.0 <==> pb == ob
    ensures (ob - pb) / ob * 100.0 <= 100.0
  {
    var q := (ob - pb) / ob;
    assert q * ob == ob - pb;
  }

  /**
   * What the panel shows for one image, before formatting: the byte count
   * before it is turned into kilobytes, and the format before it is
   * upper-cased for display.
   */
  datatype Info = Info(width: int, height: int, bytes: nat, format: string, ratio: Option<real>)

  /** `updateOriginalImageInfo`: nothing for a falsy image. */
  function OriginalImageInfo(image: Option<string>, width: int, height: int): (r: Option<Info>)
    ensures r.None? <==> !Present(image)
    ensures r.Some? ==> r.value.bytes == EstimatedBytes(|image.value|) && r.value.format == ExtractFormat(image.value)
    ensures r.Some? ==> r.value.ratio.None? && r.value.width == width && r.value.height == height
  {
    if !Present(image) then None
    else Some(Info(width, height, EstimatedBytes(|image.value|), ExtractFormat(image.value), None))
  }

  /** `updateProcessedImageInfo`: nothing for a falsy processed image; a ratio only against a present original. */
  function ProcessedImageInfo(processed: Option<string>, original: Option<string>, width: int, height: int): (r: Option<Info>)
    ensures r.None? <==> !Present(processed)
    ensures r.Some? ==> r.value.bytes == EstimatedBytes(|processed.value|) && r.value.format == ExtractFormat(processed.value)
    ensures r.Some? ==> (r.value.ratio.Some? <==> Present(original))
  {
    if !Present(processed) then None
    else Some(Info(width, height, EstimatedBytes(|processed.value|), ExtractFormat(processed.value),
                   CompressionRatio(processed.value, original)))
  }

  /** Comparing an image with itself gives a ratio of exactly 0. */
  lemma SameImageZeroRatio(image: string)
    requires image != ""
    ensures CompressionRatio(image, Some(image)) == Some(0.0)
  {
  }

  /** The three lines of the save summary. */
  datatype Preview = Preview(original: string, processed: string, settings: string)

  const Has: string := "있음"
  const HasNot: string := "없음"
  const OriginalFormatText: string := "원본 형식"

  /**
   * `updateSaveWorkPreview`: presence of each image by truthiness; the
   * format or `원본 형식`; a quality note only when the JPEG or WebP quality
   * is truthy, JPEG first. `settings` is `None` for a missing object.
   */
  function SaveWorkPreview(originalImage: Value, processedImage: Value, settings: Option<SavedSettings>): (r: Preview)
    ensures r.original == (if originalImage.Truthy() then Has else HasNot)
    ensures r.processed == (if processedImage.Truthy() then Has else HasNot)
    ensures settings.None? ==> r.settings == OriginalFormatText
    ensures settings.Some? && settings.value.jpegQuality.Truthy() ==>
      r.settings == FormatText(settings) + (" (품질: " + settings.value.jpegQuality.AsText() + "%)")
    ensures settings.Some? && !settings.value.jpegQuality.Truthy() && settings.value.webpQuality.Truthy() ==>
      r.settings == FormatText(settings) + (" (품질: " + settings.value.webpQuality.AsText() + "%)")
    ensures settings.Some? && !settings.value.jpegQuality.Truthy() && !settings.value.webpQuality.Truthy() ==>
      r.settings == FormatText(settings)
  {
    var quality := if settings.None? then Undefined
                   else if settings.value.jpegQuality.Truthy() then settings.value.jpegQuality
                   else settings.value.webpQuality;
    var qualityText := if quality.Truthy() then " (품질: " + quality.AsText() + "%)" else "";
    Preview(if originalImage.Truthy() then Has else HasNot,
            if processedImage.Truthy() then Has else HasNot,
            FormatText(settings) + qualityText)
  }

  /** `settings?.format || '원본 형식'`. */
  function FormatText(settings: Option<SavedSettings>): (r: string)
    ensures settings.Some? && settings.value.format.Truthy() ==> r == settings.value.format.AsText()
    ensures !(settings.Some? && settings.value.format.Truthy()) ==> r == OriginalFormatText
  {
    if settings.Some? && settings.value.format.Truthy() then settings.value.format.AsText() else OriginalFormatText
  }
}

=== FILE: numbers.dfy ===
/**
 * `parseInt(text, 10)` and the decimal rendering JavaScript uses when it
 * turns an integer into text (`String(v)`, `` `${v}` ``, assignment of a
 * number to an input's `value`).
 */
module Numbers {
  import opened Common
  import opened Strings

  predicate IsDigit(c: char) {
    '0' <= c <= '9'
  }

  function DigitValue(c: char): (r: nat)
    requires IsDigit(c)
    ensures r < 10
  {
    c as int - '0' as int
  }

  function DigitChar(d: nat): (c: char)
    requires d < 10
    ensures IsDigit(c) && DigitValue(c) == d
  {
    ('0' as int + d) as char
  }

  /** The longest prefix of `s` made of decimal digits. */
  function DigitPrefix(s: string): (r: string)
    ensures |r| <= |s| && s[..|r|] == r
    ensures forall i :: 0 <= i < |r| ==> IsDigit(r[i])
    ensures |r| < |s| ==> !IsDigit(s[|r|])
  {
    if |s| > 0 && IsDigit(s[0]) then [s[0]] + DigitPrefix(s[1..]) else []
  }

  /** The value of a string of decimal digits, most significant first. */
  function DigitsValue(d: string): nat
    requires forall i :: 0 <= i < |d| ==> IsDigit(d[i])
  {
    if |d| == 0 then 0 else DigitsValue(d[..|d| - 1]) * 10 + DigitValue(d[|d| - 1])
  }

  /**
   * `parseInt(s, 10)`: leading white space is skipped, one optional sign is
   * read, then the longest run of digits; no digits at all gives `NaN`, and
   * whatever follows the digits is ignored.
   */
  function ParseInt(s: string): JsInt {
    var t := TrimStart(s);
    var negative := |t| > 0 && t[0] == '-';
    var body := if |t| > 0 && (t[0] == '-' || t[0] == '+') then t[1..] else t;
    var digits := DigitPrefix(body);
    if |digits| == 0 then NaN
    else Int(if negative then -(DigitsValue(digits) as int) else DigitsValue(digits))
  }

  /** Decimal rendering of a natural number, without leading zeros. */
  function NatToString(n: nat): (r: string)
    ensures |r| > 0
    ensures forall i :: 0 <= i < |r| ==> IsDigit(r[i])
    ensures DigitsValue(r) == n
  {
    if n < 10 then [DigitChar(n)]
    else
      var r := NatToString(n / 10) + [DigitChar(n % 10)];
      assert r[..|r| - 1] == NatToString(n / 10);
      r
  }

  /** `String(v)` for an integer `v`. */
  function IntToString(v: int): (r: string)
    ensures |r| > 0 && !IsSpace(r[0])
  {
    if v < 0 then "-" + NatToString(-v) else NatToString(v)
  }

  lemma DigitPrefixOfDigits(d: string, rest: string)
    requires forall i :: 0 <= i < |d| ==> IsDigit(d[i])
    requires |rest| > 0 ==> !IsDigit(rest[0])
    ensures DigitPrefix(d + rest) == d
  {
    var s := d + rest;
    assert forall i :: 0 <= i < |d| ==> IsDigit(s[i]) by {
      forall i | 0 <= i < |d| ensures IsDigit(s[i]) { assert s[i] == d[i]; }
    }
    assert |d| < |s| ==> s[|d|] == rest[0];
    DigitPrefixUpTo(s, |d|);
    assert s[..|d|] == d;
  }

  /** A run of `n` digits ended by a non-digit, or by the end of the text, is the digit prefix. */
  lemma DigitPrefixUpTo(s: string, n: nat)
    requires n <= |s| && forall i :: 0 <= i < n ==> IsDigit(s[i])
    requires n < |s| ==> !IsDigit(s[n])
    ensures DigitPrefix(s) == s[..n]
  {
    var r := DigitPrefix(s);
    assert |r| >= n;
    assert forall i :: 0 <= i < |r| ==> IsDigit(s[i]) by {
      forall i | 0 <= i < |r| ensures IsDigit(s[i]) { assert r[i] == s[i]; }
    }
  }

  /**
   * Rendering an integer and reading it back with `parseInt` gives the same
   * integer, also when other text (not starting with a digit) follows.
   */
  lemma {:induction false} ParseIntOfIntToString(v: int, rest: string)
    requires |rest| > 0 ==> !IsDigit(rest[0])
    ensures ParseInt(IntToString(v) + rest) == Int(v)
  {
    if v < 0 {
      assert IntToString(v) + rest == "-" + (NatToString(-v) + rest);
      ParseIntOfNegative(NatToString(-v), rest);
    } else {
      ParseIntOfUnsigned(NatToString(v), rest);
    }
  }

  /** `parseInt` of a run of digits followed by a tail that does not start with a digit. */
  lemma ParseIntOfUnsigned(d: string, rest: string)
    requires |d| > 0 && forall i :: 0 <= i < |d| ==> IsDigit(d[i])
    requires |rest| > 0 ==> !IsDigit(rest[0])
    ensures ParseInt(d + rest) == Int(DigitsValue(d))
  {
    DigitPrefixOfDigits(d, rest);
    ParseIntOfLeadingDigits(d + rest, d);
  }

  /** The same after a minus sign. */
  lemma ParseIntOfNegative(d: string, rest: string)
    requires |d| > 0 && forall i :: 0 <= i < |d| ==> IsDigit(d[i])
    requires |rest| > 0 ==> !IsDigit(rest[0])
    ensures ParseInt("-" + (d + rest)) == Int(-(DigitsValue(d) as int))
  {
    DigitPrefixOfDigits(d, rest);
    ParseIntAfterMinus(d + rest, d);
  }

  lemma PrefixStartsWithDigit(t: string, d: string)
    requires |d| > 0 && DigitPrefix(t) == d
    ensures |t| > 0 && IsDigit(t[0])
  {
    assert t[0] == d[0];
  }

  /** A text that starts with a run of digits is read as that run. */
  lemma ParseIntOfLeadingDigits(s: string, d: string)
    requires |d| > 0 && DigitPrefix(s) == d
    ensures ParseInt(s) == Int(DigitsValue(d))
  {
    PrefixStartsWithDigit(s, d);
    TrimStartKeeps(s);
    assert s[0] != '-' && s[0] != '+';
  }

  /** A minus sign followed by a run of digits is read as that run, negated. */
  lemma ParseIntAfterMinus(t: string, d: string)
    requires |d| > 0 && DigitPrefix(t) == d
    ensures ParseInt("-" + t) == Int(-(DigitsValue(d) as int))
  {
    var s := "-" + t;
    assert s[0] == '-' && !IsSpace(s[0]);
    ParseIntUntrimmed(s);
    assert s[1..] == t;
  }

  /** A text that does not start with white space is read without trimming. */
  lemma ParseIntUntrimmed(s: string)
    requires |s| > 0 && !IsSpace(s[0])
    ensures var body := if s[0] == '-' || s[0] == '+' then s[1..] else s;
            var digits := DigitPrefix(body);
            ParseInt(s) == if |digits| == 0 then NaN
                           else Int(if s[0] == '-' then -(DigitsValue(digits) as int) else DigitsValue(digits))
  {
    assert TrimStart(s) == s;
  }

  lemma TrimStartKeeps(s: string)
    requires |s| > 0 && !IsSpace(s[0])
    ensures TrimStart(s) == s
  {
    assert LeadingBlanks(s) == 0;
    assert s[0..] == s;
  }

  lemma ParseIntOfIntToStringAlone(v: int)
    ensures ParseInt(IntToString(v)) == Int(v)
  {
    ParseIntOfIntToString(v, "");
    assert IntToString(v) + "" == IntToString(v);
  }

  /** `parseInt("")` and any text without digits is `NaN`. */
  lemma ParseIntEmpty()
    ensures ParseInt("") == NaN
  {
  }
}

=== FILE: page_controls.dfy ===
/**
 * The option controls both application builds read before processing:
 * the format menu, the three range sliders and the two maximum-size text
 * fields. A range slider always holds a whole number, so its value is an
 * `int` here; the size fields hold free text and go through `parseInt`.
 */
module PageControls {
  import opened Common
  import opened Numbers

  datatype Controls = Controls(
    format: string,
    jpegSlider: int,
    pngSlider: int,
    webpSlider: int,
    maxWidth: string,
    maxHeight: string)

  /**
   * `parseInt(text) || null`: a bound exists exactly when the text starts
   * with a non-zero integer, and it is never 0.
   */
  function ParseBound(text: string): (r: Option<real>)
    ensures r.Some? <==> ParseInt(text).Int? && ParseInt(text).v != 0
    ensures r.Some? ==> r.value == ParseInt(text).v as real && r.value != 0.0
  {
    if ParseInt(text).Truthy() then Some(ParseInt(text).v as real) else None
  }

  /** A non-zero integer typed into a size field becomes exactly that bound. */
  lemma ParseBoundOfInt(n: int)
    requires n != 0
    ensures ParseBound(IntToString(n)) == Some(n as real)
  {
    ParseIntOfIntToStringAlone(n);
  }

  /** An empty field and a typed `0` both mean "no bound". */
  lemma NoBoundTexts()
    ensures ParseBound("") == None
    ensures ParseBound("0") == None
  {
    assert IntToString(0) == "0";
    ParseIntOfIntToStringAlone(0);
  }
}

=== FILE: settings.dfy ===
/**
 * The settings manager of the src build: the rules that keep the JPEG,
 * PNG and WebP controls consistent while the user types or drags, the
 * snapshot of the form that is stored with a work, and the guarded
 * application of such a snapshot back onto the form.
 *
 * The form is a record of the element values, which are text. Assigning a
 * number to an element's `value` stores its decimal rendering. Each event
 * handler becomes a function from state to state that also reports whether
 * it committed, that is, triggered an autosave and a reprocess.
 */
module Settings {
  import opened Common
  import opened Strings
  import opened Numbers

  /** A quality control: the range slider, the number input beside it and the text label. */
  datatype Control = Control(slider: string, input: string, caption: string)

  datatype Form = Form(
    format: string,
    jpeg: Control,
    png: Control,
    webp: Control,
    webpTransparency: bool,
    maxWidth: string,
    maxHeight: string,
    size1x: bool,
    size2x: bool,
    size3x: bool)

  datatype State = State(form: Form, lastValidJpegQuality: int)

  /** The state after an event, and whether the handler committed the change. */
  datatype Step = Step(state: State, committed: bool)

  /** `text || fallback` on strings. */
  function OrText(text: string, fallback: string): (r: string)
    ensures text != "" ==> r == text
    ensures text == "" ==> r == fallback
  {
    if text != "" then text else fallback
  }

  /** `v + '%'` */
  function Percent(v: int): string {
    IntToString(v) + "%"
  }

  /**
   * The initial last valid JPEG quality, read from the slider: an empty
   * slider reads as 80, an unreadable one gives 80, anything else is
   * clamped to [1, 100].
   */
  function InitialLastValid(slider: string): (r: int)
    ensures 1 <= r <= 100
    ensures ParseInt(OrText(slider, "80")).NaN? ==> r == 80
    ensures ParseInt(slider).Int? && 1 <= ParseInt(slider).v <= 100 ==> r == ParseInt(slider).v
  {
    match ParseInt(OrText(slider, "80"))
    case NaN => 80
    case Int(v) => ClampI(v, 1, 100)
  }

  /** The slider's `input` handler for JPEG: `NaN` reads as 1, the value is clamped to [1, 100] and copied everywhere. */
  function JpegSliderInput(s: State): (r: Step)
    ensures r.committed
    ensures 1 <= r.state.lastValidJpegQuality <= 100
    ensures var v := r.state.lastValidJpegQuality;
            r.state.form == s.form.(jpeg := Control(IntToString(v), IntToString(v), Percent(v)))
    ensures ParseInt(s.form.jpeg.slider).Int? && 1 <= ParseInt(s.form.jpeg.slider).v <= 100 ==>
              r.state.lastValidJpegQuality == ParseInt(s.form.jpeg.slider).v
    ensures ParseInt(OrText(s.form.jpeg.slider, "0")).NaN? ==> r.state.lastValidJpegQuality == 1
  {
    ParseIntEmpty();
    var v := match ParseInt(OrText(s.form.jpeg.slider, "0")) case NaN => 1 case Int(n) => ClampI(n, 1, 100);
    Step(State(s.form.(jpeg := Control(IntToString(v), IntToString(v), Percent(v))), v), true)
  }

  /**
   * The number input's `input` handler for a quality in `[lo, hi]`: empty
   * text only shows `-`; unreadable text and values outside the range are
   * ignored; a value in range is copied to the slider and label and
   * committed. Returns the new control and the committed value, if any.
   */
  function TypeQuality(c: Control, lo: int, hi: int, suffix: string): (r: (Control, Option<int>))
    ensures c.input == "" ==> r == (c.(caption := "-"), None)
    ensures r.1.Some? <==> c.input != "" && ParseInt(c.input).Int? && lo <= ParseInt(c.input).v <= hi
    ensures r.1.Some? ==> r.1.value == ParseInt(c.input).v &&
                          r.0 == c.(slider := IntToString(r.1.value), caption := IntToString(r.1.value) + suffix)
    ensures c.input != "" && r.1.None? ==> r.0 == c
  {
    if c.input == "" then (c.(caption := "-"), None)
    else match ParseInt(c.input)
      case NaN => (c, None)
      case Int(v) =>
        if lo <= v <= hi then (c.(slider := IntToString(v), caption := IntToString(v) + suffix), Some(v))
        else (c, None)
  }

  function JpegTextInput(s: State): (r: Step)
    ensures var t := TypeQuality(s.form.jpeg, 1, 100, "%");
            r.committed == t.1.Some? &&
            r.state.form == s.form.(jpeg := t.0) &&
            r.state.lastValidJpegQuality == (if t.1.Some? then t.1.value else s.lastValidJpegQuality)
  {
    var t := TypeQuality(s.form.jpeg, 1, 100, "%");
    Step(State(s.form.(jpeg := t.0), if t.1.Some? then t.1.value else s.lastValidJpegQuality), t.1.Some?)
  }

  /**
   * The JPEG number input's `blur`/`change` handler: unreadable text falls
   * back to the last valid quality, then the value is clamped to [1, 100]
   * and written to input, slider, label and the last valid quality.
   */
  function JpegFinalize(s: State): (r: Step)
    ensures r.committed
    ensures var v := r.state.lastValidJpegQuality;
            r.state.form == s.form.(jpeg := Control(IntToString(v), IntToString(v), Percent(v)))
    ensures 1 <= r.state.lastValidJpegQuality <= 100
    ensures ParseInt(s.form.jpeg.input).NaN? ==> r.state.lastValidJpegQuality == ClampI(s.lastValidJpegQuality, 1, 100)
    ensures ParseInt(s.form.jpeg.input).Int? ==> r.state.lastValidJpegQuality == ClampI(ParseInt(s.form.jpeg.input).v, 1, 100)
  {
    var v := match ParseInt(s.form.jpeg.input) case NaN => s.lastValidJpegQuality case Int(n) => n;
    var c := ClampI(v, 1, 100);
    Step(State(s.form.(jpeg := Control(IntToString(c), IntToString(c), Percent(c))), c), true)
  }

  /** A second finalize changes nothing: the value the first one wrote reads back as itself. */
  lemma JpegFinalizeIdempotent(s: State)
    ensures JpegFinalize(JpegFinalize(s).state) == JpegFinalize(s)
  {
    var once := JpegFinalize(s).state;
    ParseIntOfIntToStringAlone(once.lastValidJpegQuality);
  }

  /** Typing a quality in range and leaving the field keeps exactly that quality. */
  lemma JpegTypeThenFinalize(s: State, v: int)
    requires 1 <= v <= 100
    ensures var typed := JpegTextInput(s.(form := s.form.(jpeg := s.form.jpeg.(input := IntToString(v)))));
            typed.committed && JpegFinalize(typed.state).state.lastValidJpegQuality == v
  {
    ParseIntOfIntToStringAlone(v);
  }

  /** `parseInt(text || fallback) || fallbackNumber` as the PNG and WebP finalizers write it. */
  function SliderOr(slider: string, fallback: string, fallbackNumber: int): (r: int)
    ensures ParseInt(OrText(slider, fallback)).Truthy() ==> r == ParseInt(OrText(slider, fallback)).v
    ensures !ParseInt(OrText(slider, fallback)).Truthy() ==> r == fallbackNumber
  {
    ParseInt(OrText(slider, fallback)).OrElse(fallbackNumber)
  }

  /**
   * The `blur`/`change` handler of a number input whose slider supplies the
   * fallback: unreadable text takes the slider's value (or the default when
   * the slider is empty, unreadable or 0), then the value is clamped to
   * `[lo, hi]` and written to input, slider and label.
   */
  function FinalizeFromSlider(c: Control, lo: int, hi: int, sliderDefault: string, defaultNumber: int, suffix: string): (r: (Control, int))
    requires lo <= hi
    ensures lo <= r.1 <= hi
    ensures r.0 == Control(IntToString(r.1), IntToString(r.1), IntToString(r.1) + suffix)
    ensures ParseInt(c.input).Int? ==> r.1 == ClampI(ParseInt(c.input).v, lo, hi)
    ensures ParseInt(c.input).NaN? ==> r.1 == ClampI(SliderOr(c.slider, sliderDefault, defaultNumber), lo, hi)
  {
    var v := match ParseInt(c.input) case NaN => SliderOr(c.slider, sliderDefault, defaultNumber) case Int(n) => n;
    var k := ClampI(v, lo, hi);
    (Control(IntToString(k), IntToString(k), IntToString(k) + suffix), k)
  }

  lemma FinalizeFromSliderIdempotent(c: Control, lo: int, hi: int, sliderDefault: string, defaultNumber: int, suffix: string)
    requires lo <= hi
    ensures var once := FinalizeFromSlider(c, lo, hi, sliderDefault, defaultNumber, suffix);
            FinalizeFromSlider(once.0, lo, hi, sliderDefault, defaultNumber, suffix) == once
  {
    var once := FinalizeFromSlider(c, lo, hi, sliderDefault, defaultNumber, suffix);
    ParseIntOfIntToStringAlone(once.1);
    assert ParseInt(once.0.input) == Int(once.1);
    assert ClampI(once.1, lo, hi) == once.1;
  }

  /** PNG slider `input`: the label and the number input show the slider's text. */
  function PngSliderInput(s: State): (r: Step)
    ensures r.committed
    ensures r.state == s.(form := s.form.(png := s.form.png.(input := s.form.png.slider, caption := s.form.png.slider)))
  {
    Step(s.(form := s.form.(png := s.form.png.(input := s.form.png.slider, caption := s.form.png.slider))), true)
  }

  function PngTextInput(s: State): (r: Step)
    ensures var t := TypeQuality(s.form.png, 0, 9, "");
            r == Step(s.(form := s.form.(png := t.0)), t.1.Some?)
  {
    var t := TypeQuality(s.form.png, 0, 9, "");
    Step(s.(form := s.form.(png := t.0)), t.1.Some?)
  }

  /**
   * PNG finalize: unreadable text takes the slider's level, and 6 when the
   * slider is empty, unreadable or at level 0 (0 is falsy); the level is
   * clamped to [0, 9].
   */
  function PngFinalize(s: State): (r: Step)
    ensures r.committed
    ensures var k := FinalizeFromSlider(s.form.png, 0, 9, "6", 6, "").1;
            0 <= k <= 9 && r.state.form.png.input == IntToString(k)
    ensures r.state == s.(form := s.form.(png := FinalizeFromSlider(s.form.png, 0, 9, "6", 6, "").0))
  {
    var f := FinalizeFromSlider(s.form.png, 0, 9, "6", 6, "");
    Step(s.(form := s.form.(png := f.0)), true)
  }

  /** With unreadable text and the slider at 0, PNG finalize picks 6 rather than 0. */
  lemma PngFinalizeZeroSlider()
    ensures FinalizeFromSlider(Control("0", "", "0"), 0, 9, "6", 6, "").1 == 6
  {
    assert ParseInt("").NaN?;
    assert ParseInt("0") == Int(0) by { ParseIntOfIntToStringAlone(0); }
  }

  function WebpSliderInput(s: State): (r: Step)
    ensures r.committed
    ensures r.state == s.(form := s.form.(webp := s.form.webp.(input := s.form.webp.slider, caption := s.form.webp.slider + "%")))
  {
    Step(s.(form := s.form.(webp := s.form.webp.(input := s.form.webp.slider, caption := s.form.webp.slider + "%"))), true)
  }

  function WebpTextInput(s: State): (r: Step)
    ensures var t := TypeQuality(s.form.webp, 1, 100, "%");
            r == Step(s.(form := s.form.(webp := t.0)), t.1.Some?)
  {
    var t := TypeQuality(s.form.webp, 1, 100, "%");
    Step(s.(form := s.form.(webp := t.0)), t.1.Some?)
  }

  /** WebP finalize: unreadable text takes the slider's quality or 80, clamped to [1, 100]. */
  function WebpFinalize(s: State): (r: Step)
    ensures r.committed
    ensures r.state == s.(form := s.form.(webp := FinalizeFromSlider(s.form.webp, 1, 100, "80", 80, "%").0))
  {
    var f := FinalizeFromSlider(s.form.webp, 1, 100, "80", 80, "%");
    Step(s.(form := s.form.(webp := f.0)), true)
  }

  // ---------------------------------------------------------------------
  // Snapshot and restore
  // ---------------------------------------------------------------------

  /** A JSON value as stored with a work; `Undefined` is a missing field. */
  datatype Value = Undefined | Str(s: string) | Num(n: int) | Bool(b: bool)
  {
    predicate Truthy() {
      match this
      case Undefined => false
      case Str(s) => s != ""
      case Num(n) => n != 0
      case Bool(b) => b
    }

    /** The text an element's `value` holds after the value is assigned to it. */
    function AsText(): string {
      match this
      case Undefined => "undefined"
      case Str(s) => s
      case Num(n) => IntToString(n)
      case Bool(b) => if b then "true" else "false"
    }
  }

  datatype SizeOptions = SizeOptions(size1x: Value, size2x: Value, size3x: Value)

  datatype SavedSettings = SavedSettings(
    format: Value,
    jpegQuality: Value,
    pngCompression: Value,
    webpQuality: Value,
    webpTransparency: Value,
    maxWidth: Value,
    maxHeight: Value,
    sizeOptions: Option<SizeOptions>)

  /** `text || fallback` where the fallback is a number. */
  function TextOrNum(text: string, fallback: int): (r: Value)
    ensures text != "" ==> r == Str(text)
    ensures text == "" ==> r == Num(fallback)
    ensures r.Truthy() <==> text != "" || fallback != 0
  {
    if text != "" then Str(text) else Num(fallback)
  }

  /**
   * `getCurrentSettings`: empty fields fall back to `original`, 80, 6 and
   * 80; the 1x size is always reported as checked, because `checked ||
   * true` is always true.
   */
  function GetCurrentSettings(f: Form): (r: SavedSettings)
    ensures r.format == Str(if f.format == "" then "original" else f.format)
    ensures r.jpegQuality == TextOrNum(f.jpeg.slider, 80)
    ensures r.pngCompression == TextOrNum(f.png.slider, 6)
    ensures r.webpQuality == TextOrNum(f.webp.slider, 80)
    ensures r.sizeOptions == Some(SizeOptions(Bool(true), Bool(f.size2x), Bool(f.size3x)))
    ensures r.format.Truthy() && r.jpegQuality.Truthy() && r.pngCompression.Truthy() && r.webpQuality.Truthy()
  {
    SavedSettings(Str(OrText(f.format, "original")),
                  TextOrNum(f.jpeg.slider, 80), TextOrNum(f.png.slider, 6), TextOrNum(f.webp.slider, 80),
                  Bool(f.webpTransparency), Str(f.maxWidth), Str(f.maxHeight),
                  Some(SizeOptions(Bool(true), Bool(f.size2x), Bool(f.size3x))))
  }

  /** `if (value !== undefined) checkbox.checked = value` */
  function SetChecked(current: bool, v: Value): (r: bool)
    ensures v.Undefined? ==> r == current
    ensures !v.Undefined? ==> r == v.Truthy()
  {
    if v.Undefined? then current else v.Truthy()
  }

  /** `if (value !== undefined) field.value = value` */
  function SetText(current: string, v: Value): (r: string)
    ensures v.Undefined? ==> r == current
    ensures !v.Undefined? ==> r == v.AsText()
  {
    if v.Undefined? then current else v.AsText()
  }

  /**
   * `applySettings`: format and the three qualities are applied only when
   * truthy, so a stored 0 or empty text leaves the control as it is; the
   * JPEG quality also resets the last valid quality to its integer value,
   * or 80 when that is 0 or unreadable. The transparency, the bounds and
   * each size option are applied whenever they are present, the size
   * options only when the group is present.
   */
  function ApplySettings(s: State, v: SavedSettings): (r: State)
    ensures r.form.format == (if v.format.Truthy() then v.format.AsText() else s.form.format)
    ensures v.jpegQuality.Truthy() ==>
              r.form.jpeg == Control(v.jpegQuality.AsText(), v.jpegQuality.AsText(), v.jpegQuality.AsText() + "%") &&
              r.lastValidJpegQuality == ParseInt(v.jpegQuality.AsText()).OrElse(80)
    ensures !v.jpegQuality.Truthy() ==> r.form.jpeg == s.form.jpeg && r.lastValidJpegQuality == s.lastValidJpegQuality
    ensures r.form.png == (if v.pngCompression.Truthy() then
                             Control(v.pngCompression.AsText(), v.pngCompression.AsText(), v.pngCompression.AsText())
                           else s.form.png)
    ensures r.form.webp == (if v.webpQuality.Truthy() then
                              Control(v.webpQuality.AsText(), v.webpQuality.AsText(), v.webpQuality.AsText() + "%")
                            else s.form.webp)
    ensures r.form.webpTransparency == SetChecked(s.form.webpTransparency, v.webpTransparency)
    ensures r.form.maxWidth == SetText(s.form.maxWidth, v.maxWidth)
    ensures r.form.maxHeight == SetText(s.form.maxHeight, v.maxHeight)
    ensures v.sizeOptions.None? ==> r.form.size1x == s.form.size1x && r.form.size2x == s.form.size2x && r.form.size3x == s.form.size3x
    ensures v.sizeOptions.Some? ==>
              && r.form.size1x == SetChecked(s.form.size1x, v.sizeOptions.value.size1x)
              && r.form.size2x == SetChecked(s.form.size2x, v.sizeOptions.value.size2x)
              && r.form.size3x == SetChecked(s.form.size3x, v.sizeOptions.value.size3x)
  {
    var f := s.form;
    var format := if v.format.Truthy() then v.format.AsText() else f.format;
    var jq := v.jpegQuality.AsText();
    var jpeg := if v.jpegQuality.Truthy() then Control(jq, jq, jq + "%") else f.jpeg;
    var last := if v.jpegQuality.Truthy() then ParseInt(jq).OrElse(80) else s.lastValidJpegQuality;
    var pq := v.pngCompression.AsText();
    var png := if v.pngCompression.Truthy() then Control(pq, pq, pq) else f.png;
    var wq := v.webpQuality.AsText();
    var webp := if v.webpQuality.Truthy() then Control(wq, wq, wq + "%") else f.webp;
    var sizes := match v.sizeOptions
      case None => (f.size1x, f.size2x, f.size3x)
      case Some(o) => (SetChecked(f.size1x, o.size1x), SetChecked(f.size2x, o.size2x), SetChecked(f.size3x, o.size3x));
    State(Form(format, jpeg, png, webp, SetChecked(f.webpTransparency, v.webpTransparency),
               SetText(f.maxWidth, v.maxWidth), SetText(f.maxHeight, v.maxHeight), sizes.0, sizes.1, sizes.2),
          last)
  }

  /**
   * Restoring a snapshot and taking a snapshot again gives the same
   * snapshot, as long as the three sliders hold text (a range input always
   * does): save and restore agree on everything they both cover.
   */
  lemma SnapshotRestoreSnapshot(s: State)
    requires s.form.jpeg.slider != "" && s.form.png.slider != "" && s.form.webp.slider != ""
    ensures GetCurrentSettings(ApplySettings(s, GetCurrentSettings(s.form)).form) == GetCurrentSettings(s.form)
  {
  }

  /**
   * The qualification on the slider matters: an empty JPEG slider is saved
   * as the number 80 and comes back as the text "80".
   */
  lemma SnapshotOfEmptySlider(s: State)
    requires s.form.jpeg.slider == ""
    ensures GetCurrentSettings(s.form).jpegQuality == Num(80)
    ensures GetCurrentSettings(ApplySettings(s, GetCurrentSettings(s.form)).form).jpegQuality == Str("80")
  {
    assert IntToString(80) == "80";
  }

  /** The 1x size can never be saved as unchecked. */
  lemma SnapshotAlwaysChecksOneX(f: Form)
    ensures !f.size1x ==> GetCurrentSettings(f).sizeOptions.value.size1x == Bool(true)
  {
  }

  /**
   * The work manager's default settings. Applied to any form they select
   * `original`, put the sliders at 80, 6 and 80, clear transparency and the
   * bounds, and check only the 1x size.
   */
  const DefaultSettings: SavedSettings :=
    SavedSettings(Str("original"), Num(80), Num(6), Num(80), Bool(false), Str(""), Str(""),
                  Some(SizeOptions(Bool(true), Bool(false), Bool(false))))

  lemma ApplyDefaults(s: State)
    ensures var r := ApplySettings(s, DefaultSettings);
            && r.form.format == "original"
            && r.form.jpeg.slider == "80" && r.form.png.slider == "6" && r.form.webp.slider == "80"
            && !r.form.webpTransparency && r.form.maxWidth == "" && r.form.maxHeight == ""
            && r.form.size1x && !r.form.size2x && !r.form.size3x
            && r.lastValidJpegQuality == 80
  {
    DefaultTexts();
    var v := DefaultSettings;
    assert v.jpegQuality.AsText() == "80" && v.webpQuality.AsText() == "80" && v.pngCompression.AsText() == "6";
    assert ParseInt(v.jpegQuality.AsText()).OrElse(80) == 80;
  }

  /** The texts the default numbers are shown as, and the value `parseInt` reads back from `80`. */
  lemma DefaultTexts()
    ensures Num(80).AsText() == "80" && Num(6).AsText() == "6"
    ensures ParseInt("80") == Int(80)
  {
    assert IntToString(80) == "80";
    assert IntToString(6) == "6";
    ParseIntOfIntToStringAlone(80);
  }
}

=== FILE: sizing.dfy ===
/**
 * The size arithmetic of the rendering pipeline: fitting an image into
 * optional bounds (both `processImage` builds and `calculateImageSize`),
 * the integer surface a canvas actually gets, the dimension shrink the
 * public build calls "PNG compression", and the mapping of a crop box from
 * display coordinates to source-image coordinates.
 */
module Sizing {
  import opened Common
  import opened Geometry

  /** A bound that takes part in the computation: present and not 0 (JavaScript truthiness). */
  predicate Given(b: Option<real>) {
    b.Some? && b.value != 0.0
  }

  /** `bound || fallback` */
  function BoundOr(b: Option<real>, fallback: real): (r: real)
    ensures Given(b) ==> r == b.value
    ensures !Given(b) ==> r == fallback
  {
    if Given(b) then b.value else fallback
  }

  /** The uniform scale factor `processImage` applies. */
  function FitRatio(src: Size, maxW: Option<real>, maxH: Option<real>): (ratio: real)
    requires src.width > 0.0 && src.height > 0.0
    ensures ratio <= BoundOr(maxW, src.width) / src.width && ratio <= BoundOr(maxH, src.height) / src.height
    ensures ratio == BoundOr(maxW, src.width) / src.width || ratio == BoundOr(maxH, src.height) / src.height
    ensures !Given(maxW) || !Given(maxH) ==> ratio <= 1.0
    ensures !Given(maxW) && !Given(maxH) ==> ratio == 1.0
    ensures BoundOr(maxW, src.width) > 0.0 && BoundOr(maxH, src.height) > 0.0 ==> ratio > 0.0
    ensures ratio * src.width <= BoundOr(maxW, src.width)
    ensures ratio * src.height <= BoundOr(maxH, src.height)
    ensures ratio * src.width == BoundOr(maxW, src.width) || ratio * src.height == BoundOr(maxH, src.height)
  {
    var a := BoundOr(maxW, src.width);
    var b := BoundOr(maxH, src.height);
    QuotientFacts(a, src.width);
    QuotientFacts(b, src.height);
    ScaledByMin(a, src.width, b, src.height);
    MinR(a / src.width, b / src.height)
  }

  lemma QuotientFacts(a: real, b: real)
    requires b > 0.0
    ensures (a / b) * b == a
    ensures a > 0.0 ==> a / b > 0.0
    ensures a == b ==> a / b == 1.0
  {
  }

  /** Scaling two sides by the smaller of their two quotients keeps both within bounds and meets one. */
  lemma ScaledByMin(a: real, w: real, b: real, h: real)
    requires w > 0.0 && h > 0.0
    ensures MinR(a / w, b / h) * w <= a && MinR(a / w, b / h) * h <= b
    ensures MinR(a / w, b / h) * w == a || MinR(a / w, b / h) * h == b
  {
    QuotientFacts(a, w);
    QuotientFacts(b, h);
    MulMonotone(MinR(a / w, b / h), a / w, w);
    MulMonotone(MinR(a / w, b / h), b / h, h);
  }

  lemma MulMonotone(a: real, b: real, c: real)
    requires a <= b && c > 0.0
    ensures a * c <= b * c
  {
  }

  lemma AtMostOneShrinks(a: real, c: real)
    requires c > 0.0
    ensures a <= 1.0 ==> c * a <= c
  {
  }

  /**
   * The size `processImage` draws at (both builds): the source scaled by
   * `min(maxW / width, maxH / height)`, where a missing or zero bound stands
   * for the source's own side. The aspect ratio is kept; with no bound the
   * size is the source size; with two positive bounds the result fits both
   * and meets one exactly; with a single bound the image is never enlarged,
   * because the other side contributes a factor of 1.
   */
  function FitSize(src: Size, maxW: Option<real>, maxH: Option<real>): (r: Size)
    requires src.width > 0.0 && src.height > 0.0
    ensures SameAspect(r.width, r.height, src.width, src.height)
    ensures !Given(maxW) && !Given(maxH) ==> r == src
    ensures Given(maxW) ==> r.width <= maxW.value
    ensures Given(maxH) ==> r.height <= maxH.value
    ensures Given(maxW) && Given(maxH) ==> r.width == maxW.value || r.height == maxH.value
    ensures Given(maxW) != Given(maxH) ==> r.width <= src.width && r.height <= src.height
  {
    var ratio := FitRatio(src, maxW, maxH);
    AtMostOneShrinks(ratio, src.width);
    AtMostOneShrinks(ratio, src.height);
    ScaledKeepsAspect(src.width, src.height, ratio);
    Size(src.width * ratio, src.height * ratio)
  }

  lemma ScaledKeepsAspect(w: real, h: real, k: real)
    ensures w * k == k * w && h * k == k * h
    ensures SameAspect(w * k, h * k, w, h)
  {
  }

  /**
   * Fitting is idempotent: an image that was already fitted into two
   * positive bounds is left as it is by a second fit into the same bounds.
   */
  lemma FitSizeIdempotent(src: Size, maxW: real, maxH: real)
    requires src.width > 0.0 && src.height > 0.0 && maxW > 0.0 && maxH > 0.0
    ensures var once := FitSize(src, Some(maxW), Some(maxH));
            once.width > 0.0 && once.height > 0.0 &&
            FitSize(once, Some(maxW), Some(maxH)) == once
  {
    var ratio := FitRatio(src, Some(maxW), Some(maxH));
    var once := FitSize(src, Some(maxW), Some(maxH));
    PositiveProduct(src.width, ratio);
    PositiveProduct(src.height, ratio);
    QuotientAtLeastOne(maxW, once.width);
    QuotientAtLeastOne(maxH, once.height);
    var again := FitRatio(once, Some(maxW), Some(maxH));
    assert again == 1.0;
    assert FitSize(once, Some(maxW), Some(maxH)) == Size(once.width * again, once.height * again);
  }

  lemma PositiveProduct(a: real, b: real)
    requires a > 0.0 && b > 0.0
    ensures a * b > 0.0
  {
  }

  lemma QuotientAtLeastOne(a: real, b: real)
    requires 0.0 < b <= a
    ensures a / b >= 1.0
    ensures a == b ==> a / b == 1.0
  {
  }

  /** With two bounds the image can be enlarged: 100×100 into 200×400 becomes 200×200. */
  lemma FitSizeTwoBoundsEnlarge()
    ensures FitSize(Size(100.0, 100.0), Some(200.0), Some(400.0)) == Size(200.0, 200.0)
  {
    assert FitRatio(Size(100.0, 100.0), Some(200.0), Some(400.0)) == 2.0;
  }

  /** With one bound larger than the image, nothing changes: 100×50 with width 200 stays 100×50. */
  lemma FitSizeSingleBoundKeeps()
    ensures FitSize(Size(100.0, 50.0), Some(200.0), None) == Size(100.0, 50.0)
  {
    assert FitRatio(Size(100.0, 50.0), Some(200.0), None) == 1.0;
  }

  /**
   * The integer surface a canvas gets when its width and height are
   * assigned `s`: each side's floor when it is below 2^31, the 300 × 150
   * default for a side that is at most -1 or at least 2^31, and 0 for a
   * side strictly between -1 and 1.
   */
  function CanvasSize(s: Size): (r: (int, int))
    ensures 0 <= r.0 <= MaxReflected && 0 <= r.1 <= MaxReflected
    ensures 0.0 <= s.width < (MaxReflected + 1) as real ==> r.0 == s.width.Floor
    ensures 0.0 <= s.height < (MaxReflected + 1) as real ==> r.1 == s.height.Floor
    ensures -((MaxReflected + 1) as real) <= s.width <= -1.0 ==> r.0 == CanvasDefaultWidth
    ensures -((MaxReflected + 1) as real) <= s.height <= -1.0 ==> r.1 == CanvasDefaultHeight
    ensures -((MaxReflected + 1) as real) <= s.width < Two32 as real ==> (r.0 == 0 <==> -1.0 < s.width < 1.0)
    ensures -((MaxReflected + 1) as real) <= s.height < Two32 as real ==> (r.1 == 0 <==> -1.0 < s.height < 1.0)
  {
    (CanvasDim(s.width, CanvasDefaultWidth), CanvasDim(s.height, CanvasDefaultHeight))
  }

  /**
   * `compressPNG`: at level 3 or below the canvas is encoded as it is;
   * otherwise every side becomes `max(side * f, 100)` with `f` 0.9 for
   * levels 4 to 6 and 0.7 above (a `NaN` level fails both comparisons and
   * takes the 0.7 branch), and is then truncated by the canvas. Above level
   * 3 no side is below 100, a side of at least 100 never grows, and a side
   * below 100 is enlarged to exactly 100.
   */
  function PngSurface(width: int, height: int, level: JsInt): (r: (int, int))
    requires 0 <= width <= MaxReflected && 0 <= height <= MaxReflected
    ensures level.Int? && level.v <= 3 ==> r == (width, height)
    ensures !(level.Int? && level.v <= 3) ==> r.0 >= 100 && r.1 >= 100
    ensures !(level.Int? && level.v <= 3) && width >= 100 ==> r.0 <= width
    ensures !(level.Int? && level.v <= 3) && height >= 100 ==> r.1 <= height
    ensures !(level.Int? && level.v <= 3) && width < 100 ==> r.0 == 100
    ensures !(level.Int? && level.v <= 3) && height < 100 ==> r.1 == 100
    ensures level.Int? && 4 <= level.v <= 6 && width >= 112 ==> (width as real) * 0.9 - 1.0 < r.0 as real <= (width as real) * 0.9
    ensures !level.Int? || level.v >= 7 ==> r.0 as real <= MaxR((width as real) * 0.7, 100.0)
    ensures !(level.Int? && level.v <= 3) ==>
              var f := if level.Int? && level.v <= 6 then 0.9 else 0.7;
              r == (MaxI(((width as real) * f).Floor, 100), MaxI(((height as real) * f).Floor, 100))
  {
    if level.Int? && level.v <= 3 then (width, height)
    else
      var scale := if level.Int? && level.v <= 6 then 0.9 else 0.7;
      CanvasSize(Size(MaxR((width as real) * scale, 100.0), MaxR((height as real) * scale, 100.0)))
  }

  /** At any level a larger canvas never gives a smaller PNG surface. */
  lemma PngSurfaceMonotone(w1: int, h1: int, w2: int, h2: int, level: JsInt)
    requires 0 <= w1 <= w2 <= MaxReflected && 0 <= h1 <= h2 <= MaxReflected
    ensures PngSurface(w1, h1, level).0 <= PngSurface(w2, h2, level).0
    ensures PngSurface(w1, h1, level).1 <= PngSurface(w2, h2, level).1
  {
    if !(level.Int? && level.v <= 3) {
      var f := if level.Int? && level.v <= 6 then 0.9 else 0.7;
      FloorMonotone((w1 as real) * f, (w2 as real) * f);
      FloorMonotone((h1 as real) * f, (h2 as real) * f);
    }
  }

  lemma FloorMonotone(x: real, y: real)
    requires x <= y
    ensures x.Floor <= y.Floor
  {
  }

  /** A 1000×1000 canvas at level 8 is encoded at 700×700; a `NaN` level does the same. */
  lemma PngSurfaceExamples()
    ensures PngSurface(1000, 1000, Int(8)) == (700, 700)
    ensures PngSurface(1000, 1000, NaN) == (700, 700)
    ensures PngSurface(1000, 50, Int(5)) == (900, 100)
  {
    assert (700.0 as real).Floor == 700;
    assert (900.0 as real).Floor == 900;
  }

  /**
   * `cropImage` (both builds): the crop box, given in the coordinates of the
   * image as displayed, is scaled by natural / displayed size on each axis.
   */
  function MapCrop(crop: Rect, displayed: Size, natural: Size): (r: Rect)
    requires displayed.width != 0.0 && displayed.height != 0.0
    ensures crop == Rect(0.0, 0.0, displayed.width, displayed.height) ==>
              r == Rect(0.0, 0.0, natural.width, natural.height)
    ensures r.width * displayed.width == crop.width * natural.width
    ensures r.height * displayed.height == crop.height * natural.height
    ensures r.x * displayed.width == crop.x * natural.width
    ensures r.y * displayed.height == crop.y * natural.height
  {
    var sx := natural.width / displayed.width;
    var sy := natural.height / displayed.height;
    Rect(crop.x * sx, crop.y * sy, crop.width * sx, crop.height * sy)
  }

  /** A crop inside the displayed image maps to a region inside the source image. */
  lemma MapCropInside(crop: Rect, displayed: Size, natural: Size)
    requires displayed.width > 0.0 && displayed.height > 0.0
    requires natural.width >= 0.0 && natural.height >= 0.0
    requires Inside(crop, displayed.width, displayed.height)
    ensures Inside(MapCrop(crop, displayed, natural), natural.width, natural.height)
  {
    var sx := natural.width / displayed.width;
    var sy := natural.height / displayed.height;
    assert sx >= 0.0 && sy >= 0.0;
    assert displayed.width * sx == natural.width;
    assert displayed.height * sy == natural.height;
    assert (crop.x + crop.width) * sx <= displayed.width * sx;
    assert (crop.y + crop.height) * sy <= displayed.height * sy;
  }

  /** Mapping to the source and back from the source gives the original crop. */
  lemma MapCropRoundTrip(crop: Rect, displayed: Size, natural: Size)
    requires displayed.width != 0.0 && displayed.height != 0.0
    requires natural.width != 0.0 && natural.height != 0.0
    ensures MapCrop(MapCrop(crop, displayed, natural), natural, displayed) == crop
  {
    var sx := natural.width / displayed.width;
    var sy := natural.height / displayed.height;
    assert sx * (displayed.width / natural.width) == 1.0;
    assert sy * (displayed.height / natural.height) == 1.0;
  }

  /**
   * The surface of the canvas `cropImage` draws into: the mapped crop size,
   * floored while it lies below 2^31; a mapped side of -1 or less (a box
   * collapsed by a resize) gives the canvas's default side instead.
   */
  function CropSurface(crop: Rect, displayed: Size, natural: Size): (r: (int, int))
    requires displayed.width != 0.0 && displayed.height != 0.0
    ensures var m := MapCrop(crop, displayed, natural);
            0.0 <= m.width < (MaxReflected + 1) as real && 0.0 <= m.height < (MaxReflected + 1) as real ==>
              r == (m.width.Floor, m.height.Floor)
    ensures var m := MapCrop(crop, displayed, natural);
            -((MaxReflected + 1) as real) <= m.width <= -1.0 ==> r.0 == CanvasDefaultWidth
    ensures var m := MapCrop(crop, displayed, natural);
            -((MaxReflected + 1) as real) <= m.height <= -1.0 ==> r.1 == CanvasDefaultHeight
  {
    var m := MapCrop(crop, displayed, natural);
    CanvasSize(Size(m.width, m.height))
  }

  /**
   * `calculateImageSize` in the image utilities: with both bounds the image
   * is fitted exactly as `processImage` fits it; with a single bound that
   * side becomes the bound and the other follows proportionally, so the
   * image can be enlarged; with none it is unchanged. Each side is then
   * rounded with `Math.round`.
   */
  function CalculateImageSize(src: Size, maxW: Option<real>, maxH: Option<real>): (r: (int, int))
    requires src.width > 0.0 && src.height > 0.0
    ensures Given(maxW) && Given(maxH) ==>
              var f := FitSize(src, maxW, maxH);
              r == (Round(f.width), Round(f.height))
    ensures Given(maxW) && !Given(maxH) ==>
              r.0 == Round(maxW.value) && r.1 == Round(src.height * (maxW.value / src.width))
    ensures !Given(maxW) && Given(maxH) ==>
              r.0 == Round(src.width * (maxH.value / src.height)) && r.1 == Round(maxH.value)
    ensures !Given(maxW) && !Given(maxH) ==> r == (Round(src.width), Round(src.height))
  {
    if Given(maxW) && Given(maxH) then
      var f := FitSize(src, maxW, maxH);
      (Round(f.width), Round(f.height))
    else if Given(maxW) then
      var ratio := maxW.value / src.width;
      (Round(maxW.value), Round(src.height * ratio))
    else if Given(maxH) then
      var ratio := maxH.value / src.height;
      (Round(src.width * ratio), Round(maxH.value))
    else
      (Round(src.width), Round(src.height))
  }

  /** 400×200 into (100, 200) is 100×50; 100×50 with only a width of 200 is enlarged to 200×100. */
  lemma CalculateImageSizeExamples()
    ensures CalculateImageSize(Size(400.0, 200.0), Some(100.0), Some(200.0)) == (100, 50)
    ensures CalculateImageSize(Size(100.0, 50.0), Some(200.0), None) == (200, 100)
  {
    assert FitRatio(Size(400.0, 200.0), Some(100.0), Some(200.0)) == 0.25;
  }

  /** `Math.round` never reverses an order. */
  lemma RoundMonotone(x: real, y: real)
    requires x <= y
    ensures Round(x) <= Round(y)
  {
    assert (x + 0.5).Floor as real <= x + 0.5 <= y + 0.5 < (y + 0.5).Floor as real + 1.0;
  }

  /**
   * With a single bound of a whole number of pixels, that side comes out as
   * exactly the bound and the other side is the proportional size to within
   * half a pixel, whether the image shrinks or grows.
   */
  lemma CalculateImageSizeSingleBound(src: Size, bound: int)
    requires src.width > 0.0 && src.height > 0.0 && bound != 0
    ensures var r := CalculateImageSize(src, Some(bound as real), None);
            var exact := src.height * ((bound as real) / src.width);
            r.0 == bound && exact - 0.5 < r.1 as real <= exact + 0.5
    ensures var r := CalculateImageSize(src, None, Some(bound as real));
            var exact := src.width * ((bound as real) / src.height);
            r.1 == bound && exact - 0.5 < r.0 as real <= exact + 0.5
  {
    RoundOfInt(bound);
  }

  lemma RoundOfInt(n: int)
    ensures Round(n as real) == n
  {
    assert n as real + 0.5 == (n as real) + 0.5;
  }

  /**
   * With two positive bounds the rounded size stays within the rounded
   * bounds and reaches one of them.
   */
  lemma CalculateImageSizeWithinBounds(src: Size, maxW: real, maxH: real)
    requires src.width > 0.0 && src.height > 0.0 && maxW > 0.0 && maxH > 0.0
    ensures var r := CalculateImageSize(src, Some(maxW), Some(maxH));
            r.0 <= Round(maxW) && r.1 <= Round(maxH) && (r.0 == Round(maxW) || r.1 == Round(maxH))
  {
    var f := FitSize(src, Some(maxW), Some(maxH));
    RoundMonotone(f.width, maxW);
    RoundMonotone(f.height, maxH);
  }

  /**
   * The canvas `compressImage` encodes: `calculateImageSize` with 1920×1080
   * taking the place of a bound that was not supplied at all (`None`).
   * A bound supplied as 0 disables that side.
   */
  function CompressImageSurface(src: Size, maxW: Option<real>, maxH: Option<real>): (r: (int, int))
    requires src.width > 0.0 && src.height > 0.0
    ensures var c := CalculateImageSize(src, Some(maxW.GetOr(1920.0)), Some(maxH.GetOr(1080.0)));
            0 <= c.0 <= MaxReflected && 0 <= c.1 <= MaxReflected ==> r == c
  {
    var c := CalculateImageSize(src, Some(maxW.GetOr(1920.0)), Some(maxH.GetOr(1080.0)));
    CanvasSize(Size(c.0 as real, c.1 as real))
  }

  /**
   * Without bounds every image is encoded within 1920×1080, filling at
   * least one of the two.
   */
  lemma CompressImageWithinDefaults(src: Size)
    requires src.width > 0.0 && src.height > 0.0
    ensures var r := CompressImageSurface(src, None, None);
            r.0 <= 1920 && r.1 <= 1080 && (r.0 == 1920 || r.1 == 1080)
  {
    var f := FitSize(src, Some(1920.0), Some(1080.0));
    CalculateImageSizeWithinBounds(src, 1920.0, 1080.0);
    assert Round(1920.0) == 1920 && Round(1080.0) == 1080;
    assert f.width >= 0.0 && f.height >= 0.0;
    assert Round(f.width) >= 0 && Round(f.height) >= 0;
  }

  /** A 4000×3000 photograph under the defaults is encoded at 1440×1080. */
  lemma CompressImageDefaults()
    ensures CompressImageSurface(Size(4000.0, 3000.0), None, None) == (1440, 1080)
  {
    assert FitRatio(Size(4000.0, 3000.0), Some(1920.0), Some(1080.0)) == 0.36;
  }
}

=== FILE: strings.dfy ===
/**
 * The handful of JavaScript string operations the image tool relies on,
 * restated over `seq<char>`: `startsWith`, the pieces of `split`, `indexOf`
 * and `replace` with a string pattern, ASCII `toLowerCase` and `trim`.
 */
module Strings {
  import opened Common

  predicate StartsWith(s: string, prefix: string) {
    |prefix| <= |s| && s[..|prefix|] == prefix
  }

  /** Index of the first occurrence of `c` in `s` at or after `from`. */
  function IndexOfCharFrom(s: string, c: char, from: nat): (r: Option<nat>)
    requires from <= |s|
    ensures r.Some? ==> from <= r.value < |s| && s[r.value] == c
    ensures r.Some? ==> forall j :: from <= j < r.value ==> s[j] != c
    ensures r.None? ==> forall j :: from <= j < |s| ==> s[j] != c
    decreases |s| - from
  {
    if from == |s| then None
    else if s[from] == c then Some(from)
    else IndexOfCharFrom(s, c, from + 1)
  }

  /** `s.indexOf(c)` for a one-character pattern, `None` standing for -1. */
  function IndexOfChar(s: string, c: char): (r: Option<nat>)
    ensures r.Some? ==> r.value < |s| && s[r.value] == c && c !in s[..r.value]
    ensures r.None? <==> c !in s
  {
    var r := IndexOfCharFrom(s, c, 0);
    assert r.Some? ==> c !in s[..r.value] by {
      if r.Some? {
        forall j | 0 <= j < r.value ensures s[..r.value][j] != c { }
      }
    }
    r
  }

  /** `s.split(c)[0]`: the text before the first `c`, or all of `s`. */
  function Before(s: string, c: char): (r: string)
    ensures c !in r
    ensures c !in s ==> r == s
    ensures c in s ==> |r| < |s| && s[..|r|] == r && s[|r|] == c
  {
    match IndexOfChar(s, c)
    case None => s
    case Some(i) => s[..i]
  }

  /** Everything after the first `c` (requires that there is one). */
  function After(s: string, c: char): (r: string)
    requires c in s
    ensures |r| < |s|
    ensures s == Before(s, c) + [c] + r
  {
    var i := IndexOfChar(s, c).value;
    assert s == s[..i] + [c] + s[i + 1..];
    s[i + 1..]
  }

  /**
   * `s.split(c)[1]`: the second field of the split, or `None` (JavaScript's
   * `undefined`) when `s` has no `c` at all.
   */
  function SecondField(s: string, c: char): (r: Option<string>)
    ensures r.None? <==> c !in s
    ensures r.Some? ==> c !in r.value
    ensures r.Some? ==> r.value == Before(After(s, c), c)
  {
    if c in s then Some(Before(After(s, c), c)) else None
  }

  /** Splitting `a + [c] + b` at its first `c` gives back `a` and `b` when `a` has no `c`. */
  lemma SplitAtFirst(a: string, c: char, b: string)
    requires c !in a
    ensures c in a + [c] + b
    ensures Before(a + [c] + b, c) == a && After(a + [c] + b, c) == b
  {
    var s := a + [c] + b;
    assert s[|a|] == c;
    assert s[..|a|] == a;
    assert s[|a| + 1..] == b;
  }

  /** `s.split(c).pop()`: the text after the last `c`, or all of `s`. */
  function LastField(s: string, c: char): (r: string)
    ensures c !in r
    ensures |r| <= |s| && s[|s| - |r|..] == r
    ensures c !in s ==> r == s
    ensures c in s ==> |r| < |s| && s[|s| - |r| - 1] == c
    decreases |s|
  {
    if |s| == 0 then s
    else if s[|s| - 1] == c then []
    else
      var r := LastField(s[..|s| - 1], c);
      assert s == s[..|s| - 1] + [s[|s| - 1]];
      r + [s[|s| - 1]]
  }

  predicate OccursAt(s: string, pat: string, i: nat) {
    i + |pat| <= |s| && s[i..i + |pat|] == pat
  }

  /** First index at or after `from` where `pat` occurs in `s`. */
  function FindFrom(s: string, pat: string, from: nat): (r: Option<nat>)
    requires from <= |s|
    ensures r.Some? ==> from <= r.value && OccursAt(s, pat, r.value)
    ensures r.Some? ==> forall j :: from <= j < r.value ==> !OccursAt(s, pat, j)
    ensures r.None? ==> forall j :: from <= j <= |s| ==> !OccursAt(s, pat, j)
    decreases |s| - from
  {
    if OccursAt(s, pat, from) then Some(from)
    else if from == |s| then None
    else FindFrom(s, pat, from + 1)
  }

  /** An occurrence with none before it is the one `FindFrom` reports. */
  lemma FindFirst(s: string, pat: string, k: nat)
    requires OccursAt(s, pat, k)
    requires forall j :: 0 <= j < k ==> !OccursAt(s, pat, j)
    ensures FindFrom(s, pat, 0) == Some(k)
  {
    assert FindFrom(s, pat, 0).Some?;
  }

  /**
   * `s.replace(pat, rep)` with a string pattern: only the first occurrence
   * of `pat` is replaced, and `s` is returned unchanged when there is none.
   */
  function ReplaceFirst(s: string, pat: string, rep: string): (r: string)
    ensures FindFrom(s, pat, 0).None? ==> r == s
    ensures FindFrom(s, pat, 0).Some? ==>
              var i := FindFrom(s, pat, 0).value;
              r == s[..i] + rep + s[i + |pat|..]
  {
    match FindFrom(s, pat, 0)
    case None => s
    case Some(i) => s[..i] + rep + s[i + |pat|..]
  }

  /** ASCII `toLowerCase`. */
  function LowerChar(c: char): (r: char)
    ensures 'A' <= c <= 'Z' ==> 'a' <= r <= 'z'
    ensures !('A' <= c <= 'Z') ==> r == c
  {
    if 'A' <= c <= 'Z' then (c as int - 'A' as int + 'a' as int) as char else c
  }

  function ToLower(s: string): (r: string)
    ensures |r| == |s|
    ensures forall i :: 0 <= i < |s| ==> r[i] == LowerChar(s[i])
  {
    if |s| == 0 then [] else [LowerChar(s[0])] + ToLower(s[1..])
  }

  /**
   * The white space `trim` and `parseInt` skip: the WhiteSpace and
   * LineTerminator code points of ECMAScript (tab, vertical tab, form feed,
   * space, no-break space, the byte order mark, the Unicode space
   * separators, line feed, carriage return and the line and paragraph
   * separators).
   */
  predicate IsSpace(c: char) {
    || c == '\t' || c == '\n' || c == '\U{B}' || c == '\U{C}' || c == '\r' || c == ' '
    || c == '\U{A0}' || c == '\U{1680}' || ('\U{2000}' <= c <= '\U{200A}')
    || c == '\U{2028}' || c == '\U{2029}' || c == '\U{202F}' || c == '\U{205F}'
    || c == '\U{3000}' || c == '\U{FEFF}'
  }

  /** The number of blanks `s` starts with. */
  function LeadingBlanks(s: string): (n: nat)
    ensures n <= |s|
    ensures forall k :: 0 <= k < n ==> IsSpace(s[k])
    ensures n < |s| ==> !IsSpace(s[n])
  {
    if |s| > 0 && IsSpace(s[0]) then 1 + LeadingBlanks(s[1..]) else 0
  }

  function TrimStart(s: string): (r: string)
    ensures r == s[LeadingBlanks(s)..]
    ensures |r| > 0 ==> !IsSpace(r[0])
  {
    if |s| > 0 && IsSpace(s[0]) then TrimStart(s[1..]) else s
  }

  function TrimEnd(s: string): (r: string)
    ensures |r| <= |s| && s[..|r|] == r
    ensures |r| > 0 ==> !IsSpace(r[|r| - 1])
    ensures forall i :: |r| <= i < |s| ==> IsSpace(s[i])
  {
    if |s| > 0 && IsSpace(s[|s| - 1]) then TrimEnd(s[..|s| - 1]) else s
  }

  /**
   * `s.trim()`: the part of `s` between its leading and its trailing
   * blanks. It starts at the first non-blank character, everything after
   * it in `s` is blank, and it neither starts nor ends with a blank.
   */
  function Trim(s: string): (r: string)
    ensures var i := LeadingBlanks(s);
            && i + |r| <= |s| && r == s[i..i + |r|]
            && forall k :: i + |r| <= k < |s| ==> IsSpace(s[k])
    ensures |r| > 0 ==> !IsSpace(r[0]) && !IsSpace(r[|r| - 1])
    ensures r == [] <==> forall i :: 0 <= i < |s| ==> IsSpace(s[i])
  {
    TrimEnd(TrimStart(s))
  }
}

=== FILE: uploader.dfy ===
/**
 * The file uploader of both builds: only files whose MIME type starts with
 * `image/` are accepted, a drop or a file dialog offers at most its first
 * file, and `reset` forgets the file. The src build can also restore the
 * file from a `data:` URL (RFC 2397) with a base64 payload when a saved
 * work is loaded.
 *
 * A thrown error is an `Err` carrying its message; the uploader's state is
 * unchanged on that path.
 */
module Uploader {
  import opened Common
  import opened Strings
  import opened Base64

  datatype File = File(name: string, mimeType: string, content: seq<Byte>)

  datatype Uploader = Uploader(originalFile: Option<File>)

  const NotAnImage: string := "이미지 파일만 업로드 가능합니다."
  const InvalidCharacter: string := "InvalidCharacterError"
  const RestoredName: string := "restored-image.jpg"

  function Create(): (u: Uploader)
    ensures u.originalFile.None?
  {
    Uploader(None)
  }

  /** `handleFile`: a non-image type is an error; an image file is kept and returned. */
  function HandleFile(u: Uploader, file: File): (r: Result<(Uploader, File)>)
    ensures r.Err? <==> !StartsWith(file.mimeType, "image/")
    ensures r.Err? ==> r.message == NotAnImage
    ensures r.Ok? ==> r.value.0.originalFile == Some(file) && r.value.1 == file
  {
    if !StartsWith(file.mimeType, "image/") then Err(NotAnImage)
    else Ok((Uploader(Some(file)), file))
  }

  /** `handleDrop`: nothing dropped returns `null` and changes nothing; otherwise the first file is handled. */
  function HandleDrop(u: Uploader, files: seq<File>): (r: Result<(Uploader, Option<File>)>)
    ensures |files| == 0 ==> r == Ok((u, None))
    ensures |files| > 0 ==> (r.Err? <==> HandleFile(u, files[0]).Err?)
    ensures |files| > 0 && r.Ok? ==> r.value == (Uploader(Some(files[0])), Some(files[0]))
  {
    if |files| == 0 then Ok((u, None))
    else match HandleFile(u, files[0])
      case Err(m) => Err(m)
      case Ok((u', f)) => Ok((u', Some(f)))
  }

  /** `handleFileSelect`: no chosen file returns `null`; otherwise the file is handled. */
  function HandleFileSelect(u: Uploader, file: Option<File>): (r: Result<(Uploader, Option<File>)>)
    ensures file.None? ==> r == Ok((u, None))
    ensures file.Some? ==> (r.Err? <==> !StartsWith(file.value.mimeType, "image/"))
    ensures file.Some? && r.Ok? ==> r.value == (Uploader(Some(file.value)), file)
  {
    match file
    case None => Ok((u, None))
    case Some(f) =>
      match HandleFile(u, f)
      case Err(m) => Err(m)
      case Ok((u', g)) => Ok((u', Some(g)))
  }

  function Reset(u: Uploader): (r: Uploader)
    ensures r.originalFile.None?
  {
    Uploader(None)
  }

  /** A rejected file leaves the previously accepted one in place, whichever way it arrives. */
  lemma RejectionKeepsFile(u: Uploader, file: File)
    requires !StartsWith(file.mimeType, "image/")
    ensures HandleDrop(u, [file]).Err? && HandleFileSelect(u, Some(file)).Err?
    ensures HandleDrop(u, [file]).message == NotAnImage
  {
  }

  // ---------------------------------------------------------------------
  // Restoring from a data URL (src build)
  // ---------------------------------------------------------------------

  /**
   * The type a `Blob` or `File` records: the empty string when any
   * character lies outside U+0020..U+007E, otherwise the ASCII lower case.
   */
  function BlobType(t: string): (r: string)
    ensures (exists i :: 0 <= i < |t| && !(' ' <= t[i] <= '~')) ==> r == ""
    ensures (forall i :: 0 <= i < |t| ==> ' ' <= t[i] <= '~') ==> r == ToLower(t)
  {
    if exists i :: 0 <= i < |t| && !(' ' <= t[i] <= '~') then "" else ToLower(t)
  }

  /** The media type of a data URL: after the first `:` and before the first `;` of the part before the first `,`. */
  function DataUrlMime(src: string): (r: string)
    requires StartsWith(src, "data:image/")
  {
    var header := Before(src, ',');
    assert ':' in header by {
      assert src[4] == ':';
      if ',' in src { assert |header| >= 11 by { assert ',' !in src[..11]; } }
      assert header[4] == ':';
    }
    Before(SecondField(header, ':').value, ';')
  }

  /**
   * `setOriginalFile`: only `data:image/` sources are read. The payload is
   * the second comma-separated field, `undefined` when there is no comma,
   * and `atob` of it must succeed or the call throws; the file is named
   * `restored-image.jpg` whatever its type.
   */
  function SetOriginalFile(u: Uploader, src: string): (r: Result<Uploader>)
    ensures !StartsWith(src, "data:image/") ==> r == Ok(u)
    ensures StartsWith(src, "data:image/") && ',' !in src ==> r == Err(InvalidCharacter)
    ensures StartsWith(src, "data:image/") && ',' in src ==>
      match ForgivingDecode(SecondField(src, ',').value)
      case None => r == Err(InvalidCharacter)
      case Some(bytes) => r == Ok(Uploader(Some(File(RestoredName, BlobType(DataUrlMime(src)), bytes))))
  {
    if !StartsWith(src, "data:image/") then Ok(u)
    else
      var payload := match SecondField(src, ',') case Some(p) => p case None => "undefined";
      UndefinedIsRejected();
      match ForgivingDecode(payload)
      case None => Err(InvalidCharacter)
      case Some(bytes) => Ok(Uploader(Some(File(RestoredName, BlobType(DataUrlMime(src)), bytes))))
  }

  /** No `,`, `;` or `:` in a media type; printable lower-case ASCII is kept as it is by `BlobType`. */
  predicate PlainMime(mime: string) {
    forall i :: 0 <= i < |mime| ==> ' ' <= mime[i] <= '~' && !('A' <= mime[i] <= 'Z') && mime[i] !in ",;:"
  }

  /**
   * Restoring from the data URL the browser builds for a file gives back
   * the file's type and bytes under the fixed name.
   */
  lemma RestoreDataUrl(u: Uploader, subtype: string, bytes: seq<Byte>)
    requires PlainMime(subtype)
    ensures var src := "data:image/" + subtype + ";base64," + Encode(bytes);
            SetOriginalFile(u, src) == Ok(Uploader(Some(File(RestoredName, "image/" + subtype, bytes))))
  {
    var e := Encode(bytes);
    assert ',' !in e by {
      forall i | 0 <= i < |e| ensures e[i] != ',' {
        assert i < |EncodeBody(bytes)| ==> e[i] == EncodeBody(bytes)[i];
      }
    }
    DataUrlParts(subtype, e);
    BlobTypeOfPlain(subtype);
    DecodeEncode(bytes);
  }

  /** The payload and the media type of `data:image/<subtype>;base64,<payload>`. */
  lemma DataUrlParts(subtype: string, payload: string)
    requires PlainMime(subtype) && ',' !in payload
    ensures var src := "data:image/" + subtype + ";base64," + payload;
            StartsWith(src, "data:image/") && SecondField(src, ',') == Some(payload) &&
            DataUrlMime(src) == "image/" + subtype
  {
    var header := "data:image/" + subtype + ";base64";
    var src := "data:image/" + subtype + ";base64," + payload;
    assert src == header + [','] + payload;
    assert ',' !in header by {
      forall i | 0 <= i < |header| ensures header[i] != ',' {
        if 11 <= i < 11 + |subtype| { assert header[i] == subtype[i - 11]; }
      }
    }
    assert StartsWith(src, "data:image/") by { assert src[..11] == "data:image/"; }
    SplitAtFirst(header, ',', payload);
    assert Before(payload, ',') == payload;
    assert Before(src, ',') == header;
    HeaderMime(subtype);
  }

  /** The media type inside `data:image/<subtype>;base64`. */
  lemma HeaderMime(subtype: string)
    requires PlainMime(subtype)
    ensures var header := "data:image/" + subtype + ";base64";
            ':' in header && Before(SecondField(header, ':').value, ';') == "image/" + subtype
  {
    var mime := "image/" + subtype;
    var tail := mime + ";base64";
    var header := "data:image/" + subtype + ";base64";
    assert header == "data" + [':'] + tail;
    SplitAtFirst("data", ':', tail);
    TailHasNoColon(subtype);
    assert SecondField(header, ':') == Some(tail);
    MimeHasNoSemicolon(subtype);
    assert tail == mime + [';'] + "base64";
    SplitAtFirst(mime, ';', "base64");
  }

  lemma TailHasNoColon(subtype: string)
    requires PlainMime(subtype)
    ensures ':' !in "image/" + subtype + ";base64"
  {
    var tail := "image/" + subtype + ";base64";
    forall i | 0 <= i < |tail| ensures tail[i] != ':' {
      if 6 <= i < 6 + |subtype| { assert tail[i] == subtype[i - 6]; }
    }
  }

  lemma MimeHasNoSemicolon(subtype: string)
    requires PlainMime(subtype)
    ensures ';' !in "image/" + subtype
  {
    var mime := "image/" + subtype;
    forall i | 0 <= i < |mime| ensures mime[i] != ';' {
      if i >= 6 { assert mime[i] == subtype[i - 6]; }
    }
  }

  /** `BlobType` keeps a printable lower-case `image/` type as it is. */
  lemma BlobTypeOfPlain(subtype: string)
    requires PlainMime(subtype)
    ensures BlobType("image/" + subtype) == "image/" + subtype
  {
    var mime := "image/" + subtype;
    assert forall i :: 0 <= i < |mime| ==> ' ' <= mime[i] <= '~' && !('A' <= mime[i] <= 'Z') by {
      forall i | 0 <= i < |mime| ensures ' ' <= mime[i] <= '~' && !('A' <= mime[i] <= 'Z') {
        if i >= 6 { assert mime[i] == subtype[i - 6]; }
      }
    }
    assert ToLower(mime) == mime;
  }

  /** A data URL without a comma makes `atob("undefined")` throw, and the file is not replaced. */
  lemma NoCommaThrows(u: Uploader)
    ensures SetOriginalFile(u, "data:image/png").Err?
  {
    assert StartsWith("data:image/png", "data:image/");
    assert ',' !in "data:image/png";
  }
}

=== FILE: work_store.dfy ===
/**
 * The work manager of the src build: saved works are kept as one list under
 * a single storage key, at most ten of them with the oldest evicted first,
 * and one of them may be the autosave entry, found by its name.
 *
 * The storage entry is a value: absent, holding text that does not parse,
 * or holding a list of works. Serialisation is the identity on works, so a
 * stored list reads back as the list written. A write can fail (a full
 * quota makes `setItem` throw); the write outcome is a parameter, and a
 * failed write leaves the storage as it was and makes the operation report
 * `false`. Reading never fails: every read error is an empty list.
 */
module WorkManager {
  import opened Common
  import opened Strings
  import opened Geometry
  import opened Sizing
  import opened Settings

  /** The record `createWorkData` builds. */
  datatype Work = Work(
    id: string,
    name: string,
    createdAt: string,
    updatedAt: string,
    originalImage: string,
    processedImage: Option<string>,
    settings: SavedSettings,
    thumbnail: string)

  datatype Storage = Absent | Unparsable | Stored(works: seq<Work>)

  const MaxWorks: nat := 10
  const AutoSaveName: string := "자동저장"

  /** `getWorkList`: the stored list, or an empty one when nothing readable is stored. */
  function GetWorkList(st: Storage): (r: seq<Work>)
    ensures st.Stored? ==> r == st.works
    ensures !st.Stored? ==> r == []
  {
    if st.Stored? then st.works else []
  }

  /** The list a save produces: the oldest entry is dropped only when the list is already full. */
  function Append(works: seq<Work>, w: Work): (r: seq<Work>)
    ensures |works| < MaxWorks ==> r == works + [w]
    ensures |works| >= MaxWorks ==> r == works[1..] + [w]
    ensures |works| <= MaxWorks ==> |r| <= MaxWorks
    ensures |works| > MaxWorks ==> |r| == |works|
    ensures r[|r| - 1] == w
  {
    if |works| >= MaxWorks then works[1..] + [w] else works + [w]
  }

  /** Writing a list: on success it is stored, on failure the storage is unchanged. */
  function Write(st: Storage, works: seq<Work>, writeOk: bool): (r: (Storage, bool))
    ensures r.1 == writeOk
    ensures writeOk ==> r.0 == Stored(works)
    ensures !writeOk ==> r.0 == st
  {
    if writeOk then (Stored(works), true) else (st, false)
  }

  /** `saveWork`: append with eviction, then write. */
  function SaveWork(st: Storage, w: Work, writeOk: bool): (r: (Storage, bool))
    ensures r.1 == writeOk
    ensures !writeOk ==> r.0 == st
    ensures writeOk && |GetWorkList(st)| < MaxWorks ==> GetWorkList(r.0) == GetWorkList(st) + [w]
    ensures writeOk && |GetWorkList(st)| >= MaxWorks ==> GetWorkList(r.0) == GetWorkList(st)[1..] + [w]
  {
    Write(st, Append(GetWorkList(st), w), writeOk)
  }

  /** First entry satisfying a key match, as `Array.prototype.find` returns it. */
  function FindById(works: seq<Work>, id: string): (r: Option<Work>)
    ensures r.Some? ==> r.value in works && r.value.id == id
    ensures r.None? <==> forall k :: 0 <= k < |works| ==> works[k].id != id
    ensures r.Some? ==> exists k :: 0 <= k < |works| && works[k] == r.value && forall j :: 0 <= j < k ==> works[j].id != id
  {
    if |works| == 0 then None
    else if works[0].id == id then
      assert works[0] == works[0];
      Some(works[0])
    else
      var rest := FindById(works[1..], id);
      if rest.Some? then
        var k :| 0 <= k < |works[1..]| && works[1..][k] == rest.value && forall j :: 0 <= j < k ==> works[1..][j].id != id;
        assert works[k + 1] == rest.value;
        assert forall j :: 0 <= j < k + 1 ==> works[j].id != id by {
          forall j | 0 <= j < k + 1 ensures works[j].id != id {
            if j > 0 { assert works[j] == works[1..][j - 1]; }
          }
        }
        rest
      else rest
  }

  /** `loadWork`: the first work with the id, or `null`. */
  function LoadWork(st: Storage, id: string): (r: Option<Work>)
    ensures r.Some? ==> r.value in GetWorkList(st) && r.value.id == id
    ensures r.None? <==> forall k :: 0 <= k < |GetWorkList(st)| ==> GetWorkList(st)[k].id != id
  {
    FindById(GetWorkList(st), id)
  }

  /** Index of the first entry with the given name, as `findIndex` returns it (`None` for -1). */
  function FindNameIndex(works: seq<Work>, name: string): (r: Option<nat>)
    ensures r.Some? ==> r.value < |works| && works[r.value].name == name
    ensures r.Some? ==> forall j :: 0 <= j < r.value ==> works[j].name != name
    ensures r.None? <==> forall j :: 0 <= j < |works| ==> works[j].name != name
  {
    if |works| == 0 then None
    else if works[0].name == name then Some(0)
    else match FindNameIndex(works[1..], name)
      case None => None
      case Some(i) => Some(i + 1)
  }

  /** `loadAutoSave`: the first work named `자동저장`, or `null`. */
  function LoadAutoSave(st: Storage): (r: Option<Work>)
    ensures var i := FindNameIndex(GetWorkList(st), AutoSaveName);
            (r.None? <==> i.None?) && (r.Some? ==> r.value == GetWorkList(st)[i.value])
  {
    match FindNameIndex(GetWorkList(st), AutoSaveName)
    case None => None
    case Some(i) => Some(GetWorkList(st)[i])
  }

  /** Every work without the id, in order. */
  function Without(works: seq<Work>, id: string): (r: seq<Work>)
    ensures |r| <= |works|
    ensures forall k :: 0 <= k < |r| ==> r[k].id != id && r[k] in works
    ensures forall w :: w in works && w.id != id ==> w in r
    ensures (forall k :: 0 <= k < |works| ==> works[k].id != id) ==> r == works
  {
    if |works| == 0 then []
    else if works[0].id == id then Without(works[1..], id)
    else [works[0]] + Without(works[1..], id)
  }

  /** `deleteWork`: removes every work with the id; succeeds whenever the write does, matched or not. */
  function DeleteWork(st: Storage, id: string, writeOk: bool): (r: (Storage, bool))
    ensures r.1 == writeOk
    ensures !writeOk ==> r.0 == st
    ensures writeOk ==> forall k :: 0 <= k < |GetWorkList(r.0)| ==> GetWorkList(r.0)[k].id != id
    ensures writeOk ==> forall w :: w in GetWorkList(st) && w.id != id ==> w in GetWorkList(r.0)
  {
    Write(st, Without(GetWorkList(st), id), writeOk)
  }

  /**
   * `autoSave`: the new data is named `자동저장`. When a work of that name
   * exists, the first one is replaced in place; otherwise the data is
   * appended as a save would append it.
   */
  function AutoSave(st: Storage, data: Work, writeOk: bool): (r: (Storage, bool))
    ensures r.1 == writeOk
    ensures !writeOk ==> r.0 == st
    ensures var i := FindNameIndex(GetWorkList(st), AutoSaveName);
            writeOk && i.Some? ==>
              && |GetWorkList(r.0)| == |GetWorkList(st)|
              && GetWorkList(r.0)[i.value] == data.(name := AutoSaveName)
              && forall j :: 0 <= j < |GetWorkList(st)| && j != i.value ==> GetWorkList(r.0)[j] == GetWorkList(st)[j]
    ensures writeOk && FindNameIndex(GetWorkList(st), AutoSaveName).None? ==>
              GetWorkList(r.0) == Append(GetWorkList(st), data.(name := AutoSaveName))
  {
    var works := GetWorkList(st);
    var w := data.(name := AutoSaveName);
    match FindNameIndex(works, AutoSaveName)
    case Some(i) => Write(st, works[i := w], writeOk)
    case None => Write(st, Append(works, w), writeOk)
  }

  /** `clearAllWorks`: removes the storage entry. */
  function ClearAllWorks(st: Storage, writeOk: bool): (r: (Storage, bool))
    ensures writeOk ==> r == (Absent, true) && GetWorkList(r.0) == []
    ensures !writeOk ==> r == (st, false)
  {
    if writeOk then (Absent, true) else (st, false)
  }

  // ---------------------------------------------------------------------
  // Properties
  // ---------------------------------------------------------------------

  /** A list of at most ten works stays at most ten long through saves and autosaves. */
  lemma SavesKeepBound(st: Storage, w: Work, writeOk: bool)
    requires |GetWorkList(st)| <= MaxWorks
    ensures |GetWorkList(SaveWork(st, w, writeOk).0)| <= MaxWorks
    ensures |GetWorkList(AutoSave(st, w, writeOk).0)| <= MaxWorks
  {
  }

  /** Saving each work of `ws` in turn, every write succeeding. */
  function SaveAll(st: Storage, ws: seq<Work>): Storage
    decreases |ws|
  {
    if |ws| == 0 then st
    else SaveAll(SaveWork(st, ws[0], true).0, ws[1..])
  }

  /** The last at-most-ten entries of a list. */
  function Newest(all: seq<Work>): (r: seq<Work>)
    ensures |r| == MinI(|all|, MaxWorks)
    ensures r == all[|all| - |r|..]
  {
    if |all| <= MaxWorks then all else all[|all| - MaxWorks..]
  }

  /**
   * Starting from a list of `prior` works and saving the works of `ws`, the
   * stored list is always the most recent at-most-ten of `prior + ws`: the
   * eviction is first-in, first-out.
   */
  lemma {:induction false} SaveAllKeepsNewest(prior: seq<Work>, ws: seq<Work>)
    requires |prior| <= MaxWorks
    ensures GetWorkList(SaveAll(Stored(prior), ws)) == Newest(prior + ws)
    decreases |ws|
  {
    if |ws| == 0 {
      assert prior + ws == prior;
    } else {
      var next := Append(prior, ws[0]);
      SaveAllKeepsNewest(next, ws[1..]);
      AppendKeepsNewest(prior, ws);
    }
  }

  /** One save, seen through the newest ten of everything saved so far. */
  lemma AppendKeepsNewest(prior: seq<Work>, ws: seq<Work>)
    requires |prior| <= MaxWorks && |ws| > 0
    ensures Newest(Append(prior, ws[0]) + ws[1..]) == Newest(prior + ws)
  {
    var all := prior + ws;
    var all' := Append(prior, ws[0]) + ws[1..];
    assert ws == [ws[0]] + ws[1..];
    if |prior| >= MaxWorks {
      assert all' == prior[1..] + ws;
      assert all' == all[1..];
      NewestDropFirst(all);
    } else {
      assert all' == prior + ([ws[0]] + ws[1..]);
    }
  }

  /** Dropping the first entry of a list longer than ten does not change its newest ten. */
  lemma NewestDropFirst(all: seq<Work>)
    requires |all| > MaxWorks
    ensures Newest(all[1..]) == Newest(all)
  {
    assert all[1..][|all| - 1 - MaxWorks..] == all[|all| - MaxWorks..];
  }

  /** From empty storage, eleven saves keep the last ten: the first work saved is gone. */
  lemma EleventhSaveEvictsFirst(ws: seq<Work>)
    requires |ws| == 11
    ensures GetWorkList(SaveAll(Absent, ws)) == ws[1..]
  {
    assert SaveAll(Absent, ws) == SaveAll(SaveWork(Absent, ws[0], true).0, ws[1..]);
    assert SaveWork(Absent, ws[0], true).0 == Stored([ws[0]]);
    SaveAllKeepsNewest([ws[0]], ws[1..]);
    assert [ws[0]] + ws[1..] == ws;
  }

  /** A saved work with an id no other stored work has can be loaded back. */
  lemma LoadAfterSave(st: Storage, w: Work)
    requires forall k :: 0 <= k < |GetWorkList(st)| ==> GetWorkList(st)[k].id != w.id
    ensures LoadWork(SaveWork(st, w, true).0, w.id) == Some(w)
  {
    var works := Append(GetWorkList(st), w);
    assert forall k :: 0 <= k < |works| - 1 ==> works[k].id != w.id by {
      forall k | 0 <= k < |works| - 1 ensures works[k].id != w.id {
        if |GetWorkList(st)| >= MaxWorks {
          assert works[k] == GetWorkList(st)[k + 1];
        } else {
          assert works[k] == GetWorkList(st)[k];
        }
      }
    }
    FindLast(works, w.id);
  }

  lemma {:induction false} FindLast(works: seq<Work>, id: string)
    requires |works| > 0 && works[|works| - 1].id == id
    requires forall k :: 0 <= k < |works| - 1 ==> works[k].id != id
    ensures FindById(works, id) == Some(works[|works| - 1])
  {
    if |works| > 1 {
      FindLast(works[1..], id);
    }
  }

  /** Filtering a concatenation filters each part and keeps the parts in order. */
  lemma {:induction false} WithoutAppend(a: seq<Work>, b: seq<Work>, id: string)
    ensures Without(a + b, id) == Without(a, id) + Without(b, id)
  {
    if |a| > 0 {
      assert (a + b)[1..] == a[1..] + b;
      WithoutAppend(a[1..], b, id);
    } else {
      assert a + b == b;
    }
  }

  /** One work is dropped when it has the id and kept otherwise. */
  lemma WithoutSingle(w: Work, id: string)
    ensures Without([w], id) == if w.id == id then [] else [w]
  {
  }

  /**
   * A successful delete keeps the surviving works in their stored order:
   * two kept works `w1` before `w2` are still in that order, and the works
   * around them are filtered in place.
   */
  lemma DeleteWorkKeepsOrder(st: Storage, id: string, a: seq<Work>, w1: Work, b: seq<Work>, w2: Work, c: seq<Work>)
    requires GetWorkList(st) == a + [w1] + b + [w2] + c
    requires w1.id != id && w2.id != id
    ensures GetWorkList(DeleteWork(st, id, true).0)
            == Without(a, id) + [w1] + Without(b, id) + [w2] + Without(c, id)
  {
    WithoutAppend(a + [w1] + b + [w2], c, id);
    WithoutAppend(a + [w1] + b, [w2], id);
    WithoutAppend(a + [w1], b, id);
    WithoutAppend(a, [w1], id);
    WithoutSingle(w1, id);
    WithoutSingle(w2, id);
  }

  /** After a successful delete, nothing with that id can be loaded. */
  lemma LoadAfterDelete(st: Storage, id: string)
    ensures LoadWork(DeleteWork(st, id, true).0, id).None?
  {
  }

  /** After a successful autosave, loading the autosave gives the data just saved. */
  lemma LoadAfterAutoSave(st: Storage, data: Work)
    ensures LoadAutoSave(AutoSave(st, data, true).0) == Some(data.(name := AutoSaveName))
  {
    var works := GetWorkList(st);
    var w := data.(name := AutoSaveName);
    match FindNameIndex(works, AutoSaveName)
    case Some(i) =>
      var after := works[i := w];
      FirstNameIndexAt(after, AutoSaveName, i);
    case None =>
      var after := Append(works, w);
      assert forall j :: 0 <= j < |after| - 1 ==> after[j].name != AutoSaveName by {
        forall j | 0 <= j < |after| - 1 ensures after[j].name != AutoSaveName {
          if |works| >= MaxWorks { assert after[j] == works[j + 1]; } else { assert after[j] == works[j]; }
        }
      }
      FirstNameIndexAt(after, AutoSaveName, |after| - 1);
  }

  lemma FirstNameIndexAt(works: seq<Work>, name: string, i: nat)
    requires i < |works| && works[i].name == name
    requires forall j :: 0 <= j < i ==> works[j].name != name
    ensures FindNameIndex(works, name) == Some(i)
  {
    assert FindNameIndex(works, name).Some?;
  }

  // ---------------------------------------------------------------------
  // Building a work
  // ---------------------------------------------------------------------

  /**
   * `convertImageToBase64`: data URLs and any source that is neither a data
   * URL nor a blob URL are returned as they are; only a blob URL is read,
   * and a failed read gives `null`. `readBlob` is the result of reading it.
   */
  function ConvertImageToBase64(src: string, readBlob: Option<string>): (r: Option<string>)
    ensures !StartsWith(src, "blob:") || StartsWith(src, "data:") ==> r == Some(src)
    ensures StartsWith(src, "blob:") ==> r == readBlob
  {
    if StartsWith(src, "data:") then Some(src)
    else if StartsWith(src, "blob:") then readBlob
    else Some(src)
  }

  /**
   * `createWorkData`: the id and the time stamps come from the clock and are
   * parameters; a missing or empty name becomes `작업물_` followed by the
   * local date and time. The thumbnail is drawn from the original image
   * (`thumbnailOf` gives what `createThumbnail` resolves to for a source,
   * `None` when the image never loads). `createThumbnail` listens only for
   * `onload`, so when the original is missing (a blob URL that could not be
   * read gives `null`, which the image reads as the relative URL `null`,
   * where no image is served) or does not decode, the promise never
   * settles and no work is made.
   */
  function CreateWorkData(original: Option<string>, processed: Option<string>, settings: SavedSettings,
                          workName: Option<string>, id: string, localTime: string, isoTime: string,
                          thumbnailOf: string -> Option<string>): (w: Option<Work>)
    ensures w.Some? <==> original.Some? && thumbnailOf(original.value).Some?
    ensures w.Some? ==> w.value.originalImage == original.value && w.value.thumbnail == thumbnailOf(original.value).value
    ensures w.Some? && workName.Some? && workName.value != "" ==> w.value.name == workName.value
    ensures w.Some? && (workName.None? || workName.value == "") ==> w.value.name == "작업물_" + localTime
    ensures w.Some? ==> w.value.id == id && w.value.createdAt == isoTime && w.value.updatedAt == isoTime
    ensures w.Some? ==> w.value.processedImage == processed && w.value.settings == settings
  {
    if original.None? then None
    else match thumbnailOf(original.value)
      case None => None
      case Some(thumbnail) =>
        var name := if workName.Some? && workName.value != "" then workName.value else "작업물_" + localTime;
        Some(Work(id, name, isoTime, isoTime, original.value, processed, settings, thumbnail))
  }

  /**
   * `createThumbnail`: the longer side becomes 150 and the other keeps the
   * proportion; a square (or taller) image takes the height branch. Small
   * images are enlarged.
   */
  function ThumbnailSize(src: Size): (r: Size)
    requires src.width > 0.0 && src.height > 0.0
    ensures src.width > src.height ==> r.width == 150.0 && r.height < 150.0
    ensures src.width <= src.height ==> r.height == 150.0 && r.width <= 150.0
    ensures SameAspect(r.width, r.height, src.width, src.height)
    ensures r.width > 0.0 && r.height > 0.0
  {
    if src.width > src.height then
      var h := (src.height * 150.0) / src.width;
      ScaledBelow(src.height, src.width);
      Size(150.0, h)
    else
      var w := (src.width * 150.0) / src.height;
      assert w * src.height == src.width * 150.0;
      Size(w, 150.0)
  }

  /** Scaling the shorter side by the factor that brings the longer one to 150 keeps it below 150. */
  lemma ScaledBelow(short: real, long: real)
    requires 0.0 < short < long
    ensures (short * 150.0) / long < 150.0
    ensures (short * 150.0) / long * long == short * 150.0
  {
    var h := (short * 150.0) / long;
    assert h * long == short * 150.0;
    if h >= 150.0 {
      MulMonotone(150.0, h, long);
      assert false;
    }
  }

  /** A square image gives a 150×150 thumbnail; a 30×10 image is enlarged to 150×50. */
  lemma ThumbnailExamples()
    ensures ThumbnailSize(Size(400.0, 400.0)) == Size(150.0, 150.0)
    ensures ThumbnailSize(Size(30.0, 10.0)) == Size(150.0, 50.0)
  {
  }
}

=== FILE: zoom.dfy ===
/**
 * Zoom and pan of the preview images, in the two builds.
 *
 * The src build's magnifier keeps a zoom level in percent (25 to 300 in
 * steps of 25) and a pan offset. The public build's app keeps a scale
 * (0.5 to 3 in steps of 0.25), modelled exactly as a whole number of
 * quarters, and a translate offset. In both, panning is possible only while
 * zoomed in, and a drag sets the offset to the pointer minus the drag
 * anchor, so a pointer back at the press position leaves the offset where
 * it was.
 */
module Zoom {
  import opened Common

  datatype Point = Point(x: real, y: real)

  // ---------------------------------------------------------------------
  // src build: MagnifierManager
  // ---------------------------------------------------------------------

  const MinLevel: int := 25
  const MaxLevel: int := 300
  const LevelStep: int := 25
  const DefaultLevel: int := 100

  datatype Magnifier = Magnifier(zoomLevel: int, isDragging: bool, dragStart: Point, position: Point)

  /** A level the magnifier can reach: on the 25-step grid between 25 and 300. */
  predicate ValidLevel(level: int) {
    MinLevel <= level <= MaxLevel && level % LevelStep == 0
  }

  function CreateMagnifier(): (m: Magnifier)
    ensures ValidLevel(m.zoomLevel) && !m.isDragging
  {
    Magnifier(DefaultLevel, false, Point(0.0, 0.0), Point(0.0, 0.0))
  }

  /** `zoomIn`: one step up, capped at 300; nothing else changes. */
  function ZoomIn(m: Magnifier): (r: Magnifier)
    ensures ValidLevel(m.zoomLevel) ==> ValidLevel(r.zoomLevel)
    ensures r.zoomLevel >= m.zoomLevel || m.zoomLevel > MaxLevel
    ensures r == m.(zoomLevel := r.zoomLevel)
  {
    m.(zoomLevel := MinI(m.zoomLevel + LevelStep, MaxLevel))
  }

  /** `zoomOut`: one step down, floored at 25; nothing else changes. */
  function ZoomOut(m: Magnifier): (r: Magnifier)
    ensures ValidLevel(m.zoomLevel) ==> ValidLevel(r.zoomLevel)
    ensures r.zoomLevel <= m.zoomLevel || m.zoomLevel < MinLevel
    ensures r == m.(zoomLevel := r.zoomLevel)
  {
    m.(zoomLevel := MaxI(m.zoomLevel - LevelStep, MinLevel))
  }

  /** `resetZoom`: level 100 and offset (0, 0); the drag flag and anchor are kept. */
  function ResetZoom(m: Magnifier): (r: Magnifier)
    ensures r.zoomLevel == DefaultLevel && r.position == Point(0.0, 0.0)
    ensures r.isDragging == m.isDragging && r.dragStart == m.dragStart
  {
    m.(zoomLevel := DefaultLevel, position := Point(0.0, 0.0))
  }

  /** `updateZoomButtons`: (zoom-in disabled, zoom-out disabled). */
  function ZoomButtons(m: Magnifier): (r: (bool, bool))
    ensures r.0 <==> m.zoomLevel >= MaxLevel
    ensures r.1 <==> m.zoomLevel <= MinLevel
  {
    (m.zoomLevel >= MaxLevel, m.zoomLevel <= MinLevel)
  }

  /** `startDrag`: ignored at 100% or below; otherwise anchors the pointer relative to the offset. */
  function StartDrag(m: Magnifier, pointer: Point): (r: Magnifier)
    ensures m.zoomLevel <= DefaultLevel ==> r == m
    ensures m.zoomLevel > DefaultLevel ==>
      r.isDragging && r.zoomLevel == m.zoomLevel && r.position == m.position &&
      r.dragStart.x + m.position.x == pointer.x && r.dragStart.y + m.position.y == pointer.y
  {
    if m.zoomLevel <= DefaultLevel then m
    else m.(isDragging := true, dragStart := Point(pointer.x - m.position.x, pointer.y - m.position.y))
  }

  /** `drag`: ignored unless dragging; otherwise the offset is the pointer minus the anchor. */
  function Drag(m: Magnifier, pointer: Point): (r: Magnifier)
    ensures !m.isDragging ==> r == m
    ensures m.isDragging ==>
      r == m.(position := r.position) &&
      r.position.x + m.dragStart.x == pointer.x && r.position.y + m.dragStart.y == pointer.y
  {
    if !m.isDragging then m
    else m.(position := Point(pointer.x - m.dragStart.x, pointer.y - m.dragStart.y))
  }

  /** `endDrag`: clears the drag flag and nothing else. */
  function EndDrag(m: Magnifier): (r: Magnifier)
    ensures !r.isDragging && r == m.(isDragging := false)
  {
    m.(isDragging := false)
  }

  /** The zoom-in button is disabled exactly when zooming in would change nothing. */
  lemma ZoomInButtonMatches(m: Magnifier)
    requires ValidLevel(m.zoomLevel)
    ensures ZoomButtons(m).0 <==> ZoomIn(m) == m
  {
    if ZoomIn(m) == m { assert ZoomIn(m).zoomLevel == m.zoomLevel; }
  }

  /** The zoom-out button is disabled exactly when zooming out would change nothing. */
  lemma ZoomOutButtonMatches(m: Magnifier)
    requires ValidLevel(m.zoomLevel)
    ensures ZoomButtons(m).1 <==> ZoomOut(m) == m
  {
    if ZoomOut(m) == m { assert ZoomOut(m).zoomLevel == m.zoomLevel; }
  }

  /** Below the maximum, zooming out undoes zooming in; above the minimum, the reverse. */
  lemma ZoomInOutInverse(m: Magnifier)
    requires ValidLevel(m.zoomLevel)
    ensures m.zoomLevel < MaxLevel ==> ZoomOut(ZoomIn(m)) == m
    ensures m.zoomLevel > MinLevel ==> ZoomIn(ZoomOut(m)) == m
  {
  }

  /** Pressing and then moving to the same spot leaves the offset where it was. */
  lemma MagnifierDragRoundTrip(m: Magnifier, pointer: Point)
    requires m.zoomLevel > DefaultLevel
    ensures Drag(StartDrag(m, pointer), pointer).position == m.position
  {
  }

  datatype MagnifierEvent = ZoomInClick | ZoomOutClick | ResetClick | Press(p: Point) | Move(p: Point) | Release

  function Step(m: Magnifier, e: MagnifierEvent): Magnifier {
    match e
    case ZoomInClick => ZoomIn(m)
    case ZoomOutClick => ZoomOut(m)
    case ResetClick => ResetZoom(m)
    case Press(p) => StartDrag(m, p)
    case Move(p) => Drag(m, p)
    case Release => EndDrag(m)
  }

  function Run(m: Magnifier, events: seq<MagnifierEvent>): Magnifier
    decreases |events|
  {
    if |events| == 0 then m else Run(Step(m, events[0]), events[1..])
  }

  /** Whatever the user does, the level stays on the 25-step grid between 25 and 300. */
  lemma {:induction false} RunKeepsValidLevel(m: Magnifier, events: seq<MagnifierEvent>)
    requires ValidLevel(m.zoomLevel)
    ensures ValidLevel(Run(m, events).zoomLevel)
    decreases |events|
  {
    if |events| > 0 {
      var next := Step(m, events[0]);
      assert ValidLevel(next.zoomLevel);
      RunKeepsValidLevel(next, events[1..]);
    }
  }

  /** Starting fresh, every reachable level is valid. */
  lemma FreshMagnifierStaysValid(events: seq<MagnifierEvent>)
    ensures ValidLevel(Run(CreateMagnifier(), events).zoomLevel)
  {
    RunKeepsValidLevel(CreateMagnifier(), events);
  }

  // ---------------------------------------------------------------------
  // public build: zoom state of the app
  // ---------------------------------------------------------------------

  /** Scale bounds and step, in quarters: 0.5, 3 and 0.25. */
  const MinQuarters: int := 2
  const MaxQuarters: int := 12
  const UnitQuarters: int := 4

  datatype Viewer = Viewer(quarters: int, isDragging: bool, start: Point, translate: Point)

  function Scale(v: Viewer): real {
    v.quarters as real / 4.0
  }

  predicate ValidQuarters(q: int) {
    MinQuarters <= q <= MaxQuarters
  }

  function CreateViewer(): (v: Viewer)
    ensures Scale(v) == 1.0 && ValidQuarters(v.quarters)
  {
    Viewer(UnitQuarters, false, Point(0.0, 0.0), Point(0.0, 0.0))
  }

  /** `zoomIn`: only below scale 3, one quarter up, capped at 3. */
  function ViewerZoomIn(v: Viewer): (r: Viewer)
    ensures v.quarters >= MaxQuarters ==> r == v
    ensures v.quarters < MaxQuarters ==> r == v.(quarters := v.quarters + 1)
  {
    if v.quarters < MaxQuarters then v.(quarters := MinI(MaxQuarters, v.quarters + 1)) else v
  }

  /** `zoomOut`: only above scale 0.5, one quarter down, floored at 0.5. */
  function ViewerZoomOut(v: Viewer): (r: Viewer)
    ensures v.quarters <= MinQuarters ==> r == v
    ensures v.quarters > MinQuarters ==> r == v.(quarters := v.quarters - 1)
  {
    if v.quarters > MinQuarters then v.(quarters := MaxI(MinQuarters, v.quarters - 1)) else v
  }

  /** `resetZoom`: scale 1 and translate (0, 0); the drag flag is kept. */
  function ViewerReset(v: Viewer): (r: Viewer)
    ensures Scale(r) == 1.0 && r.translate == Point(0.0, 0.0)
    ensures r.isDragging == v.isDragging && r.start == v.start
  {
    v.(quarters := UnitQuarters, translate := Point(0.0, 0.0))
  }

  /** `updateZoomButtons`: (zoom-in disabled, zoom-out disabled). */
  function ViewerButtons(v: Viewer): (r: (bool, bool))
    ensures r.0 <==> Scale(v) >= 3.0
    ensures r.1 <==> Scale(v) <= 0.5
  {
    (v.quarters >= MaxQuarters, v.quarters <= MinQuarters)
  }

  /** A mouse event carries `clientX`/`clientY`; a touch event carries its first touch point. */
  datatype PointerEvent = Mouse(client: Point) | Touch(first: Point)

  /**
   * The pointer position of an event. The app reads `e.clientX ||
   * e.touches[0].clientX` (and likewise for y); see `PointerXAsWritten`
   * for what that does at coordinate 0. This is the intended reading: the
   * mouse position for a mouse event, the first touch for a touch event.
   */
  function PointerOf(e: PointerEvent): (p: Point)
    ensures e.Mouse? ==> p == e.client
    ensures e.Touch? ==> p == e.first
  {
    match e
    case Mouse(c) => c
    case Touch(t) => t
  }

  /** `startDrag`: ignored at scale 1 or below; otherwise anchors the pointer relative to the translate. */
  function ViewerStartDrag(v: Viewer, e: PointerEvent): (r: Viewer)
    ensures Scale(v) <= 1.0 ==> r == v
    ensures Scale(v) > 1.0 ==>
      r.isDragging && r.quarters == v.quarters && r.translate == v.translate &&
      r.start.x + v.translate.x == PointerOf(e).x && r.start.y + v.translate.y == PointerOf(e).y
  {
    if v.quarters <= UnitQuarters then v
    else
      var p := PointerOf(e);
      v.(isDragging := true, start := Point(p.x - v.translate.x, p.y - v.translate.y))
  }

  /** `drag`: ignored unless dragging at a scale above 1; otherwise translate is the pointer minus the anchor. */
  function ViewerDrag(v: Viewer, e: PointerEvent): (r: Viewer)
    ensures !v.isDragging || Scale(v) <= 1.0 ==> r == v
    ensures v.isDragging && Scale(v) > 1.0 ==>
      r == v.(translate := r.translate) &&
      r.translate.x + v.start.x == PointerOf(e).x && r.translate.y + v.start.y == PointerOf(e).y
  {
    if !v.isDragging || v.quarters <= UnitQuarters then v
    else
      var p := PointerOf(e);
      v.(translate := Point(p.x - v.start.x, p.y - v.start.y))
  }

  function ViewerEndDrag(v: Viewer): (r: Viewer)
    ensures !r.isDragging && r == v.(isDragging := false)
  {
    v.(isDragging := false)
  }

  /** The scale stays between 0.5 and 3 through both zoom buttons. */
  lemma ViewerZoomKeepsRange(v: Viewer)
    requires ValidQuarters(v.quarters)
    ensures ValidQuarters(ViewerZoomIn(v).quarters) && ValidQuarters(ViewerZoomOut(v).quarters)
    ensures 0.5 <= Scale(ViewerZoomIn(v)) <= 3.0 && 0.5 <= Scale(ViewerZoomOut(v)) <= 3.0
  {
  }

  /** Each button is disabled exactly when pressing it would change nothing. */
  lemma ViewerButtonsMatch(v: Viewer)
    requires ValidQuarters(v.quarters)
    ensures ViewerButtons(v).0 <==> ViewerZoomIn(v) == v
    ensures ViewerButtons(v).1 <==> ViewerZoomOut(v) == v
  {
    if ViewerZoomIn(v) == v { assert ViewerZoomIn(v).quarters == v.quarters; }
    if ViewerZoomOut(v) == v { assert ViewerZoomOut(v).quarters == v.quarters; }
  }

  /** Pressing and then moving to the same spot leaves the translate where it was. */
  lemma ViewerDragRoundTrip(v: Viewer, e: PointerEvent)
    requires Scale(v) > 1.0
    ensures ViewerDrag(ViewerStartDrag(v, e), e).translate == v.translate
  {
  }

  /** After a reset, panning is off until the user zooms in again, even mid-drag. */
  lemma ResetStopsPanning(v: Viewer, e: PointerEvent)
    ensures ViewerDrag(ViewerReset(v), e) == ViewerReset(v)
    ensures ViewerStartDrag(ViewerReset(v), e) == ViewerReset(v)
  {
  }

  // ---------------------------------------------------------------------
  // The pointer coordinate as the app reads it
  // ---------------------------------------------------------------------

  /**
   * `e.clientX || (e.touches && e.touches[0].clientX)` for the x coordinate.
   * `None` stands for `undefined`, which turns every offset computed from it
   * into `NaN`. A touch event has no `clientX`, so its first touch is read;
   * a mouse event has no `touches`, so a mouse `clientX` of 0 (falsy) gives
   * `undefined`.
   */
  function PointerXAsWritten(e: PointerEvent): (r: Option<real>)
    ensures e.Touch? ==> r == Some(e.first.x)
    ensures e.Mouse? ==> (r.None? <==> e.client.x == 0.0)
    ensures r.Some? ==> r.value == PointerOf(e).x
  {
    match e
    case Touch(t) => Some(t.x)
    case Mouse(c) => if c.x != 0.0 then Some(c.x) else None
  }

  /**
   * A mouse press at the left edge of the viewport (`clientX` 0) gives no
   * coordinate as written, so the drag anchor and every later translate
   * become `NaN`; the intended reading gives 0.
   */
  lemma MouseAtLeftEdge()
    ensures PointerXAsWritten(Mouse(Point(0.0, 10.0))).None?
    ensures PointerOf(Mouse(Point(0.0, 10.0))).x == 0.0
  {
  }

  /** Away from coordinate 0 the written reading and the intended one agree. */
  lemma PointerXAgreesAwayFromZero(e: PointerEvent)
    requires e.Mouse? ==> e.client.x != 0.0
    ensures PointerXAsWritten(e) == Some(PointerOf(e).x)
  {
  }
}
